=== FILE: README.md ===
# Production line and engine core, in Dafny

This project models two parts of one game repository.

The first is the production simulation of the game, written in Python:
- a `ProduceQuantity` that can give up part of its amount;
- a `Storage` of produce amounts, with a per-type capacity and an optional allow-list;
- a `ProcessDefinition` recipe;
- a `Producer` that consumes a recipe's inputs once per iteration, works for a number of cycles, and flushes the outputs once all iterations are complete.

The model keeps `Storage` and `Producer` as classes whose methods update their fields. Beside them it has value-level functions (`AddTo`, `AddAllTo`, `ConsumeFrom`, `Tick`) that the methods are proved against. The unit tests of the production line are restated as lemmas about those functions, among them the 60-pass loop that must produce exactly ten crumbles.

The second is a set of self-contained integer and string pieces of the C++ engine "Orangine":
- string utilities: prefix and suffix tests, replace-all, split;
- the enum name tables and `stringToEnum`, and `is_power_of_two`;
- the mesh byte buffers: the strided copy, widening of index buffers to 32 bits, little-endian index decoding, the bounds-checked element lookup, and the DXGI format table;
- the vertex attribute name and size tables;
- the fixed-capacity light list;
- the Direct3D 12 descriptor heap free-list allocator, the constant buffer bump allocator, and the frame's pool selection and growth rule;
- entity filter membership in All and Any modes;
- asset path override resolution;
- animation channel validation;
- the listener dispatcher and its scoped listener;
- the behavior registry;
- the material-context handle table.

Device handles, heap start addresses and upload heaps become plain offsets.

Failures follow one convention, in the shared `Outcome` module:
- An exception (`OE_THROW` in C++, `raise` in Python) becomes `Err(Thrown)` or `Failed(Thrown)`.
- A fatal check (`OE_CHECK`, `LOG(FATAL)`, a debug-build `assert`) becomes `Err(Fatal)` or `Failed(Fatal)`.
- A failing method leaves its object unchanged unless its contract says otherwise.

Two places where the sources disagree:
- The header `Orangine/OePipelineD3D12/src/Descriptor_heap_pool.h` disagrees with `Descriptor_heap_pool.cpp`. The model follows the `.cpp`.
- The cubic-spline interpolation is named `"Cubic_spline"`, as in `Orangine/OeCore/src/Renderer_enums.cpp`. The older `Renderer_enum.cpp` has `"cubic_spline"`; that older file is not part of this model.

`Orangine/OePipelineD3D12/src/Constant_buffer_pool.h` and `Frame_resources.h` are not part of this model. The constants and accessors they would declare are assumed:
- pool item sizes of 256, 512 and 1024 bytes;
- a constant buffer alignment of 256;
- `getFreeCount() == capacity - allocated`;
- `isExhausted() == (allocated >= capacity)`.

`_freeRanges` is taken to be a fixed-length array of per-size lists, whose `.at` throws past the end.

## Model

| member | source | states |
|---|---|---|
| EngineUtils.EqualFromFront | Orangine/OeCore/src/EngineUtils.cpp:82 | comparing from the front over the prefix's length is true exactly when the string's leading slice equals the prefix |
| EngineUtils.EqualFromBack | Orangine/OeCore/src/EngineUtils.cpp:88 | comparing from the back over the suffix's length is true exactly when the string's trailing slice equals the suffix |
| EngineUtils.StrStarts | Orangine/OeCore/src/EngineUtils.cpp:79-83 | `str_starts` holds exactly when the prefix is no longer than the string and matches its leading characters; a longer prefix never matches |
| EngineUtils.StrEnds | Orangine/OeCore/src/EngineUtils.cpp:85-89 | `str_ends` holds exactly when the suffix is no longer than the string and matches its trailing characters |
| EngineUtils.StartsIffConcat | Orangine/OeCore/src/EngineUtils.cpp:79-83 | a string starts with `p` exactly when it is `p` followed by some text |
| EngineUtils.EndsIffConcat | Orangine/OeCore/src/EngineUtils.cpp:85-89 | a string ends with `x` exactly when it is some text followed by `x` |
| EngineUtils.MatchesAtMeaning | Orangine/OeCore/src/EngineUtils.cpp:106 | the pattern occurs at a position exactly when that position is in range and the slice there equals the pattern |
| EngineUtils.FindFrom | Orangine/OeCore/src/EngineUtils.cpp:106 | `find` from a start position returns a position at or after the start at which the whole pattern fits in the string |
| EngineUtils.FindFromMeaning | Orangine/OeCore/src/EngineUtils.cpp:106 | `find` returns the first occurrence at or after the start position, and reports none only when no occurrence lies at or after it |
| EngineUtils.ReplacedAtMatch | Orangine/OeCore/src/EngineUtils.cpp:106-108 | at the next occurrence, the result is the text up to it, then the replacement, then the replacement of everything after the occurrence |
| EngineUtils.ReplacedShift | Orangine/OeCore/src/EngineUtils.cpp:106-108 | what replace-all produces from a position depends only on the text from that position on, never on what came before it |
| EngineUtils.ReplaceLoopStep | Orangine/OeCore/src/EngineUtils.cpp:106-109 | one replacement step of the loop keeps the final result unchanged: the rewritten string from the advanced position yields the same whole |
| EngineUtils.ReplaceAll | Orangine/OeCore/src/EngineUtils.cpp:103-111 | the in-place loop leaves the string equal to the left-to-right, non-overlapping replacement of every occurrence of `from` by `to` |
| EngineUtils.ReplaceWithItself | Orangine/OeCore/src/EngineUtils.cpp:103-111 | replacing a pattern by itself leaves the string unchanged |
| EngineUtils.NoOccurrenceUnchanged | Orangine/OeCore/src/EngineUtils.cpp:103-111 | a string with no occurrence of the pattern is left unchanged |
| EngineUtils.InsertedTextIsNotRescanned | Orangine/OeCore/src/EngineUtils.cpp:108 | the search resumes after the inserted text, so a replacement that contains the pattern is not replaced again ("a" with "a"→"aa" gives "aa") |
| EngineUtils.FirstOf | Orangine/OeCore/src/EngineUtils.cpp:120-121 | `find_first_of` from a position returns a position between it and the end of the string, the end standing for `npos` |
| EngineUtils.FirstOfMeaning | Orangine/OeCore/src/EngineUtils.cpp:120-121 | the returned position holds a delimiter unless it is the end, and no character between the start and it is a delimiter |
| EngineUtils.Split | Orangine/OeCore/src/EngineUtils.cpp:113-133 | the loop produces the non-empty runs of non-delimiter characters, in order |
| EngineUtils.SplitLoopPieces | Orangine/OeCore/src/EngineUtils.cpp:118-130 | continuing the loop from a position appends exactly the pieces of the rest of the string to what was already output |
| EngineUtils.PiecesAreClean | Orangine/OeCore/src/EngineUtils.cpp:123-124 | every piece is non-empty and contains no delimiter |
| EngineUtils.PiecesConcat | Orangine/OeCore/src/EngineUtils.cpp:113-133 | the pieces joined back together are the string with its delimiters removed, so nothing but delimiters is lost |
| EngineUtils.PowerOfTwoIffSingleBit | Orangine/OeCore/include/OeCore/EngineUtils.h:97 | `i && !(i & (i - 1))` holds for a 32-bit value exactly when it is one of the 32 single-bit values |
| EngineUtils.PowersAreShifts | Orangine/OeCore/include/OeCore/EngineUtils.h:97 | the 32 listed powers of two are exactly `1 << k` for k below 32 |
| EngineUtils.PowersAreShiftsFrom | Orangine/OeCore/include/OeCore/EngineUtils.h:97 | each group of eight listed powers of two equals the matching shifts of one |
| EngineUtils.PowerIsListed | Orangine/OeCore/include/OeCore/EngineUtils.h:97 | every value the bit test accepts is a listed power of two |
| EngineUtils.ListedIsPower | Orangine/OeCore/include/OeCore/EngineUtils.h:97 | the bit test accepts every listed power of two |
| EngineUtils.SingleBitCases | Orangine/OeCore/include/OeCore/EngineUtils.h:97 | a value the bit test accepts is one of the 32 single-bit constants |
| EngineUtils.ShiftIsPower | Orangine/OeCore/include/OeCore/EngineUtils.h:97 | every shift `1 << k` with k below 32 passes the bit test |
| EngineUtils.IndexOfFrom | Orangine/OeCore/include/OeCore/EngineUtils.h:147-156 | the search from a position finds the first table entry equal to the value, or throws when no later entry equals it |
| EngineUtils.StringToEnum | Orangine/OeCore/include/OeCore/EngineUtils.h:147-156 | `stringToEnum` returns the index of the first entry equal to the text, and succeeds exactly when the text is in the table |
| EngineUtils.DistinctRoundTrip | Orangine/OeCore/include/OeCore/EngineUtils.h:147-156 | in a table of distinct names, looking up the name at index i gives back i |
| EngineUtils.UnknownNameThrows | Orangine/OeCore/include/OeCore/EngineUtils.h:155 | the lookup throws exactly when the text is in no entry of the table |
| RendererEnums.MaterialAlphaModeOrdinal | Orangine/OeCore/src/Renderer_enums.cpp:13-18 | the value's ordinal indexes the name table, which has exactly one name per value |
| RendererEnums.StringToMaterialAlphaMode | Orangine/OeCore/src/Renderer_enums.cpp:23-26 | succeeds exactly for a name in the table and returns the value carrying that name; any other string throws |
| RendererEnums.MaterialAlphaModeRoundTrip | Orangine/OeCore/src/Renderer_enums.cpp:13-26 | turning a value into its name and back gives the same value |
| RendererEnums.MaterialFaceCullModeOrdinal | Orangine/OeCore/src/Renderer_enums.cpp:31-36 | the value's ordinal indexes the name table, which has exactly one name per value |
| RendererEnums.StringToMaterialFaceCullMode | Orangine/OeCore/src/Renderer_enums.cpp:41-44 | succeeds exactly for a name in the table and returns the value carrying that name; any other string throws |
| RendererEnums.MaterialFaceCullModeRoundTrip | Orangine/OeCore/src/Renderer_enums.cpp:31-44 | turning a value into its name and back gives the same value |
| RendererEnums.MaterialLightModeOrdinal | Orangine/OeCore/src/Renderer_enums.cpp:49-53 | the value's ordinal indexes the name table, which has exactly one name per value |
| RendererEnums.StringToMaterialLightMode | Orangine/OeCore/src/Renderer_enums.cpp:58-61 | succeeds exactly for a name in the table and returns the value carrying that name; any other string throws |
| RendererEnums.MaterialLightModeRoundTrip | Orangine/OeCore/src/Renderer_enums.cpp:49-61 | turning a value into its name and back gives the same value |
| RendererEnums.RenderPassBlendModeOrdinal | Orangine/OeCore/src/Renderer_enums.cpp:66-71 | the value's ordinal indexes the name table, which has exactly one name per value |
| RendererEnums.StringToRenderPassBlendMode | Orangine/OeCore/src/Renderer_enums.cpp:76-79 | succeeds exactly for a name in the table and returns the value carrying that name; any other string throws |
| RendererEnums.RenderPassBlendModeRoundTrip | Orangine/OeCore/src/Renderer_enums.cpp:66-79 | turning a value into its name and back gives the same value |
| RendererEnums.RenderPassDepthModeOrdinal | Orangine/OeCore/src/Renderer_enums.cpp:84-90 | the value's ordinal indexes the name table, which has exactly one name per value |
| RendererEnums.StringToRenderPassDepthMode | Orangine/OeCore/src/Renderer_enums.cpp:95-98 | succeeds exactly for a name in the table and returns the value carrying that name; any other string throws |
| RendererEnums.RenderPassDepthModeRoundTrip | Orangine/OeCore/src/Renderer_enums.cpp:84-98 | turning a value into its name and back gives the same value |
| RendererEnums.RenderPassStencilModeOrdinal | Orangine/OeCore/src/Renderer_enums.cpp:103-107 | the value's ordinal indexes the name table, which has exactly one name per value |
| RendererEnums.StringToRenderPassStencilMode | Orangine/OeCore/src/Renderer_enums.cpp:112-115 | succeeds exactly for a name in the table and returns the value carrying that name; any other string throws |
| RendererEnums.RenderPassStencilModeRoundTrip | Orangine/OeCore/src/Renderer_enums.cpp:103-115 | turning a value into its name and back gives the same value |
| RendererEnums.RenderPassDestinationOrdinal | Orangine/OeCore/src/Renderer_enums.cpp:120-125 | the value's ordinal indexes the name table, which has exactly one name per value |
| RendererEnums.StringToRenderPassDestination | Orangine/OeCore/src/Renderer_enums.cpp:130-133 | succeeds exactly for a name in the table and returns the value carrying that name; any other string throws |
| RendererEnums.RenderPassDestinationRoundTrip | Orangine/OeCore/src/Renderer_enums.cpp:120-133 | turning a value into its name and back gives the same value |
| RendererEnums.VertexAttributeOrdinal | Orangine/OeCore/src/Renderer_enums.cpp:138-148 | the value's ordinal indexes the name table, which has exactly one name per value |
| RendererEnums.StringToVertexAttribute | Orangine/OeCore/src/Renderer_enums.cpp:153-156 | succeeds exactly for a name in the table and returns the value carrying that name; any other string throws |
| RendererEnums.VertexAttributeRoundTrip | Orangine/OeCore/src/Renderer_enums.cpp:138-156 | turning a value into its name and back gives the same value |
| RendererEnums.MeshIndexTypeOrdinal | Orangine/OeCore/src/Renderer_enums.cpp:161-165 | the value's ordinal indexes the name table, which has exactly one name per value |
| RendererEnums.StringToMeshIndexType | Orangine/OeCore/src/Renderer_enums.cpp:170-173 | succeeds exactly for a name in the table and returns the value carrying that name; any other string throws |
| RendererEnums.MeshIndexTypeRoundTrip | Orangine/OeCore/src/Renderer_enums.cpp:161-173 | turning a value into its name and back gives the same value |
| RendererEnums.AnimationTypeOrdinal | Orangine/OeCore/src/Renderer_enums.cpp:178-184 | the value's ordinal indexes the name table, which has exactly one name per value |
| RendererEnums.StringToAnimationType | Orangine/OeCore/src/Renderer_enums.cpp:189-192 | succeeds exactly for a name in the table and returns the value carrying that name; any other string throws |
| RendererEnums.AnimationTypeRoundTrip | Orangine/OeCore/src/Renderer_enums.cpp:178-192 | turning a value into its name and back gives the same value |
| RendererEnums.AnimationInterpolationOrdinal | Orangine/OeCore/src/Renderer_enums.cpp:197-202 | the value's ordinal indexes the name table, which has exactly one name per value |
| RendererEnums.StringToAnimationInterpolation | Orangine/OeCore/src/Renderer_enums.cpp:207-210 | succeeds exactly for a name in the table and returns the value carrying that name; any other string throws |
| RendererEnums.AnimationInterpolationRoundTrip | Orangine/OeCore/src/Renderer_enums.cpp:197-210 | turning a value into its name and back gives the same value |
| RendererEnums.ElementTypeOrdinal | Orangine/OeCore/src/Renderer_enums.cpp:215-224 | the value's ordinal indexes the name table, which has exactly one name per value |
| RendererEnums.StringToElementType | Orangine/OeCore/src/Renderer_enums.cpp:229-232 | succeeds exactly for a name in the table and returns the value carrying that name; any other string throws |
| RendererEnums.ElementTypeRoundTrip | Orangine/OeCore/src/Renderer_enums.cpp:215-232 | turning a value into its name and back gives the same value |
| RendererEnums.ElementComponentOrdinal | Orangine/OeCore/src/Renderer_enums.cpp:237-246 | the value's ordinal indexes the name table, which has exactly one name per value |
| RendererEnums.StringToElementComponent | Orangine/OeCore/src/Renderer_enums.cpp:251-254 | succeeds exactly for a name in the table and returns the value carrying that name; any other string throws |
| RendererEnums.ElementComponentRoundTrip | Orangine/OeCore/src/Renderer_enums.cpp:237-254 | turning a value into its name and back gives the same value |
| RendererEnums.DebugDisplayModeOrdinal | Orangine/OeCore/src/Renderer_enums.cpp:259-265 | the value's ordinal indexes the name table, which has exactly one name per value |
| RendererEnums.StringToDebugDisplayMode | Orangine/OeCore/src/Renderer_enums.cpp:270-273 | succeeds exactly for a name in the table and returns the value carrying that name; any other string throws |
| RendererEnums.DebugDisplayModeRoundTrip | Orangine/OeCore/src/Renderer_enums.cpp:259-273 | turning a value into its name and back gives the same value |
| RendererEnums.SamplerFilterTypeOrdinal | Orangine/OeCore/src/Renderer_enums.cpp:278-286 | the value's ordinal indexes the name table, which has exactly one name per value |
| RendererEnums.StringToSamplerFilterType | Orangine/OeCore/src/Renderer_enums.cpp:291-294 | succeeds exactly for a name in the table and returns the value carrying that name; any other string throws |
| RendererEnums.SamplerFilterTypeRoundTrip | Orangine/OeCore/src/Renderer_enums.cpp:278-294 | turning a value into its name and back gives the same value |
| RendererEnums.SamplerTextureAddressModeOrdinal | Orangine/OeCore/src/Renderer_enums.cpp:299-306 | the value's ordinal indexes the name table, which has exactly one name per value |
| RendererEnums.StringToSamplerTextureAddressMode | Orangine/OeCore/src/Renderer_enums.cpp:311-314 | succeeds exactly for a name in the table and returns the value carrying that name; any other string throws |
| RendererEnums.SamplerTextureAddressModeRoundTrip | Orangine/OeCore/src/Renderer_enums.cpp:299-314 | turning a value into its name and back gives the same value |
| RendererEnums.SamplerComparisonFuncOrdinal | Orangine/OeCore/src/Renderer_enums.cpp:319-329 | the value's ordinal indexes the name table, which has exactly one name per value |
| RendererEnums.StringToSamplerComparisonFunc | Orangine/OeCore/src/Renderer_enums.cpp:334-337 | succeeds exactly for a name in the table and returns the value carrying that name; any other string throws |
| RendererEnums.SamplerComparisonFuncRoundTrip | Orangine/OeCore/src/Renderer_enums.cpp:319-337 | turning a value into its name and back gives the same value |
| MeshUtils.DecodeEncode | Orangine/OeCore/include/OeCore/Mesh_utils.h:27-32 | reading back, little-endian, the bytes of a value that fits the width gives the value |
| MeshUtils.ConvertIndexValueMeaning | Orangine/OeCore/include/OeCore/Mesh_utils.h:23-53 | an index read from the buffer always fits in 32 bits. Float indices throw. A signed index with its sign bit set fails the non-negative check, and every other component type succeeds |
| MeshUtils.LittleEndianBound | Orangine/OeCore/include/OeCore/Mesh_utils.h:27-32 | a value read from n bytes is below 256^n |
| MeshUtils.ConvertEncoded | Orangine/OeCore/include/OeCore/Mesh_utils.h:27-47 | a value written at the component's width, below half the range when the type is signed, is read back as that value |
| MeshUtils.NegativeSignedIndexIsFatal | Orangine/OeCore/include/OeCore/Mesh_utils.h:29-42 | the bytes FF FF are rejected as a signed short but read as 65535 as an unsigned short |
| MeshUtils.GatherLength | Orangine/OeCore/src/Mesh_utils.cpp:13-16 | the buffer built from `count` strided elements of `width` bytes holds exactly count × width bytes |
| MeshUtils.GatherElement | Orangine/OeCore/src/Mesh_utils.cpp:18-31 | byte j of element i of the new buffer is byte j of the source element at offset start + i × stride |
| MeshUtils.GatherContiguous | Orangine/OeCore/src/Mesh_utils.cpp:21-23 | when the stride equals the element size, the strided gather is the single contiguous slice that `memcpy` copies |
| MeshUtils.MemCopy | Orangine/OeCore/src/Mesh_utils.cpp:22 | the copy writes the source bytes at the destination position and leaves the bytes after them unchanged |
| MeshUtils.CopyStrided | Orangine/OeCore/src/Mesh_utils.cpp:24-32 | the element-by-element loop fills the buffer with exactly the strided gather of the source |
| MeshUtils.SizeCheckFails | Orangine/OeCore/src/Mesh_utils.cpp:11-14 | the two bounds asserts, with the end summed in 32 bits, never fail on a copy that fits, and fail exactly on the overruns when the sum does not wrap |
| MeshUtils.WrappedSizeCheckMissesOverrun | Orangine/OeCore/src/Mesh_utils.cpp:11-14 | an end that wraps past 2^32 back inside the data passes both asserts although the copy runs past the data |
| MeshUtils.CreateBuffer | Orangine/OeCore/src/Mesh_utils.cpp:9-36 | fails exactly when the 32-bit bounds asserts fail, which on the calls modelled is exactly when the requested elements run past the source data. Otherwise the new buffer holds the source elements, gathered at the source stride and packed tightly |
| MeshUtils.CreateBufferS | Orangine/OeCore/src/Mesh_utils.cpp:38-52 | the checked overload fails its checks exactly when a size_t argument does not fit in 32 bits (the count and the offset strictly below the maximum) or the elements run past the data. Otherwise it builds the same buffer as `create_buffer` |
| MeshUtils.ConvertAll | Orangine/OeCore/src/Mesh_utils.cpp:67-70 | a successful conversion of a source index buffer yields one value per element |
| MeshUtils.ConvertAllElement | Orangine/OeCore/src/Mesh_utils.cpp:67-70 | entry k of a successful conversion is element k of the source, read at offset start + k × stride |
| MeshUtils.ConvertAllFailsOnBadIndex | Orangine/OeCore/src/Mesh_utils.cpp:67-70 | one element that cannot be read as an index makes the whole conversion fail |
| MeshUtils.ConvertAllFitsUint32 | Orangine/OeCore/src/Mesh_utils.cpp:68 | every converted index fits in the 32-bit destination |
| MeshUtils.WidenEntry | Orangine/OeCore/src/Mesh_utils.cpp:65-69 | entry i of the widened buffer is the four little-endian bytes of index i |
| MeshUtils.StoreIndex | Orangine/OeCore/src/Mesh_utils.cpp:68 | storing one index reads it from the source and appends its four bytes after the ones already written |
| MeshUtils.ConvertIndices | Orangine/OeCore/src/Mesh_utils.cpp:64-71 | the loop fails with the first element's fault exactly when the conversion fails. Otherwise the destination holds every converted index as four little-endian bytes |
| MeshUtils.CreateIndexBuffer | Orangine/OeCore/src/Mesh_utils.cpp:54-79 | fails when the 32-bit bounds asserts fail, in particular when four bytes per element run past the source data, and fails as the conversion fails. Otherwise it returns a tightly packed unsigned-int accessor over the widened indices, with the source's element count |
| MeshUtils.IndexBufferReadsBack | Orangine/OeCore/src/Mesh_utils.cpp:73-78 | element i of the new unsigned-int accessor lies at byte 4i and reads back as index i |
| MeshUtils.IndexBufferEntryDecodes | Orangine/OeCore/src/Mesh_utils.cpp:73-78 | every widened entry decodes as an unsigned int to the source index |
| MeshUtils.GetDxgiFormat | Orangine/OeCore/src/Mesh_utils.cpp:114-126 | `getDxgiFormat` throws exactly for a pair of element type and component that has no row in the format table |
| MeshUtils.DxgiFormatMatchesLayout | Orangine/OeCore/src/Mesh_utils.cpp:81-126 | the format found has as many channels as the element type has components, and channels of the requested component type |
| MeshUtils.DxgiRowMatches | Orangine/OeCore/src/Mesh_utils.cpp:81-112 | every row of the format table pairs an element layout with a format of that layout |
| MeshUtils.DxgiFormatUnsupported | Orangine/OeCore/src/Mesh_utils.cpp:81-123 | the unsupported pairs are exactly: any matrix, any byte component, and three-component shorts |
| MeshData.GetIndexed | Orangine/OeCore/include/OeCore/Mesh_data.h:50-61 | the positions are computed modulo 2^64, as `size_t` is, and an accepted position never lies past the buffer. When the element's end does not wrap, element i lies at offset + i × stride, and asking for one whose end is past the buffer throws |
| MeshData.WrappedIndexIsAccepted | Orangine/OeCore/include/OeCore/Mesh_data.h:52-55 | index 2^63 with stride 2 wraps to position 0 of a 2-byte buffer and is accepted there |
| MeshData.AccessorGetIndexed | Orangine/OeCore/include/OeCore/Mesh_data.h:73-76 | the accessor locates element i with its own offset and stride, under the same bound, whenever the element's end does not wrap past 2^64 |
| MeshData.IndexedElementsAreOrderedAndDisjoint | Orangine/OeCore/include/OeCore/Mesh_data.h:50-61 | when element j is in range and its end does not wrap, every earlier element is in range too, and ends at or before element j starts |
| MeshData.GetVertexCount | Orangine/OeCore/src/Mesh_data.cpp:32-37 | the vertex count is 0 without accessors. Otherwise it is the count of the accessor whose semantic comes first in the map's order |
| MeshData.ParseDecimalString | Orangine/OeCore/src/Mesh_data.cpp:57 | the decimal text of a semantic index reads back as that index |
| MeshData.VsInputName | Orangine/OeCore/src/Mesh_data.cpp:39-60 | the shader input name is the attribute's base name for semantic index 0. Otherwise it is the base name, then `_`, then a suffix of decimal digits with no leading zero that reads back as the index; only one such text exists per index |
| MeshData.DecimalStringDigits | Orangine/OeCore/src/Mesh_data.cpp:56-59 | the decimal text of an index is made of digits only, and for a positive index it is non-empty with no leading zero |
| MeshData.JointsAndWeightsShareInvalidName | Orangine/OeCore/src/Mesh_data.cpp:41-53 | joints and weights both get the invalid input name, at every semantic index |
| MeshData.ListedBaseNamesDistinct | Orangine/OeCore/src/Mesh_data.cpp:39-53 | the attributes that do have a name of their own get distinct base names |
| MeshData.NumComponents | Orangine/OeCore/src/Mesh_data.cpp:62-81 | joints and weights throw. Tangents have 4 components, texture coordinates 2, and every other attribute between 2 and 4 |
| MeshData.SemanticName | Orangine/OeCore/src/Mesh_data.cpp:83-89 | each attribute's HLSL semantic name comes from the table, which has one name per attribute |
| MeshData.SemanticNameInjective | Orangine/OeCore/src/Mesh_data.cpp:19-28 | distinct attributes have distinct semantic names |
| LightData.UnshadowedEntry | Orangine/OeCore/include/OeCore/Render_light_data.h:23-28 | an unshadowed light entry keeps the given type, position or direction and colour, with the shadow map disabled and no bias or dimension |
| LightData.ToInt32 | Orangine/OeCore/include/OeCore/Render_light_data.h:43 | the unsigned array slice stored in an int32 is the value with the same bits modulo 2^32. A slice below 2^31 is unchanged |
| LightData.LightConstants.constructor | Orangine/OeCore/include/OeCore/Render_light_data.h:90-94 | a new light list has the given capacity, no active lights, and every slot default-initialised |
| LightData.LightConstants.AddLight | Orangine/OeCore/include/OeCore/Render_light_data.h:96-103 | a light is added exactly when the list is not full. It goes in the first unused slot and is appended to the active lights; a full list changes nothing |
| LightData.LightConstants.Clear | Orangine/OeCore/include/OeCore/Render_light_data.h:105 | clearing leaves no active light |
| LightData.RenderLightData.constructor | Orangine/OeCore/include/OeCore/Render_light_data.h:13-16 | a new render light data has an empty list of the given capacity and no image-based lighting maps |
| LightData.RenderLightData.AddPointLight | Orangine/OeCore/include/OeCore/Render_light_data.h:23-28 | while the list has room, appends an unshadowed point light at the position; a full list is left unchanged |
| LightData.RenderLightData.AddDirectionalLight | Orangine/OeCore/include/OeCore/Render_light_data.h:29-34 | while the list has room, appends an unshadowed directional light; a full list is left unchanged |
| LightData.RenderLightData.AddShadowedDirectionalLight | Orangine/OeCore/include/OeCore/Render_light_data.h:35-52 | while the list has room, appends a directional light carrying the shadow map's slice and width (each cast to int32), matrix and bias; a full list is left unchanged |
| LightData.RenderLightData.AddAmbientLight | Orangine/OeCore/include/OeCore/Render_light_data.h:53-58 | while the list has room, appends an unshadowed ambient light at the origin; a full list is left unchanged |
| LightData.RenderLightData.SetEnvironmentIblMap | Orangine/OeCore/include/OeCore/Render_light_data.h:59-65 | the three image-based lighting maps become the given ones |
| LightData.RenderLightData.Clear | Orangine/OeCore/include/OeCore/Render_light_data.h:66 | clearing empties the light list |
| LightData.UnlitListRefusesEveryLight | Orangine/OeCore/src/Entity_render_manager.h:128 | the unlit render data, of capacity 0, accepts no light at all |
| LightData.LitListKeepsFirstEight | Orangine/OeCore/src/Entity_render_manager.h:129 | the lit render data, of capacity 8, keeps the first eight lights offered and refuses the rest |
| DescriptorHeapPool.TilesDisjoint | Orangine/OePipelineD3D12/src/Descriptor_heap_pool.cpp:68-73 | ranges carved from the top of the heap never overlap: each ends at or before every later one starts, and all lie below the current top |
| DescriptorHeapPool.TilesBounded | Orangine/OePipelineD3D12/src/Descriptor_heap_pool.cpp:70-72 | every range carved from the top of the heap ends within the allocated part |
| DescriptorHeapPool.RequeueAppends | Orangine/OePipelineD3D12/src/Descriptor_heap_pool.cpp:117-121 | the frame-start pass succeeds exactly when every deferred range's size has a free-list slot. Each free list then grows by the offsets of the deferred ranges of its size, in order |
| DescriptorHeapPool.FrameStartTwiceRequeuesTwice | Orangine/OePipelineD3D12/src/Descriptor_heap_pool.cpp:117-121 | the deferred list of a frame is never cleared, so two frame starts on the same frame index free each deferred range twice |
| DescriptorHeapPool.DescriptorHeapPool.constructor | Orangine/OePipelineD3D12/src/Descriptor_heap_pool.cpp:9-18 | a new pool records the heap's size, type, visibility and handle increment. It has no heap yet, nothing allocated, and empty free and deferred lists |
| DescriptorHeapPool.DescriptorHeapPool.Initialize | Orangine/OePipelineD3D12/src/Descriptor_heap_pool.cpp:34-58 | fails its check and changes nothing when a heap already exists, the heap would be empty, or a shader-visible heap is an RTV or DSV heap or exceeds the shader-visible size limits. Otherwise it creates the heap with every descriptor available and empties every list |
| DescriptorHeapPool.DescriptorHeapPool.Destroy | Orangine/OePipelineD3D12/src/Descriptor_heap_pool.cpp:60-62 | destroying drops the heap |
| DescriptorHeapPool.DescriptorHeapPool.AvailableDescriptorCount | Orangine/OePipelineD3D12/src/Descriptor_heap_pool.cpp:88-91 | the available count and the allocated count add up to the heap's size |
| DescriptorHeapPool.DescriptorHeapPool.AllocateRange | Orangine/OePipelineD3D12/src/Descriptor_heap_pool.cpp:64-86 | a size beyond the free-list slots throws. A size whose free list is non-empty reuses that list's last offset. Otherwise the range is carved from the top, failing its check when too few descriptors remain. Every range returned has the requested size and its offset as handle |
| DescriptorHeapPool.DescriptorHeapPool.ReleaseRange | Orangine/OePipelineD3D12/src/Descriptor_heap_pool.cpp:104-110 | releasing a null or empty range fails its check, and a size beyond the free-list slots throws; neither changes anything. Otherwise the offset is appended to its size's free list and the caller's range is emptied |
| DescriptorHeapPool.DescriptorHeapPool.ReleaseRangeAtFrameStart | Orangine/OePipelineD3D12/src/Descriptor_heap_pool.cpp:112-116 | the range is appended to the given frame's deferred list, and the caller's range is emptied |
| DescriptorHeapPool.DescriptorHeapPool.HandleFrameStart | Orangine/OePipelineD3D12/src/Descriptor_heap_pool.cpp:117-121 | an unknown frame index throws. Otherwise the frame's deferred ranges go back onto the free lists, leaving the deferred list as it was |
| DescriptorHeapPool.FreshAllocationsFitHeap | Orangine/OePipelineD3D12/src/Descriptor_heap_pool.cpp:68-73 | in a pool whose invariant holds, ranges carved from the top are pairwise disjoint and lie inside the heap |
| DescriptorHeapPool.FreshAllocationsAreAdjacent | Orangine/OePipelineD3D12/src/Descriptor_heap_pool.cpp:68-85 | two allocations carved from the top are adjacent: the second starts where the first ends |
| ConstantBufferPool.ConstantBufferPool.constructor | Orangine/OePipelineD3D12/src/Constant_buffer_pool.cpp:5-23 | a new pool has the given item size and capacity and nothing allocated |
| ConstantBufferPool.ConstantBufferPool.GetTop | Orangine/OePipelineD3D12/src/Constant_buffer_pool.cpp:25-36 | there is a top item exactly while the pool is not exhausted. Its offset is the allocated items times the item size: inside the buffer and aligned to 256 bytes |
| ConstantBufferPool.ConstantBufferPool.Pop | Orangine/OePipelineD3D12/src/Constant_buffer_pool.cpp:38-46 | popping succeeds exactly for a positive count no larger than the free count, and allocates that many items. Any other count fails its check and allocates nothing |
| ConstantBufferPool.ConstantBufferPool.Reset | Orangine/OePipelineD3D12/src/Constant_buffer_pool.cpp:48-51 | after a reset nothing is allocated and the whole capacity is free |
| ConstantBufferPool.AlignedMultiple | Orangine/OePipelineD3D12/src/Constant_buffer_pool.cpp:32 | with an item size that is a multiple of 256, every item offset is 256-aligned |
| ConstantBufferPool.SuccessiveItemsAreAdjacent | Orangine/OePipelineD3D12/src/Constant_buffer_pool.cpp:25-46 | the top after popping one item lies exactly one item size past the previous top |
| FrameResources.FrameResources.constructor | Orangine/OePipelineD3D12/src/Frame_resources.cpp:5-16 | a new frame has one fresh, empty pool per item size, each with the initial capacity; no retired pools and no bound root signature |
| FrameResources.FrameResources.GetOrCreateConstantBufferPoolToFit | Orangine/OePipelineD3D12/src/Frame_resources.cpp:18-45 | an item larger than the largest pool size fails its check. Otherwise the pool of the smallest size that fits is returned, with room for the items. A pool with too little room is retired and replaced by a fresh one of capacity max(items, twice the old capacity) |
| FrameResources.FrameResources.Reset | Orangine/OePipelineD3D12/src/Frame_resources.cpp:47-57 | reset empties every current pool and drops the retired ones |
| FrameResources.FrameResources.SetCurrentBoundRootSignature | Orangine/OePipelineD3D12/src/Frame_resources.cpp:59-63 | binding succeeds when unbinding or when nothing is bound. Binding over a bound signature fails its check and keeps the old one |
| FrameResources.SlotFor | Orangine/OePipelineD3D12/src/Frame_resources.cpp:22-31 | the slot chosen is the first pool size that fits the item. There is none only for items over 1024 bytes |
| FrameResources.RebindNeedsUnbind | Orangine/OePipelineD3D12/src/Frame_resources.cpp:59-63 | binding a second signature over a first fails, but succeeds after unbinding |
| EntityFilter.FoundAllExactlyWhenSameSize | Orangine/OeCore/src/Entity_filter_impl.cpp:22-35 | counting the filter types found among an entity's components reaches the filter's size exactly when the entity has every filter type |
| EntityFilter.EntityFilter.constructor | Orangine/OeCore/src/Entity_filter_impl.cpp:9-15 | a new filter holds the set of the given component types and its mode, with no entities and no notifications |
| EntityFilter.EntityFilter.HandleEntityAdd | Orangine/OeCore/src/Entity_filter_impl.cpp:17-53 | an entity the mode accepts joins the filter and an Added notification is published. Any other entity changes nothing |
| EntityFilter.EntityFilter.HandleEntityRemove | Orangine/OeCore/src/Entity_filter_impl.cpp:55-70 | an entity with any filter type leaves the filter and a Removed notification is published. Any other entity changes nothing |
| EntityFilter.EntityFilter.HandleEntityComponentsUpdated | Orangine/OeCore/src/Entity_filter_impl.cpp:72-77 | a component update is a removal followed by an addition: membership and notifications are those two steps in turn |
| EntityFilter.EntityFilter.UpdatedMembership | Orangine/OeCore/src/Entity_filter_impl.cpp:72-77 | after an update only the updated entity's membership can change. It is a member exactly when the mode accepts it, or when it was one and has no filter type |
| EntityFilter.EntityFilter.UpdateEvents | Orangine/OeCore/src/Entity_filter_impl.cpp:72-77 | an update publishes Removed exactly when the entity has some filter type and Added exactly when the mode accepts it |
| EntityFilter.EmptyFilter | Orangine/OeCore/src/Entity_filter_impl.cpp:22-52 | a filter without types accepts every entity in All mode and none in Any mode |
| EntityFilter.AllModeIgnoresDuplicates | Orangine/OeCore/src/Entity_filter_impl.cpp:23-35 | All mode accepts exactly when the filter types are a subset of the entity's component set, however often a component repeats |
| EntityFilter.MatchedEntitiesAreRemovable | Orangine/OeCore/src/Entity_filter_impl.cpp:17-70 | an entity accepted by a non-empty filter has a filter type, so removing it takes it back out |
| AssetManager.AssetManager.constructor | Orangine/OeCore/src/Asset_manager.cpp:16 | a new asset manager is uninitialised, with an empty data path and no overrides |
| AssetManager.AssetManager.Initialize | Orangine/OeCore/src/Asset_manager.cpp:18 | initialising marks the manager initialised |
| AssetManager.AssetManager.PreInitSetDataPath | Orangine/OeCore/src/Asset_manager.cpp:24-29 | the data path can be set only before initialisation. Afterwards the call throws and the path is kept |
| AssetManager.AssetManager.SetDataPathOverrides | Orangine/OeCore/src/Asset_manager.cpp:31-33 | the overrides become the given map |
| AssetManager.AssetManager.LoadConfig | Orangine/OeCore/src/Asset_manager.cpp:55-60 | before initialisation, the configured data path and overrides are adopted. Afterwards the data path setter throws and nothing changes |
| AssetManager.AssetManager.MakeAbsoluteAssetPath | Orangine/OeCore/src/Asset_manager.cpp:40-53 | a path under some override key resolves to that key's directory, then `/`, then the whole path, using the first matching key in the map's iteration order. A path under no key falls back to the data path only when fallback is allowed and overrides exist. Otherwise it throws |
| AssetManager.AnyMatchingKeyMayWin | Orangine/OeCore/src/Asset_manager.cpp:41-45 | with several matching keys, whichever comes first in iteration order wins, so any matching key can be the one used |
| AssetManager.OverrideKeepsWholePath | Orangine/OeCore/src/Asset_manager.cpp:43 | the resolved path starts with the override directory and a `/`, followed by the entire original path, key included |
| AnimationController.ExpectedValueCount | Orangine/OeCore/src/Animation_controller_component.cpp:31 | the expected value count is the product of keyframe count and values per keyframe, computed in 32 bits: it equals the true product whenever that fits |
| AnimationController.ChannelValidSmall | Orangine/OeCore/src/Animation_controller_component.cpp:20-37 | when the product fits in 32 bits, a channel is valid exactly when it has a keyframe, a cubic spline has at least two, and the value count is keyframes × values per keyframe |
| AnimationController.WrappedCountCheck | Orangine/OeCore/src/Animation_controller_component.cpp:31-32 | the 32-bit product wraps: a channel with 2^32 keyframes of one value and no values passes the count check |
| AnimationController.AnimationControllerComponent.AddAnimation | Orangine/OeCore/src/Animation_controller_component.cpp:9-43 | adding succeeds exactly for a non-empty new name whose channels are all valid, and the animation is then found by its name. An empty name, a duplicate name or an invalid channel throws and adds nothing |
| AnimationController.AnimationControllerComponent.AnimationByName | Orangine/OeCore/src/Animation_controller_component.cpp:45-51 | the lookup finds an animation exactly when one is stored under the name. A missing name throws |
| AnimationController.DuplicateNameKeepsFirst | Orangine/OeCore/src/Animation_controller_component.cpp:15-17 | adding a second animation under a taken name throws and the first stays |
| Dispatcher.EraseKeyAt | Orangine/OeCore/include/OeCore/Dispatcher.h:34 | erasing a listener's node removes exactly that node and keeps the others in order |
| Dispatcher.EraseKeyKeepsDistinct | Orangine/OeCore/include/OeCore/Dispatcher.h:34 | after an erase the nodes stay distinct and the erased node is gone. No new node appears |
| Dispatcher.ListenerId.Default | Orangine/OeCore/include/OeCore/Dispatcher.h:12-14 | a default id refers to no listener |
| Dispatcher.ListenerId.Of | Orangine/OeCore/include/OeCore/Dispatcher.h:17-20 | an id made from a node is valid and remembers that node |
| Dispatcher.Dispatcher.constructor | Orangine/OeCore/include/OeCore/Dispatcher.h:48 | a new dispatcher has no listeners |
| Dispatcher.Dispatcher.AddListener | Orangine/OeCore/include/OeCore/Dispatcher.h:27-30 | the listener is appended at the end, and a fresh, valid id naming its node is returned |
| Dispatcher.Dispatcher.RemoveListener | Orangine/OeCore/include/OeCore/Dispatcher.h:31-37 | through a valid id, exactly that listener's node is erased and the others keep their order. The id becomes invalid, so a second removal or a default id changes nothing |
| Dispatcher.Dispatcher.InvokeListeners | Orangine/OeCore/include/OeCore/Dispatcher.h:40-45 | every listener is called once, in the order added |
| Dispatcher.ScopedListener.constructor | Orangine/OeCore/include/OeCore/Dispatcher.h:68-71 | a scoped listener subscribes its listener at the end of the list |
| Dispatcher.ScopedListener.Destroy | Orangine/OeCore/include/OeCore/Dispatcher.h:72-75 | destroying a scoped listener unsubscribes exactly its own listener |
| Dispatcher.ScopedListenerRestoresList | Orangine/OeCore/include/OeCore/Dispatcher.h:64-80 | subscribing and then destroying a scoped listener leaves the dispatcher's listeners as they were |
| BehaviorManager.RegisterAllMaps | Orangine/OeCore/src/Behavior_manager.cpp:29 | registering behaviors with distinct names maps each name to its behavior, and keeps every other name |
| BehaviorManager.InitializeCalls | Orangine/OeCore/src/Behavior_manager.cpp:26-27 | one initialize call per pending behavior, in order |
| BehaviorManager.HandleSceneCalls | Orangine/OeCore/src/Behavior_manager.cpp:34-36 | one scene call per initialised behavior, in order |
| BehaviorManager.ShutdownCalls | Orangine/OeCore/src/Behavior_manager.cpp:15-17 | one shutdown call per initialised behavior, in order |
| BehaviorManager.HandleEntityCalls | Orangine/OeCore/src/Behavior_manager.cpp:42-44 | one entity call per entity of the filter, in order |
| BehaviorManager.EntityCallsCount | Orangine/OeCore/src/Behavior_manager.cpp:38-45 | a tick makes exactly one entity call per entity in each behavior's filter |
| BehaviorManager.BehaviorManager.AddForScene | Orangine/OeCore/src/Behavior_manager.cpp:68-82 | a behavior is queued exactly when its name is neither pending nor registered. Otherwise the call throws and the queue is unchanged |
| BehaviorManager.BehaviorManager.AddForComponentTypes | Orangine/OeCore/src/Behavior_manager.cpp:54-66 | an entity behavior with a new name is registered together with a filter over its component types; a taken name throws and changes nothing |
| BehaviorManager.BehaviorManager.AddForComponentType | Orangine/OeCore/src/Behavior_manager.cpp:48-52 | a single component type registers the behavior under its name and adds an All-mode filter over that one type. A taken name throws and leaves both the name map and the filter list unchanged |
| BehaviorManager.BehaviorManager.Tick | Orangine/OeCore/src/Behavior_manager.cpp:24-46 | a tick initialises and registers the pending behaviors, then runs every scene behavior, then every entity behavior on each entity of its filter |
| BehaviorManager.BehaviorManager.InitializePending | Orangine/OeCore/src/Behavior_manager.cpp:26-32 | pending behaviors are initialised in order, moved to the initialised list and registered by name; none stays pending |
| BehaviorManager.BehaviorManager.RunSceneBehaviors | Orangine/OeCore/src/Behavior_manager.cpp:34-36 | every initialised scene behavior is run once, in order |
| BehaviorManager.BehaviorManager.RunEntityBehaviors | Orangine/OeCore/src/Behavior_manager.cpp:38-45 | every entity behavior is run on each entity of its filter, behavior by behavior |
| BehaviorManager.BehaviorManager.RunEntityBehavior | Orangine/OeCore/src/Behavior_manager.cpp:42-44 | one behavior is run on each of the filter's entities, in order |
| BehaviorManager.BehaviorManager.Shutdown | Orangine/OeCore/src/Behavior_manager.cpp:11-22 | shutdown calls each initialised behavior's shutdown in order, then forgets every behavior |
| BehaviorManager.TickRegistersPending | Orangine/OeCore/src/Behavior_manager.cpp:26-31 | after a tick, each behavior that was pending is registered under its name |
| MaterialManager.HandleToIndex | Orangine/OePipelineD3D12/src/D3D12_material_manager.cpp:48 | a positive handle names the index that maps back to it |
| MaterialManager.IndexToHandle | Orangine/OePipelineD3D12/src/D3D12_material_manager.cpp:50-53 | every index gets a positive handle, so no context has handle 0 |
| MaterialManager.HandleIndexRoundTrip | Orangine/OePipelineD3D12/src/D3D12_material_manager.cpp:48-53 | the two conversions are inverse on indices and on positive handles |
| MaterialManager.Lookup | Orangine/OePipelineD3D12/src/D3D12_material_manager.cpp:599-611 | a handle names a context exactly when it lies between 1 and the number of contexts. The index found maps back to the handle |
| MaterialManager.LookupStable | Orangine/OePipelineD3D12/src/D3D12_material_manager.cpp:599-611 | a valid handle keeps naming the same context as more contexts are created |
| MaterialManager.LookupInjective | Orangine/OePipelineD3D12/src/D3D12_material_manager.cpp:599-611 | distinct valid handles name distinct contexts |
| MaterialManager.MaterialManager.DestroyDeviceDependentResources | Orangine/OePipelineD3D12/src/D3D12_material_manager.cpp:164 | dropping the device resources drops every context, so no handle is valid any more |
| MaterialManager.MaterialManager.CreateMaterialContext | Orangine/OePipelineD3D12/src/D3D12_material_manager.cpp:166-175 | a new context, not ready and with the default state, is appended. Its handle is the new count and names it, and every handle valid before stays valid |
| MaterialManager.MaterialManager.MaterialContextImpl | Orangine/OePipelineD3D12/src/D3D12_material_manager.cpp:599-611 | a context is found exactly for a valid handle, and it is the context at that handle's position |
| MaterialManager.MaterialManager.GetMaterialStateIdentifier | Orangine/OePipelineD3D12/src/D3D12_material_manager.cpp:177-186 | a valid handle yields its context's state identifier and true. An invalid handle yields false and leaves the caller's identifier untouched |
| MaterialManager.MaterialManager.IsMaterialContextDataReady | Orangine/OePipelineD3D12/src/D3D12_material_manager.cpp:286-292 | a valid handle yields its context's readiness. An invalid handle fails the check |
| MaterialManager.MaterialManager.SetDataReady | Orangine/OePipelineD3D12/src/D3D12_material_manager.cpp:294-300 | a valid handle sets only its own context's readiness. An invalid handle fails the check and changes nothing |
| MaterialManager.SetDataReadyReadsBack | Orangine/OePipelineD3D12/src/D3D12_material_manager.cpp:286-300 | readiness set through a handle is read back through it, and any other handle sees its context unchanged |
| MaterialManager.SuccessiveHandles | Orangine/OePipelineD3D12/src/D3D12_material_manager.cpp:166-175 | two successive creations return consecutive handles, each naming its own new context |
| Production.Take | Game/production/__init__.py:29-36 | taking more than the quantity raises. Otherwise the result is a new quantity of the amount taken, of the same produce, and what remains and what was taken add up to the original |
| Production.ListAllows | Game/production/__init__.py:84-91 | an allow-list admits exactly the names on it |
| Production.ContainsIn | Game/production/__init__.py:120-125 | storage contains a quantity exactly when the produce has an entry holding at least that amount |
| Production.ContainsZeroIffEntry | Game/production/__init__.py:120-125 | a zero quantity is contained exactly when its name has an entry, even one emptied by a removal |
| Production.AddToMeaning | Game/production/__init__.py:100-118 | produce the allow-list refuses comes back whole and storage is untouched. Otherwise only that produce's amount changes: it becomes the lesser of the capacity and the sum, the stored amount and the leftover together account for the sum, and a leftover is returned exactly when the sum exceeds the capacity |
| Production.AddAllTo | Game/production/__init__.py:75-82 | adding a list returns at most one leftover per item |
| Production.AddAllSnoc | Game/production/__init__.py:75-82 | adding a list and then one more item is adding the longer list |
| Production.AddAllConcat | Game/production/__init__.py:75-82 | adding two lists in turn is adding their concatenation: the final storage is the same and the leftovers are joined in order |
| Production.AddAllLeftoversNonEmpty | Game/production/__init__.py:116-118 | a leftover of admitted produce is never empty |
| Production.ConsumeFrom | Game/production/__init__.py:133-141 | consumption succeeds exactly when storage contains the quantity |
| Production.ConsumeFromMeaning | Game/production/__init__.py:133-141 | consuming lowers only that produce's amount, by exactly the quantity, and keeps every stored name |
| Production.AddToKeepsBound | Game/production/__init__.py:109-114 | adding never lifts any amount above the capacity |
| Production.AddAllKeepsBound | Game/production/__init__.py:75-82 | adding a whole list never lifts any amount above the capacity |
| Production.ConsumeKeepsBound | Game/production/__init__.py:133-141 | consuming keeps every amount within the capacity |
| Production.Storage.constructor | Game/production/__init__.py:70-73 | a new storage has the given capacity and allow-list and holds nothing |
| Production.Storage.Quantity | Game/production/__init__.py:127-131 | the quantity of a produce never stored is 0; otherwise it is the stored amount |
| Production.Storage.Add | Game/production/__init__.py:100-118 | the new storage and the leftover are those `AddTo` describes, and the capacity bound is kept |
| Production.Storage.AddAll | Game/production/__init__.py:75-82 | the loop leaves the storage and the leftovers that adding the items one by one gives, and keeps the capacity bound |
| Production.Storage.EnforceConsume | Game/production/__init__.py:133-141 | consumption succeeds exactly when the storage contains the quantity, and then removes it. Otherwise it raises and the storage is untouched |
| Production.CanAddMeansNoLeftover | Game/production/__init__.py:93-118 | `can_add` holds exactly when the produce is admitted and adding it leaves no leftover; the whole quantity is then stored |
| Production.DefinitionNames | Game/production/__init__.py:158-159 | the names of a list of quantities are its produce names, in order |
| Production.ConsumeSeqKeepsBound | Game/production/__init__.py:203-207 | consuming a recipe's inputs keeps every amount within the capacity |
| Production.ConsumeDistinctInputs | Game/production/__init__.py:194-208 | when every input is present and no produce repeats, consumption succeeds. Each input's amount drops by exactly its quantity and every other amount is unchanged |
| Production.DuplicateInputsRaise | Game/production/__init__.py:194-208 | a recipe naming the same produce twice can pass the presence check and still raise part-way, after the first input was taken: 3 apples against two inputs of 2 leaves 1 apple and raises |
| Production.Producer.constructor | Game/production/__init__.py:152-160 | a new producer is idle with no progress and no completed iterations. Its storage has the given capacity and admits exactly the recipe's input and output names. The source's defaults, an empty name and a capacity of 20, are the constants `DefaultProducerName` and `DefaultMaxStorage`, which callers pass explicitly |
| Production.Producer.ConsumeInputs | Game/production/__init__.py:194-208 | a missing input reports so and consumes nothing. Otherwise the inputs are consumed in order, reporting success exactly when no consumption raised |
| Production.Producer.DoWork | Game/production/__init__.py:162-192 | one call of `do_work` moves the producer's state exactly as one step of the production state machine `Tick` does, and keeps the storage's capacity bound |
| Production.Producer.FlushOutputs | Game/production/__init__.py:181-192 | flushing moves the producer exactly as the state machine's flush does |
| Production.ConsumeStopsAtFailure | Game/production/__init__.py:203-207 | once one input fails, the remaining inputs are not consumed |
| Production.StallOnMissingInput | Game/production/__init__.py:167-172 | an idle producer whose inputs are not all present stays exactly as it is |
| Production.NoConsumptionWhileProcessing | Game/production/__init__.py:167-169 | a producer already working consumes nothing: no stored amount drops and nothing raises |
| Production.AddAllGrows | Game/production/__init__.py:75-82 | adding a list never lowers a stored amount |
| Production.TickKeepsProgressBelowCycles | Game/production/__init__.py:174-178 | progress stays below the cycles per iteration, and moves only by one or back to 0 |
| Production.FlushOnCompletion | Game/production/__init__.py:174-192 | the tick that completes the last iteration ends processing and flushes the outputs only if every one of them fits. Otherwise nothing is stored and the completed count stays at the iteration count |
| Production.FlushAllOrNothing | Game/production/__init__.py:181-192 | a retried flush, on a working tick after all iterations are complete, likewise adds every output or none, and keeps the completed count when it adds none |
| Production.FlushAddsEveryOutput | Game/production/__init__.py:189-190 | a flush of distinct outputs that all fit adds each output's full quantity and leaves no leftover |
| Production.AddAllUntouched | Game/production/__init__.py:75-82 | adding a list leaves the amount of a produce not on it unchanged |
| Production.TickKeepsBound | Game/production/__init__.py:162-192 | a step of the producer never lifts any amount above the capacity |
| Production.OverrunIsPermanent | Game/production/__init__.py:174-181 | once the completed count passes the iteration count it never drops back, so the outputs are never flushed again |
| ProductionScenarios.KitchenFilterIsProcessNames | Game/production/__init__.py:158-160 | the test kitchen's storage admits exactly the apple, rhubarb, sugar and crumble of its recipe |
| ProductionScenarios.Refill | Game/test_production.py:159-163 | restocking k batches adds 2k apples, k rhubarb and k sugar while they fit, with no leftover |
| ProductionScenarios.SingleOneCycleIteration | Game/test_production.py:39-60 | one batch and a one-cycle, one-iteration recipe: a crumble appears after one step and the producer is idle again |
| ProductionScenarios.SingleTwoCycleIteration | Game/test_production.py:62-83 | two batches and a two-iteration recipe: no crumble after the first step, one after the second |
| ProductionScenarios.DoubleOneCycleIteration | Game/test_production.py:85-106 | a two-cycle iteration: still working and no crumble after one step, done with a crumble after two |
| ProductionScenarios.InsufficientInputStalls | Game/test_production.py:108-121 | with empty storage a step changes nothing |
| ProductionScenarios.InsufficientOutputStorageStalls | Game/test_production.py:123-143 | with the crumble store full, the inputs are consumed but the crumble cannot be flushed, and the iteration stays counted |
| ProductionScenarios.PassCyclesThroughPhases | Game/test_production.py:156-170 | the test loop's pass moves the producer round six phases, two iterations of three work cycles, and takes a crumble out only on the sixth |
| ProductionScenarios.SixPasses | Game/test_production.py:156-170 | six passes of the loop bring the producer back to its start and yield one crumble |
| ProductionScenarios.FullLoops | Game/test_production.py:156-172 | every 6c passes of the loop yield exactly c crumbles |
| ProductionScenarios.MultipleFullLoops | Game/test_production.py:146-172 | sixty passes of the loop from an empty producer yield exactly ten crumbles |
| ProductionScenarios.StalledFlushOverruns | Game/production/__init__.py:167-192 | when a flush fails and the next iteration completes, the completed count goes past the iteration count, even after the crumbles are taken away |

## Left out

- MeshData.IndexedElementsAreOrderedAndDisjoint: stated only for an element whose end does not wrap past 2^64; with a wrap, `getIndexed` can accept an index at a lower position than an earlier one (see `WrappedIndexIsAccepted`).
- The `array_size` template used by the enum tables is compile-time C++. The table sizes it checks are stated by each `...Ordinal` function's contract.
- MeshUtils.CreateBuffer: does not model the 32-bit wrap-around of the byte width `elementCount * elementSize`; its requires keeps that product and the arguments below 2^32.
- MeshUtils.CreateBuffer: the bounds check `sourceOffset + byteWidth` is modelled with its 32-bit wrap. When the wrapped end lands back inside the data, the asserts pass and the source copies past the end of the data (undefined behaviour); the requires excludes these calls.
- MeshUtils.CreateBufferS: inherits both wraps of `create_buffer`. On calls whose arguments pass its own asserts, its requires keeps the byte width below 2^32 and excludes a wrapped end that lands inside the data.
- MeshUtils.CreateIndexBuffer: does not model the 32-bit wrap-around of `srcElementCount * 4`; its requires keeps that product below 2^32.
- MeshUtils.CreateIndexBuffer: the bounds check `sourceOffset + dstByteWidth` is modelled with its 32-bit wrap; a call whose wrapped end lands back inside the data reads past it in the source, and the requires excludes it.
- MeshUtils.CreateBuffer: on a call that passes the size check with a stride other than the element size, requires every strided read to lie inside the source. The source reads past the end of its data there, which is undefined behaviour rather than a modelled failure.
- MeshUtils.CreateIndexBuffer: on a call that passes the size check, requires every strided source read to lie inside the source. The source checks only `sourceOffset + srcElementCount * 4` against the data size and would otherwise read past the end.
- Floating-point work is out of the model: colour encoding, bounding boxes, light intensities and matrices, which are carried as opaque values.
- Direct3D device objects are out of the model: descriptor heap creation and its failure, the CPU and GPU start handles (an offset stands for a handle), upload heaps, and the mapped memory of constant buffers.
- The GPU handle of a descriptor range is not modelled; `cpuHandle` holds the offset.
- Logging and debug names are out of the model.
- Dispatcher.Dispatcher.InvokeListeners: listeners run as opaque values, so a listener that adds or removes listeners while being called is not modelled. The result is the sequence of listeners called.
- The maximum shader-visible heap sizes (1000000 descriptors, 2048 samplers) come from Direct3D 12's limits, not from a file of this model.
- The order in which `std::unordered_map` is iterated is not specified. `MakeAbsoluteAssetPath` takes that order as a parameter.
- Entity filter listeners (`add_listener` and the publish loops that call them and drop expired ones) are not modelled. The notifications are recorded as an event sequence instead.
- BehaviorManager: the entity lists of each behavior's filter come from the scene's entity filters, which are a parameter of `Tick`; the filters themselves live in the scene.
- `renderImGui` and every other UI path are out of the model.
- The material manager's shader compilation, root signatures, pipeline states, texture loading, UTF-8 conversion and `loadMaterialToContext` are Direct3D work outside the model; only the context handle table is modelled.
- Production.AddToMeaning: the leftover is stated to carry the added produce's definition. At Game/production/__init__.py:117 the leftover is built with the whole incoming `ProduceQuantity` in the definition's place, which a typed model cannot express; the amount is modelled exactly.
- Production quantities are natural numbers. The source would accept a negative quantity, which no caller passes.
- Production.ListAllows: the allow-list test at Game/production/__init__.py:89 compares names with `is`, object identity; the model compares them as strings, which agrees whenever equal names are the same interned object.
- Legacy duplicate trees in the repository (older copies of the renderer and pipeline) are not part of this model.
- `game.py`, the game's scripting, UI, glTF loading, threading and the third-party scripts are not part of this model.
- The AnimationController constructor has no behaviour of its own beyond an empty map, and the animation playback code needs floating point.

=== FILE: animation_controller.dfy ===
/** The animations attached to an entity, by name.

    Before an animation is stored, every one of its channels is checked: it
    must have a keyframe, a cubic-spline channel must have two, and the
    number of keyframe values must be the number of keyframes times the
    values per keyframe. Any failed check throws before anything is stored.
    The keyframe times and values themselves are floating-point data that
    the checks only count; a channel is described here by its interpolation,
    its keyframe count, its values per keyframe and its value count. */
module AnimationController {
  import opened Outcome
  import RendererEnums

  const Uint32Limit: nat := 0x1_0000_0000

  datatype AnimationChannel = AnimationChannel(
    interpolationType: RendererEnums.AnimationInterpolation,
    keyframeTimeCount: nat,
    valuesPerKeyFrame: nat,
    keyframeValueCount: nat)

  datatype Animation = Animation(channels: seq<AnimationChannel>)

  /** The keyframe count cast to 32 bits and multiplied by the values per
      keyframe in 32-bit unsigned arithmetic. */
  function ExpectedValueCount(c: AnimationChannel): (r: nat)
    requires c.valuesPerKeyFrame < Uint32Limit
    ensures r < Uint32Limit
    ensures c.keyframeTimeCount * c.valuesPerKeyFrame < Uint32Limit ==> r == c.keyframeTimeCount * c.valuesPerKeyFrame
  {
    ((c.keyframeTimeCount % Uint32Limit) * c.valuesPerKeyFrame) % Uint32Limit
  }

  /** A channel that passes every check. */
  predicate ChannelValid(c: AnimationChannel)
    requires c.valuesPerKeyFrame < Uint32Limit
  {
    && c.keyframeTimeCount >= 1
    && (c.interpolationType == RendererEnums.CubicSpline ==> c.keyframeTimeCount >= 2)
    && ExpectedValueCount(c) == c.keyframeValueCount
  }

  predicate WellTyped(a: Animation)
  {
    forall k :: 0 <= k < |a.channels| ==> a.channels[k].valuesPerKeyFrame < Uint32Limit
  }

  /** The checks read the same as the plain arithmetic whenever the
      keyframe count times the values per keyframe fits in 32 bits. */
  lemma ChannelValidSmall(c: AnimationChannel)
    requires c.valuesPerKeyFrame < Uint32Limit
    requires c.keyframeTimeCount * c.valuesPerKeyFrame < Uint32Limit
    ensures ChannelValid(c) <==>
      && c.keyframeTimeCount >= 1
      && (c.interpolationType == RendererEnums.CubicSpline ==> c.keyframeTimeCount >= 2)
      && c.keyframeTimeCount * c.valuesPerKeyFrame == c.keyframeValueCount
  {
  }

  /** In 32-bit arithmetic 2^32 keyframes of one value each expect no
      values at all: the count check lets such a channel through with zero
      values. */
  lemma WrappedCountCheck()
    ensures ChannelValid(AnimationChannel(RendererEnums.AnimationInterpolation.Linear, Uint32Limit, 1, 0))
  {
  }

  class AnimationControllerComponent {
    /** `_nameToAnimation`. */
    var nameToAnimation: map<string, Animation>

    constructor()
      ensures nameToAnimation == map[]
    {
      nameToAnimation := map[];
    }

    predicate ContainsAnimationByName(animationName: string)
      reads this
    {
      animationName in nameToAnimation
    }

    /** Stores `animation` under `animationName`. An empty name, a name
        already in use, or a channel that fails its checks throws, and then
        nothing is stored. */
    method AddAnimation(animationName: string, animation: Animation) returns (status: Status)
      requires WellTyped(animation)
      modifies this
      ensures status == Done <==>
        && animationName != ""
        && animationName !in old(nameToAnimation)
        && forall k :: 0 <= k < |animation.channels| ==> ChannelValid(animation.channels[k])
      ensures status == Done ==>
        nameToAnimation == old(nameToAnimation)[animationName := animation]
        && AnimationByName(animationName) == Ok(animation)
      ensures status != Done ==> status == Failed(Thrown) && nameToAnimation == old(nameToAnimation)
    {
      if animationName == "" {
        return Failed(Thrown);
      }
      if ContainsAnimationByName(animationName) {
        return Failed(Thrown);
      }
      for i := 0 to |animation.channels|
        invariant forall k :: 0 <= k < i ==> ChannelValid(animation.channels[k])
      {
        var channel := animation.channels[i];
        if channel.keyframeTimeCount == 0 {
          return Failed(Thrown);
        }
        if channel.interpolationType == RendererEnums.CubicSpline {
          if channel.keyframeTimeCount < 2 {
            return Failed(Thrown);
          }
        }
        if ((channel.keyframeTimeCount % Uint32Limit) * channel.valuesPerKeyFrame) % Uint32Limit
           != channel.keyframeValueCount {
          return Failed(Thrown);
        }
      }
      nameToAnimation := nameToAnimation[animationName := animation];
      return Done;
    }

    /** The animation stored under `animationName`; an unknown name
        throws. */
    function AnimationByName(animationName: string): (r: Result<Animation>)
      reads this
      ensures r.Ok? <==> ContainsAnimationByName(animationName)
      ensures r.Err? ==> r.fault == Thrown
    {
      if animationName in nameToAnimation then Ok(nameToAnimation[animationName]) else Err(Thrown)
    }
  }

  /** Adding under a name that is taken fails and leaves the animation
      stored under that name as it was. */
  method DuplicateNameKeepsFirst(component: AnimationControllerComponent, name: string, first: Animation, second: Animation)
    returns (secondStatus: Status)
    requires WellTyped(first) && WellTyped(second)
    requires name !in component.nameToAnimation && name != ""
    requires forall k :: 0 <= k < |first.channels| ==> ChannelValid(first.channels[k])
    modifies component
    ensures secondStatus == Failed(Thrown)
    ensures component.AnimationByName(name) == Ok(first)
  {
    var firstStatus := component.AddAnimation(name, first);
    secondStatus := component.AddAnimation(name, second);
  }
}

=== FILE: asset_manager.dfy ===
/** Where the engine looks for its assets.

    The asset manager turns a relative asset path into an absolute one. A
    map of data-path overrides sends every path that starts with one of its
    keys to the directory given as that key's value; other paths go to the
    data path, when falling back to it is allowed. The override map is an
    unordered map, so when several keys match, the one met first in the
    map's iteration order wins; that order is a parameter here. */
module AssetManager {
  import opened Outcome
  import EngineUtils

  class AssetManager {
    var initialized: bool
    var dataPath: string
    var dataPathOverrides: map<string, string>
    /** Whether a path that matches no override may use the data path. */
    const fallbackDataPathAllowed: bool

    constructor(fallbackDataPathAllowed: bool)
      ensures !initialized && dataPath == "" && dataPathOverrides == map[]
      ensures this.fallbackDataPathAllowed == fallbackDataPathAllowed
    {
      initialized := false;
      dataPath := "";
      dataPathOverrides := map[];
      this.fallbackDataPathAllowed := fallbackDataPathAllowed;
    }

    method Initialize()
      modifies this`initialized
      ensures initialized
    {
      initialized := true;
    }

    /** Sets the data path; once the manager is initialized that throws
        and the path stays as it was. */
    method PreInitSetDataPath(dataPath: string) returns (status: Status)
      modifies this`dataPath
      ensures status == Done <==> !initialized
      ensures status == Done ==> this.dataPath == dataPath
      ensures status != Done ==> status == Failed(Thrown) && this.dataPath == old(this.dataPath)
    {
      if initialized {
        return Failed(Thrown);
      }
      this.dataPath := dataPath;
      return Done;
    }

    /** Replaces the whole override map. */
    method SetDataPathOverrides(paths: map<string, string>)
      modifies this`dataPathOverrides
      ensures dataPathOverrides == paths
    {
      dataPathOverrides := paths;
    }

    /** Takes the data path and then the overrides from the configuration;
        when setting the data path throws, the overrides are not set. */
    method LoadConfig(configDataPath: string, configOverrides: map<string, string>) returns (status: Status)
      modifies this`dataPath, this`dataPathOverrides
      ensures status == Done <==> !initialized
      ensures status == Done ==> dataPath == configDataPath && dataPathOverrides == configOverrides
      ensures status != Done ==>
        status == Failed(Thrown) && dataPath == old(dataPath) && dataPathOverrides == old(dataPathOverrides)
    {
      status := PreInitSetDataPath(configDataPath);
      if status != Done {
        return;
      }
      SetDataPathOverrides(configOverrides);
    }

    /** The absolute path of `path`, with the override keys visited in
        `iterationOrder`: the value of the first key that `path` starts with,
        then `/` and the whole of `path`; with no such key, the data path
        instead, when fallback is allowed and the override map is not empty;
        otherwise an exception. */
    method MakeAbsoluteAssetPath(path: string, iterationOrder: seq<string>) returns (r: Result<string>)
      requires forall k :: k in iterationOrder <==> k in dataPathOverrides
      ensures (exists k :: k in dataPathOverrides && EngineUtils.StrStarts(path, k)) ==>
        && r.Ok?
        && exists i :: 0 <= i < |iterationOrder|
             && EngineUtils.StrStarts(path, iterationOrder[i])
             && (forall j :: 0 <= j < i ==> !EngineUtils.StrStarts(path, iterationOrder[j]))
             && r.value == dataPathOverrides[iterationOrder[i]] + "/" + path
      ensures (forall k :: k in dataPathOverrides ==> !EngineUtils.StrStarts(path, k)) ==>
        if fallbackDataPathAllowed && |dataPathOverrides| > 0 then r == Ok(dataPath + "/" + path)
        else r == Err(Thrown)
      ensures r.Err? ==> r == Err(Thrown) && forall k :: k in dataPathOverrides ==> !EngineUtils.StrStarts(path, k)
    {
      for i := 0 to |iterationOrder|
        invariant forall j :: 0 <= j < i ==> !EngineUtils.StrStarts(path, iterationOrder[j])
      {
        var key := iterationOrder[i];
        if EngineUtils.StrStarts(path, key) {
          return Ok(dataPathOverrides[key] + "/" + path);
        }
      }
      if fallbackDataPathAllowed && |dataPathOverrides| > 0 {
        return Ok(dataPath + "/" + path);
      }
      return Err(Thrown);
    }
  }

  /** The map's iteration order decides between matching keys: whichever
      matching key the map visits first supplies the directory. */
  method AnyMatchingKeyMayWin(manager: AssetManager, path: string, key: string, others: seq<string>)
    returns (r: Result<string>)
    requires key in manager.dataPathOverrides && EngineUtils.StrStarts(path, key)
    requires forall k :: k in [key] + others <==> k in manager.dataPathOverrides
    ensures r == Ok(manager.dataPathOverrides[key] + "/" + path)
  {
    var order := [key] + others;
    r := manager.MakeAbsoluteAssetPath(path, order);
    assert order[0] == key;
    ghost var i :| 0 <= i < |order| && EngineUtils.StrStarts(path, order[i])
      && (forall j :: 0 <= j < i ==> !EngineUtils.StrStarts(path, order[j]))
      && r.value == manager.dataPathOverrides[order[i]] + "/" + path;
    assert i == 0;
  }

  /** An overridden path keeps the whole asset path after the override
      directory: taking off the directory and the separator gives the path
      back. */
  lemma OverrideKeepsWholePath(directory: string, path: string)
    ensures EngineUtils.StrStarts(directory + "/" + path, directory + "/")
    ensures (directory + "/" + path)[|directory| + 1..] == path
  {
    assert (directory + "/" + path)[..|directory| + 1] == directory + "/";
  }
}

=== FILE: behavior_manager.dfy ===
/** The behavior manager: scene behaviors, which run once per tick, and
    entity behaviors, which run once per tick on every entity of a filter.

    A scene behavior added with `addForScene` waits in the pending list until
    the next tick, which initializes it, records it under its name and moves
    it to the initialized list. An entity behavior is registered under its
    name together with the entity filter it works on. The calls the manager
    makes into the behaviors are recorded as a sequence of events. The
    entity filters belong to the scene graph; which entities a filter holds
    at a tick is a parameter of `Tick`. */
module BehaviorManager {
  import opened Outcome
  import EntityFilter

  /** A behavior, known by its name; `handle` tells apart two behaviors of
      the same name. */
  datatype Behavior = Behavior(name: string, handle: nat)

  /** The filter an entity behavior asked for, and the behavior. */
  datatype EntityFilterBehavior =
    EntityFilterBehavior(componentTypes: set<EntityFilter.ComponentType>, mode: EntityFilter.FilterMode, behavior: Behavior)

  datatype BehaviorCall =
    | Initialize(name: string)
    | HandleScene(name: string)
    | HandleEntity(name: string, entityId: nat)
    | Shutdown(name: string)

  predicate NamesDistinct(bs: seq<Behavior>)
  {
    forall i, j :: 0 <= i < j < |bs| ==> bs[i].name != bs[j].name
  }

  predicate NamedIn(bs: seq<Behavior>, name: string)
  {
    exists i :: 0 <= i < |bs| && bs[i].name == name
  }

  /** The name map after recording each behavior of `bs` in order. */
  function RegisterAll(m: map<string, Behavior>, bs: seq<Behavior>): map<string, Behavior>
  {
    if bs == [] then m
    else RegisterAll(m, bs[..|bs| - 1])[bs[|bs| - 1].name := bs[|bs| - 1]]
  }

  /** Recording behaviors of distinct names adds exactly their names, each
      mapped to its own behavior, and keeps every other entry. */
  lemma {:induction false} RegisterAllMaps(m: map<string, Behavior>, bs: seq<Behavior>)
    requires NamesDistinct(bs)
    ensures forall n :: n in RegisterAll(m, bs) <==> n in m || NamedIn(bs, n)
    ensures forall i :: 0 <= i < |bs| ==> bs[i].name in RegisterAll(m, bs) && RegisterAll(m, bs)[bs[i].name] == bs[i]
    ensures forall n :: n in m && !NamedIn(bs, n) ==> RegisterAll(m, bs)[n] == m[n]
    decreases |bs|
  {
    if bs != [] {
      var init := bs[..|bs| - 1];
      RegisterAllMaps(m, init);
      forall n ensures NamedIn(bs, n) <==> NamedIn(init, n) || n == bs[|bs| - 1].name {
        NamedInSnoc(bs, n);
      }
    }
  }

  /** A name is among a non-empty list's exactly when it is among all but
      the last element's or is the last element's. */
  lemma NamedInSnoc(bs: seq<Behavior>, n: string)
    requires bs != []
    ensures NamedIn(bs, n) <==> NamedIn(bs[..|bs| - 1], n) || n == bs[|bs| - 1].name
  {
    var init := bs[..|bs| - 1];
    if NamedIn(init, n) {
      var i :| 0 <= i < |init| && init[i].name == n;
      assert bs[i].name == n;
    }
    if NamedIn(bs, n) && n != bs[|bs| - 1].name {
      var i :| 0 <= i < |bs| && bs[i].name == n;
      assert init[i].name == n;
    }
  }

  function InitializeCalls(bs: seq<Behavior>): (r: seq<BehaviorCall>)
    ensures |r| == |bs|
    ensures forall i :: 0 <= i < |bs| ==> r[i] == Initialize(bs[i].name)
  {
    if bs == [] then [] else InitializeCalls(bs[..|bs| - 1]) + [Initialize(bs[|bs| - 1].name)]
  }

  function HandleSceneCalls(bs: seq<Behavior>): (r: seq<BehaviorCall>)
    ensures |r| == |bs|
    ensures forall i :: 0 <= i < |bs| ==> r[i] == HandleScene(bs[i].name)
  {
    if bs == [] then [] else HandleSceneCalls(bs[..|bs| - 1]) + [HandleScene(bs[|bs| - 1].name)]
  }

  function ShutdownCalls(bs: seq<Behavior>): (r: seq<BehaviorCall>)
    ensures |r| == |bs|
    ensures forall i :: 0 <= i < |bs| ==> r[i] == Shutdown(bs[i].name)
  {
    if bs == [] then [] else ShutdownCalls(bs[..|bs| - 1]) + [Shutdown(bs[|bs| - 1].name)]
  }

  /** One entity behavior run over the entities of its filter, in order. */
  function HandleEntityCalls(name: string, entities: seq<nat>): (r: seq<BehaviorCall>)
    ensures |r| == |entities|
    ensures forall i :: 0 <= i < |entities| ==> r[i] == HandleEntity(name, entities[i])
  {
    if entities == [] then []
    else HandleEntityCalls(name, entities[..|entities| - 1]) + [HandleEntity(name, entities[|entities| - 1])]
  }

  /** Every entity behavior, in order, run over its filter's entities. */
  function EntityCalls(efbs: seq<EntityFilterBehavior>, filterEntities: seq<seq<nat>>): (r: seq<BehaviorCall>)
    requires |filterEntities| == |efbs|
  {
    if efbs == [] then []
    else
      EntityCalls(efbs[..|efbs| - 1], filterEntities[..|efbs| - 1])
      + HandleEntityCalls(efbs[|efbs| - 1].behavior.name, filterEntities[|efbs| - 1])
  }

  /** The calls of the entity behaviors add up to one call per entity of
      each filter. */
  lemma {:induction false} EntityCallsCount(efbs: seq<EntityFilterBehavior>, filterEntities: seq<seq<nat>>)
    requires |filterEntities| == |efbs|
    ensures |EntityCalls(efbs, filterEntities)| == TotalEntities(filterEntities)
    decreases |efbs|
  {
    if efbs != [] {
      EntityCallsCount(efbs[..|efbs| - 1], filterEntities[..|efbs| - 1]);
    }
  }

  function TotalEntities(filterEntities: seq<seq<nat>>): nat
  {
    if filterEntities == [] then 0
    else TotalEntities(filterEntities[..|filterEntities| - 1]) + |filterEntities[|filterEntities| - 1]|
  }

  class BehaviorManager {
    /** `_newSceneBehaviors`: added, waiting for the next tick. */
    var newSceneBehaviors: seq<Behavior>
    var initializedSceneBehaviors: seq<Behavior>
    var nameToSceneBehavior: map<string, Behavior>
    var entityFilterBehaviors: seq<EntityFilterBehavior>
    var nameToEntityBehavior: map<string, Behavior>
    /** The calls made into behaviors so far, oldest first. */
    var calls: seq<BehaviorCall>

    /** No two pending behaviors share a name, and none has the name of an
        initialized one. */
    ghost predicate Valid()
      reads this
    {
      NamesDistinct(newSceneBehaviors)
      && forall i :: 0 <= i < |newSceneBehaviors| ==> newSceneBehaviors[i].name !in nameToSceneBehavior
    }

    constructor()
      ensures Valid() && newSceneBehaviors == [] && initializedSceneBehaviors == []
      ensures nameToSceneBehavior == map[] && entityFilterBehaviors == [] && nameToEntityBehavior == map[]
      ensures calls == []
    {
      newSceneBehaviors := [];
      initializedSceneBehaviors := [];
      nameToSceneBehavior := map[];
      entityFilterBehaviors := [];
      nameToEntityBehavior := map[];
      calls := [];
    }

    /** Queues a scene behavior for the next tick. A name that is already
        pending or already initialized throws. */
    method AddForScene(behavior: Behavior) returns (status: Status)
      requires Valid()
      modifies this`newSceneBehaviors
      ensures Valid()
      ensures status == Done <==>
        !NamedIn(old(newSceneBehaviors), behavior.name) && behavior.name !in nameToSceneBehavior
      ensures status == Done ==> newSceneBehaviors == old(newSceneBehaviors) + [behavior]
      ensures status != Done ==> status == Failed(Thrown) && newSceneBehaviors == old(newSceneBehaviors)
    {
      var existingUninitialized := false;
      for i := 0 to |newSceneBehaviors|
        invariant existingUninitialized <==> NamedIn(newSceneBehaviors[..i], behavior.name)
      {
        assert newSceneBehaviors[..i + 1] == newSceneBehaviors[..i] + [newSceneBehaviors[i]];
        if !existingUninitialized && newSceneBehaviors[i].name == behavior.name {
          existingUninitialized := true;
        }
        assert existingUninitialized ==> NamedIn(newSceneBehaviors[..i + 1], behavior.name) by {
          if existingUninitialized && !NamedIn(newSceneBehaviors[..i], behavior.name) {
            assert newSceneBehaviors[..i + 1][i].name == behavior.name;
          }
        }
      }
      assert newSceneBehaviors[..|newSceneBehaviors|] == newSceneBehaviors;
      if existingUninitialized || behavior.name in nameToSceneBehavior {
        return Failed(Thrown);
      }
      newSceneBehaviors := newSceneBehaviors + [behavior];
      return Done;
    }

    /** Registers an entity behavior under its name, with the filter it
        works on. A name already registered throws. */
    method AddForComponentTypes(behavior: Behavior, componentTypes: set<EntityFilter.ComponentType>,
                                mode: EntityFilter.FilterMode)
      returns (status: Status)
      modifies this`nameToEntityBehavior, this`entityFilterBehaviors
      ensures status == Done <==> behavior.name !in old(nameToEntityBehavior)
      ensures status == Done ==>
        && nameToEntityBehavior == old(nameToEntityBehavior)[behavior.name := behavior]
        && entityFilterBehaviors == old(entityFilterBehaviors) + [EntityFilterBehavior(componentTypes, mode, behavior)]
      ensures status != Done ==>
        && status == Failed(Thrown)
        && nameToEntityBehavior == old(nameToEntityBehavior)
        && entityFilterBehaviors == old(entityFilterBehaviors)
    {
      if behavior.name in nameToEntityBehavior {
        return Failed(Thrown);
      }
      nameToEntityBehavior := nameToEntityBehavior[behavior.name := behavior];
      entityFilterBehaviors := entityFilterBehaviors + [EntityFilterBehavior(componentTypes, mode, behavior)];
      return Done;
    }

    /** A behavior for the entities that have one given component type. */
    method AddForComponentType(behavior: Behavior, componentType: EntityFilter.ComponentType) returns (status: Status)
      modifies this`nameToEntityBehavior, this`entityFilterBehaviors
      ensures status == Done <==> behavior.name !in old(nameToEntityBehavior)
      ensures status == Done ==>
        && nameToEntityBehavior == old(nameToEntityBehavior)[behavior.name := behavior]
        && entityFilterBehaviors == old(entityFilterBehaviors) + [EntityFilterBehavior({componentType}, EntityFilter.All, behavior)]
      ensures status != Done ==>
        && status == Failed(Thrown)
        && nameToEntityBehavior == old(nameToEntityBehavior)
        && entityFilterBehaviors == old(entityFilterBehaviors)
    {
      status := AddForComponentTypes(behavior, {componentType}, EntityFilter.All);
    }

    /** Initializes the pending scene behaviors in order, records each under
        its name and moves it to the initialized list; then runs every
        initialized scene behavior, and then every entity behavior on each
        entity of its filter. */
    method Tick(filterEntities: seq<seq<nat>>)
      requires Valid() && |filterEntities| == |entityFilterBehaviors|
      modifies this`newSceneBehaviors, this`initializedSceneBehaviors, this`nameToSceneBehavior, this`calls
      ensures Valid() && newSceneBehaviors == []
      ensures initializedSceneBehaviors == old(initializedSceneBehaviors) + old(newSceneBehaviors)
      ensures nameToSceneBehavior == RegisterAll(old(nameToSceneBehavior), old(newSceneBehaviors))
      ensures calls == old(calls)
        + InitializeCalls(old(newSceneBehaviors))
        + HandleSceneCalls(initializedSceneBehaviors)
        + EntityCalls(entityFilterBehaviors, filterEntities)
    {
      InitializePending();
      ghost var afterInit := calls;
      RunSceneBehaviors();
      ghost var afterScene := calls;
      RunEntityBehaviors(filterEntities);
      assert calls == afterScene + EntityCalls(entityFilterBehaviors, filterEntities);
      assert afterScene == afterInit + HandleSceneCalls(initializedSceneBehaviors);
    }

    /** The first part of a tick: the pending behaviors are initialized and
        become initialized behaviors. */
    method InitializePending()
      modifies this`newSceneBehaviors, this`initializedSceneBehaviors, this`nameToSceneBehavior, this`calls
      ensures newSceneBehaviors == []
      ensures initializedSceneBehaviors == old(initializedSceneBehaviors) + old(newSceneBehaviors)
      ensures nameToSceneBehavior == RegisterAll(old(nameToSceneBehavior), old(newSceneBehaviors))
      ensures calls == old(calls) + InitializeCalls(old(newSceneBehaviors))
    {
      var pending := newSceneBehaviors;
      for i := 0 to |pending|
        invariant initializedSceneBehaviors == old(initializedSceneBehaviors) + pending[..i]
        invariant nameToSceneBehavior == RegisterAll(old(nameToSceneBehavior), pending[..i])
        invariant calls == old(calls) + InitializeCalls(pending[..i])
      {
        var behavior := pending[i];
        assert pending[..i + 1][..i] == pending[..i];
        calls := calls + [Initialize(behavior.name)];
        nameToSceneBehavior := nameToSceneBehavior[behavior.name := behavior];
        initializedSceneBehaviors := initializedSceneBehaviors + [behavior];
      }
      assert pending[..|pending|] == pending;
      newSceneBehaviors := [];
    }

    /** Runs every initialized scene behavior, in order. */
    method RunSceneBehaviors()
      modifies this`calls
      ensures calls == old(calls) + HandleSceneCalls(initializedSceneBehaviors)
    {
      var initialized := initializedSceneBehaviors;
      for i := 0 to |initialized|
        invariant calls == old(calls) + HandleSceneCalls(initialized[..i])
      {
        assert initialized[..i + 1][..i] == initialized[..i];
        calls := calls + [HandleScene(initialized[i].name)];
      }
      assert initialized[..|initialized|] == initialized;
    }

    /** Runs every entity behavior, in order, on each entity its filter
        holds, in the filter's order. */
    method RunEntityBehaviors(filterEntities: seq<seq<nat>>)
      requires |filterEntities| == |entityFilterBehaviors|
      modifies this`calls
      ensures calls == old(calls) + EntityCalls(entityFilterBehaviors, filterEntities)
    {
      var efbs := entityFilterBehaviors;
      for k := 0 to |efbs|
        invariant calls == old(calls) + EntityCalls(efbs[..k], filterEntities[..k])
      {
        RunEntityBehavior(efbs[k].behavior.name, filterEntities[k]);
        assert efbs[..k + 1][..k] == efbs[..k];
        assert filterEntities[..k + 1][..k] == filterEntities[..k];
      }
      assert efbs[..|efbs|] == efbs;
      assert filterEntities[..|filterEntities|] == filterEntities;
    }

    /** Runs one entity behavior on each of the given entities, in order. */
    method RunEntityBehavior(name: string, entities: seq<nat>)
      modifies this`calls
      ensures calls == old(calls) + HandleEntityCalls(name, entities)
    {
      for e := 0 to |entities|
        invariant calls == old(calls) + HandleEntityCalls(name, entities[..e])
      {
        assert entities[..e + 1][..e] == entities[..e];
        calls := calls + [HandleEntity(name, entities[e])];
      }
      assert entities[..|entities|] == entities;
    }

    /** Forgets the entity behaviors, shuts down every initialized scene
        behavior in order, and empties every list and map. */
    method Shutdown()
      modifies this
      ensures Valid()
      ensures newSceneBehaviors == [] && initializedSceneBehaviors == [] && nameToSceneBehavior == map[]
      ensures entityFilterBehaviors == [] && nameToEntityBehavior == map[]
      ensures calls == old(calls) + ShutdownCalls(old(initializedSceneBehaviors))
    {
      entityFilterBehaviors := [];
      nameToEntityBehavior := map[];
      var initialized := initializedSceneBehaviors;
      for i := 0 to |initialized|
        invariant calls == old(calls) + ShutdownCalls(initialized[..i])
        invariant entityFilterBehaviors == [] && nameToEntityBehavior == map[]
      {
        assert initialized[..i + 1][..i] == initialized[..i];
        calls := calls + [BehaviorCall.Shutdown(initialized[i].name)];
      }
      assert initialized[..|initialized|] == initialized;
      newSceneBehaviors := [];
      initializedSceneBehaviors := [];
      nameToSceneBehavior := map[];
    }
  }

  /** After a tick, each behavior that was pending is found under its own
      name, and names that were not pending keep their behavior. */
  method TickRegistersPending(manager: BehaviorManager, filterEntities: seq<seq<nat>>, i: nat)
    requires manager.Valid() && |filterEntities| == |manager.entityFilterBehaviors|
    requires i < |manager.newSceneBehaviors|
    modifies manager
    ensures old(manager.newSceneBehaviors[i]).name in manager.nameToSceneBehavior
    ensures manager.nameToSceneBehavior[old(manager.newSceneBehaviors[i]).name] == old(manager.newSceneBehaviors[i])
  {
    ghost var pending := manager.newSceneBehaviors;
    ghost var names := manager.nameToSceneBehavior;
    manager.Tick(filterEntities);
    RegisterAllMaps(names, pending);
  }
}

=== FILE: constant_buffer_pool.dfy ===
/** A bump allocator of fixed-size constant-buffer items in one upload heap.

    The pool holds `capacityInItems` items of `itemSizeInBytes` bytes each.
    `getTop` tells where the next free item starts, `pop` hands items out by
    advancing the `_allocatedItems` counter, and `reset` takes them all back.
    The CPU and GPU addresses of an item are the heap's base addresses plus
    the item's byte offset; the model keeps the byte offset. */
module ConstantBufferPool {
  import opened Outcome

  /** `D3D12_CONSTANT_BUFFER_DATA_PLACEMENT_ALIGNMENT`: constant buffers
      start on 256-byte boundaries. */
  const ConstantBufferAlignment: nat := 256

  lemma MulMonotone(a: nat, b: nat, k: nat)
    requires a <= b
    ensures a * k <= b * k
  {
  }

  class ConstantBufferPool {
    const itemSizeInBytes: nat
    const capacityInItems: nat
    var allocatedItems: nat

    ghost predicate Valid()
      reads this
    {
      itemSizeInBytes % ConstantBufferAlignment == 0 && allocatedItems <= capacityInItems
    }

    /** A new pool starts empty; its item size must be a multiple of the
        constant-buffer alignment. */
    constructor(itemSizeInBytes: nat, capacityInItems: nat)
      requires itemSizeInBytes % ConstantBufferAlignment == 0
      ensures Valid() && allocatedItems == 0
      ensures this.itemSizeInBytes == itemSizeInBytes && this.capacityInItems == capacityInItems
    {
      this.itemSizeInBytes := itemSizeInBytes;
      this.capacityInItems := capacityInItems;
      allocatedItems := 0;
    }

    function FreeCount(): (r: int)
      reads this
    {
      capacityInItems - allocatedItems
    }

    predicate IsExhausted()
      reads this
    {
      allocatedItems >= capacityInItems
    }

    /** Where the next free item starts, or `false` when the pool is
        exhausted. The item found lies wholly inside the heap, aligned for a
        constant buffer, and the pool is not changed. */
    method GetTop() returns (found: bool, offset: nat)
      requires Valid()
      ensures found <==> allocatedItems < capacityInItems
      ensures found ==> offset == allocatedItems * itemSizeInBytes
      ensures found ==> offset + itemSizeInBytes <= capacityInItems * itemSizeInBytes
      ensures found ==> offset % ConstantBufferAlignment == 0
    {
      if IsExhausted() {
        return false, 0;
      }
      offset := allocatedItems * itemSizeInBytes;
      MulMonotone(allocatedItems + 1, capacityInItems, itemSizeInBytes);
      AlignedMultiple(allocatedItems, itemSizeInBytes);
      return true, offset;
    }

    /** Hands out `itemCount` items. Fewer than one, or more than are free,
        is fatal. */
    method Pop(itemCount: int) returns (status: Status)
      requires Valid()
      modifies this
      ensures Valid()
      ensures status == Done <==> 1 <= itemCount <= old(FreeCount())
      ensures status == Done ==> allocatedItems == old(allocatedItems) + itemCount
      ensures status != Done ==> status == Failed(Fatal) && allocatedItems == old(allocatedItems)
    {
      if itemCount > FreeCount() || itemCount < 1 {
        return Failed(Fatal);
      }
      allocatedItems := allocatedItems + itemCount;
      return Done;
    }

    /** Takes every item back. */
    method Reset()
      requires Valid()
      modifies this
      ensures Valid() && allocatedItems == 0 && FreeCount() == capacityInItems
    {
      allocatedItems := 0;
    }
  }

  lemma AlignedMultiple(n: nat, itemSize: nat)
    requires itemSize % ConstantBufferAlignment == 0
    ensures (n * itemSize) % ConstantBufferAlignment == 0
  {
    var q := itemSize / ConstantBufferAlignment;
    assert n * itemSize == (n * q) * ConstantBufferAlignment;
  }

  /** Items handed out one after another do not overlap: after taking the
      top item, the next top item starts right where the first one ends. */
  method SuccessiveItemsAreAdjacent(pool: ConstantBufferPool) returns (first: nat, second: nat)
    requires pool.Valid() && pool.allocatedItems + 2 <= pool.capacityInItems
    modifies pool
    ensures second == first + pool.itemSizeInBytes
  {
    var found;
    found, first := pool.GetTop();
    var status := pool.Pop(1);
    found, second := pool.GetTop();
  }
}

=== FILE: descriptor_heap_pool.dfy ===
/** A pool of descriptors carved out of one Direct3D 12 descriptor heap.

    Fresh ranges are taken from the front of the heap by bumping the
    `_currentAllocated` counter; released ranges go onto a free list per range
    size and are handed out again last-in first-out. A range can also be
    parked on a per-frame list and returned to the free lists when that frame
    starts again. Handles into the heap are represented by the range's offset,
    in descriptors, from the start of the heap. */
module DescriptorHeapPool {
  import opened Outcome

  const Uint32Limit: nat := 0x1_0000_0000

  /** `D3D12_MAX_SHADER_VISIBLE_DESCRIPTOR_HEAP_SIZE_TIER_2`. */
  const MaxShaderVisibleDescriptorHeapSize: nat := 1000000

  /** `D3D12_MAX_SHADER_VISIBLE_SAMPLER_HEAP_SIZE`. */
  const MaxShaderVisibleSamplerHeapSize: nat := 2048

  datatype HeapType = CbvSrvUav | Sampler | Rtv | Dsv

  /** `Descriptor_range`: a CPU handle (absent in an empty range), the handle
      increment, the number of descriptors and the offset of the first one. */
  datatype DescriptorRange = DescriptorRange(
    cpuHandle: Option<nat>,
    incrementSize: nat,
    descriptorCount: nat,
    offsetInDescriptorsFromHeapStart: nat)

  /** A value-initialized range, `range = {}`. */
  const EmptyRange: DescriptorRange := DescriptorRange(None, 0, 0, 0)

  // ---------------------------------------------------------------------------
  // Fresh allocations

  /** The fresh allocations, as (offset, count) pairs in the order they were
      made, lie back to back from offset 0 up to `end`. */
  ghost predicate Tiles(issued: seq<(nat, nat)>, end: nat)
    decreases |issued|
  {
    if issued == [] then end == 0
    else
      var last := issued[|issued| - 1];
      last.0 + last.1 == end && Tiles(issued[..|issued| - 1], last.0)
  }

  /** Back-to-back allocations never overlap and never pass `end`: every
      earlier interval ends where or before a later one begins. */
  lemma {:induction false} TilesDisjoint(issued: seq<(nat, nat)>, end: nat, i: nat, j: nat)
    requires Tiles(issued, end)
    requires i < j < |issued|
    ensures issued[i].0 + issued[i].1 <= issued[j].0
    ensures issued[j].0 + issued[j].1 <= end
    decreases |issued|
  {
    var init := issued[..|issued| - 1];
    var last := issued[|issued| - 1];
    if j < |issued| - 1 {
      TilesDisjoint(init, last.0, i, j);
    } else {
      TilesBounded(init, last.0, i);
    }
  }

  /** Every interval of a tiling ends at or before its end. */
  lemma {:induction false} TilesBounded(issued: seq<(nat, nat)>, end: nat, i: nat)
    requires Tiles(issued, end)
    requires i < |issued|
    ensures issued[i].0 + issued[i].1 <= end
    decreases |issued|
  {
    if i < |issued| - 1 {
      var init := issued[..|issued| - 1];
      TilesBounded(init, issued[|issued| - 1].0, i);
    }
  }

  // ---------------------------------------------------------------------------
  // Returning parked ranges to the free lists

  /** The offsets of the ranges of `size` descriptors, in order. */
  function OffsetsOfSize(ranges: seq<DescriptorRange>, size: nat): (r: seq<nat>)
    ensures |r| <= |ranges|
  {
    if ranges == [] then []
    else
      (if ranges[0].descriptorCount == size then [ranges[0].offsetInDescriptorsFromHeapStart] else [])
      + OffsetsOfSize(ranges[1..], size)
  }

  /** Pushes the offset of each range, in order, onto the free list for its
      size; `_freeRanges.at` throws at the first size past the table, and the
      pushes made before it stay. */
  function Requeue(free: seq<seq<nat>>, ranges: seq<DescriptorRange>): (r: (seq<seq<nat>>, Status))
    ensures |r.0| == |free|
    decreases |ranges|
  {
    if ranges == [] then (free, Done)
    else
      var size := ranges[0].descriptorCount;
      if size >= |free| then (free, Failed(Thrown))
      else Requeue(free[size := free[size] + [ranges[0].offsetInDescriptorsFromHeapStart]], ranges[1..])
  }

  predicate SizesFit(ranges: seq<DescriptorRange>, slots: nat)
  {
    forall k :: 0 <= k < |ranges| ==> ranges[k].descriptorCount < slots
  }

  /** When every size has a free list, requeueing succeeds and appends to the
      list for each size exactly the offsets of the ranges of that size, in
      order; when some size has none, it throws. */
  lemma {:induction false} RequeueAppends(free: seq<seq<nat>>, ranges: seq<DescriptorRange>)
    ensures Requeue(free, ranges).1 == Done <==> SizesFit(ranges, |free|)
    ensures SizesFit(ranges, |free|) ==>
      forall s :: 0 <= s < |free| ==> Requeue(free, ranges).0[s] == free[s] + OffsetsOfSize(ranges, s)
    decreases |ranges|
  {
    if ranges != [] {
      var size := ranges[0].descriptorCount;
      var rest := ranges[1..];
      if size < |free| {
        var free' := free[size := free[size] + [ranges[0].offsetInDescriptorsFromHeapStart]];
        RequeueAppends(free', rest);
        assert SizesFit(ranges, |free|) <==> SizesFit(rest, |free|) by {
          if SizesFit(rest, |free|) {
            forall k | 0 <= k < |ranges| ensures ranges[k].descriptorCount < |free| {
              if k > 0 { assert ranges[k] == rest[k - 1]; }
            }
          }
        }
        if SizesFit(ranges, |free|) {
          forall s | 0 <= s < |free|
            ensures Requeue(free, ranges).0[s] == free[s] + OffsetsOfSize(ranges, s)
          {
            if s == size {
              assert free'[s] + OffsetsOfSize(rest, s) == free[s] + ([ranges[0].offsetInDescriptorsFromHeapStart] + OffsetsOfSize(rest, s));
            } else {
              assert OffsetsOfSize(ranges, s) == OffsetsOfSize(rest, s);
            }
          }
        }
      } else {
        assert !SizesFit(ranges, |free|) by { assert ranges[0].descriptorCount >= |free|; }
      }
    }
  }

  /** Starting the same frame twice without parking anything in between
      returns every parked offset to its free list twice. */
  lemma FrameStartTwiceRequeuesTwice(free: seq<seq<nat>>, ranges: seq<DescriptorRange>, s: nat)
    requires SizesFit(ranges, |free|) && s < |free|
    ensures Requeue(Requeue(free, ranges).0, ranges).0[s] == free[s] + OffsetsOfSize(ranges, s) + OffsetsOfSize(ranges, s)
  {
    RequeueAppends(free, ranges);
    RequeueAppends(Requeue(free, ranges).0, ranges);
  }

  // ---------------------------------------------------------------------------
  // The pool

  class DescriptorHeapPool {
    /** `_heapDesc.NumDescriptors`, `_heapDesc.Type` and whether the heap
        desc's flags make it shader visible. */
    const numDescriptors: nat
    const heapType: HeapType
    const shaderVisible: bool
    /** What the device reports as the handle increment of the heap type. */
    const handleIncrementSize: nat

    var hasHeap: bool
    var currentAllocated: nat
    /** `_freeRanges`: for each range size, the offsets of released ranges. */
    var freeRanges: seq<seq<nat>>
    /** `_releaseAtFrameStart`: for each frame, the ranges parked until that
        frame starts again. */
    var releaseAtFrameStart: seq<seq<DescriptorRange>>
    /** The fresh allocations since the heap was created, in order. */
    ghost var issued: seq<(nat, nat)>

    ghost predicate Valid()
      reads this
    {
      numDescriptors < Uint32Limit && currentAllocated <= numDescriptors && Tiles(issued, currentAllocated)
    }

    /** Sizes the per-frame lists for `frameCount` frames and the free lists
        for ranges of fewer than `freeRangeSlots` descriptors. */
    constructor(numDescriptors: nat, heapType: HeapType, shaderVisible: bool, handleIncrementSize: nat,
                frameCount: nat, freeRangeSlots: nat)
      requires numDescriptors < Uint32Limit
      ensures Valid() && !hasHeap && currentAllocated == 0
      ensures this.numDescriptors == numDescriptors && this.heapType == heapType
      ensures this.shaderVisible == shaderVisible && this.handleIncrementSize == handleIncrementSize
      ensures freeRanges == seq(freeRangeSlots, _ => []) && releaseAtFrameStart == seq(frameCount, _ => [])
    {
      this.numDescriptors := numDescriptors;
      this.heapType := heapType;
      this.shaderVisible := shaderVisible;
      this.handleIncrementSize := handleIncrementSize;
      hasHeap := false;
      currentAllocated := 0;
      freeRanges := seq(freeRangeSlots, _ => []);
      releaseAtFrameStart := seq(frameCount, _ => []);
      issued := [];
    }

    /** The checks `initialize` makes on the heap desc before it creates the
        heap. */
    predicate HeapDescAcceptable()
      reads this
    {
      && !hasHeap
      && numDescriptors > 0
      && (shaderVisible ==>
            && heapType != Rtv && heapType != Dsv
            && numDescriptors <= MaxShaderVisibleDescriptorHeapSize
            && (heapType == Sampler ==> numDescriptors <= MaxShaderVisibleSamplerHeapSize))
    }

    /** Creates the heap and starts over: nothing allocated, every free list
        and every per-frame list empty. A heap that already exists, an empty
        heap desc or a shader-visible desc the device cannot take is fatal. */
    method Initialize() returns (status: Status)
      requires Valid()
      modifies this
      ensures Valid()
      ensures status == Done <==> old(HeapDescAcceptable())
      ensures status != Done ==> status == Failed(Fatal) && unchanged(this)
      ensures status == Done ==>
        && hasHeap && currentAllocated == 0 && AvailableDescriptorCount() == numDescriptors
        && freeRanges == seq(|old(freeRanges)|, _ => [])
        && releaseAtFrameStart == seq(|old(releaseAtFrameStart)|, _ => [])
    {
      if !HeapDescAcceptable() {
        return Failed(Fatal);
      }
      hasHeap := true;
      currentAllocated := 0;
      issued := [];
      freeRanges := seq(|freeRanges|, _ => []);
      releaseAtFrameStart := seq(|releaseAtFrameStart|, _ => []);
      return Done;
    }

    /** Releases the heap. */
    method Destroy()
      modifies this`hasHeap
      ensures !hasHeap
    {
      hasHeap := false;
    }

    /** The descriptors not yet handed out fresh. */
    function AvailableDescriptorCount(): (r: nat)
      reads this
      requires Valid()
      ensures r + currentAllocated == numDescriptors
    {
      numDescriptors - currentAllocated
    }

    /** Hands out `numDescriptors` descriptors: the most recently released
        range of that size if there is one, otherwise the next ones from the
        front of the heap. A size past the free-list table throws; too few
        descriptors left at the front is fatal. */
    method AllocateRange(numDescriptors: nat) returns (r: Result<DescriptorRange>)
      requires Valid() && hasHeap
      modifies this
      ensures Valid() && hasHeap && releaseAtFrameStart == old(releaseAtFrameStart)
      ensures numDescriptors >= |old(freeRanges)| ==> r == Err(Thrown) && unchanged(this)
      ensures numDescriptors < |old(freeRanges)| && old(freeRanges)[numDescriptors] == [] ==>
        if old(AvailableDescriptorCount()) < numDescriptors then r == Err(Fatal) && unchanged(this)
        else
          && r.Ok? && r.value.offsetInDescriptorsFromHeapStart == old(currentAllocated)
          && currentAllocated == old(currentAllocated) + numDescriptors
          && freeRanges == old(freeRanges)
          && issued == old(issued) + [(old(currentAllocated), numDescriptors)]
      ensures numDescriptors < |old(freeRanges)| && old(freeRanges)[numDescriptors] != [] ==>
        var list := old(freeRanges)[numDescriptors];
        && r.Ok? && r.value.offsetInDescriptorsFromHeapStart == list[|list| - 1]
        && currentAllocated == old(currentAllocated) && issued == old(issued)
        && freeRanges == old(freeRanges)[numDescriptors := list[..|list| - 1]]
      ensures r.Ok? ==> r.value == DescriptorRange(Some(r.value.offsetInDescriptorsFromHeapStart),
                                                    handleIncrementSize, numDescriptors,
                                                    r.value.offsetInDescriptorsFromHeapStart)
    {
      if numDescriptors >= |freeRanges| {
        return Err(Thrown);
      }
      var freeRangesForSize := freeRanges[numDescriptors];
      var offset: nat;
      if freeRangesForSize == [] {
        if AvailableDescriptorCount() < numDescriptors {
          return Err(Fatal);
        }
        offset := currentAllocated;
        currentAllocated := currentAllocated + numDescriptors;
        issued := issued + [(offset, numDescriptors)];
        assert issued[..|issued| - 1] == old(issued);
      } else {
        offset := freeRangesForSize[|freeRangesForSize| - 1];
        freeRanges := freeRanges[numDescriptors := freeRangesForSize[..|freeRangesForSize| - 1]];
      }
      return Ok(DescriptorRange(Some(offset), handleIncrementSize, numDescriptors, offset));
    }

    /** Puts a range back on the free list for its size and empties the
        caller's range. A range without a handle or with no descriptors is
        fatal; a size past the free-list table throws. */
    method ReleaseRange(range: DescriptorRange) returns (status: Status, after: DescriptorRange)
      requires Valid()
      modifies this`freeRanges
      ensures Valid()
      ensures range.cpuHandle == None || range.descriptorCount == 0 ==>
        status == Failed(Fatal) && after == range && freeRanges == old(freeRanges)
      ensures range.cpuHandle != None && range.descriptorCount != 0 && range.descriptorCount >= |old(freeRanges)| ==>
        status == Failed(Thrown) && after == range && freeRanges == old(freeRanges)
      ensures range.cpuHandle != None && 0 < range.descriptorCount < |old(freeRanges)| ==>
        && status == Done && after == EmptyRange
        && freeRanges == old(freeRanges)[range.descriptorCount :=
             old(freeRanges)[range.descriptorCount] + [range.offsetInDescriptorsFromHeapStart]]
    {
      if range.cpuHandle == None || range.descriptorCount == 0 {
        return Failed(Fatal), range;
      }
      if range.descriptorCount >= |freeRanges| {
        return Failed(Thrown), range;
      }
      var size := range.descriptorCount;
      freeRanges := freeRanges[size := freeRanges[size] + [range.offsetInDescriptorsFromHeapStart]];
      return Done, EmptyRange;
    }

    /** Parks a range until frame `frameIndex` starts again and empties the
        caller's range. */
    method ReleaseRangeAtFrameStart(range: DescriptorRange, frameIndex: nat) returns (after: DescriptorRange)
      requires Valid() && frameIndex < |releaseAtFrameStart|
      modifies this`releaseAtFrameStart
      ensures Valid() && after == EmptyRange
      ensures releaseAtFrameStart ==
        old(releaseAtFrameStart)[frameIndex := old(releaseAtFrameStart)[frameIndex] + [range]]
    {
      releaseAtFrameStart := releaseAtFrameStart[frameIndex := releaseAtFrameStart[frameIndex] + [range]];
      return EmptyRange;
    }

    /** Returns the ranges parked for frame `frameIndex` to the free lists.
        The frame's list is left as it is. */
    method HandleFrameStart(frameIndex: nat) returns (status: Status)
      requires Valid()
      modifies this`freeRanges
      ensures Valid()
      ensures frameIndex >= |releaseAtFrameStart| ==> status == Failed(Thrown) && freeRanges == old(freeRanges)
      ensures frameIndex < |releaseAtFrameStart| ==>
        (freeRanges, status) == Requeue(old(freeRanges), releaseAtFrameStart[frameIndex])
    {
      if frameIndex >= |releaseAtFrameStart| {
        return Failed(Thrown);
      }
      var ranges := releaseAtFrameStart[frameIndex];
      status := Done;
      var i := 0;
      while i < |ranges|
        invariant 0 <= i <= |ranges|
        invariant Requeue(freeRanges, ranges[i..]) == Requeue(old(freeRanges), ranges)
        invariant status == Done
      {
        var size := ranges[i].descriptorCount;
        assert ranges[i..][1..] == ranges[i + 1..];
        if size >= |freeRanges| {
          return Failed(Thrown);
        }
        freeRanges := freeRanges[size := freeRanges[size] + [ranges[i].offsetInDescriptorsFromHeapStart]];
        i := i + 1;
      }
      assert ranges[i..] == [];
    }
  }

  /** The fresh allocations a valid pool has made since its heap was
      created are pairwise disjoint and all lie inside the heap. */
  lemma FreshAllocationsFitHeap(pool: DescriptorHeapPool, i: nat, j: nat)
    requires pool.Valid() && i < j < |pool.issued|
    ensures pool.issued[i].0 + pool.issued[i].1 <= pool.issued[j].0
    ensures pool.issued[j].0 + pool.issued[j].1 <= pool.numDescriptors
  {
    TilesDisjoint(pool.issued, pool.currentAllocated, i, j);
  }

  /** Two fresh allocations in a row from a pool with empty free lists are
      adjacent: the second begins where the first ends. */
  method FreshAllocationsAreAdjacent(pool: DescriptorHeapPool, n1: nat, n2: nat)
    returns (first: Result<DescriptorRange>, second: Result<DescriptorRange>)
    requires pool.Valid() && pool.hasHeap
    requires n1 < n2 < |pool.freeRanges| && pool.freeRanges[n1] == [] && pool.freeRanges[n2] == []
    requires n1 + n2 <= pool.AvailableDescriptorCount()
    modifies pool
    ensures first.Ok? && second.Ok?
    ensures second.value.offsetInDescriptorsFromHeapStart
      == first.value.offsetInDescriptorsFromHeapStart + first.value.descriptorCount
    ensures first.value.descriptorCount == n1 && second.value.descriptorCount == n2
  {
    first := pool.AllocateRange(n1);
    second := pool.AllocateRange(n2);
  }
}

=== FILE: dispatcher.dfy ===
/** An event dispatcher: an ordered list of listeners that an event is
    delivered to, in the order they were added.

    Adding a listener returns an id that remembers the listener's node in
    the list; removing through a valid id erases exactly that node and marks
    the id invalid, so a second removal, or one through a default id, does
    nothing. Each node of the list is given a distinct key here, and an id
    holds the key of its node in place of the list iterator. */
module Dispatcher {

  datatype Entry<L> = Entry(key: nat, listener: L)

  /** The listeners of a list of nodes, in order. */
  function Listeners<L>(entries: seq<Entry<L>>): (r: seq<L>)
    ensures |r| == |entries|
    ensures forall i :: 0 <= i < |entries| ==> r[i] == entries[i].listener
  {
    if entries == [] then [] else [entries[0].listener] + Listeners(entries[1..])
  }

  predicate KeysDistinct<L>(entries: seq<Entry<L>>)
  {
    forall i, j :: 0 <= i < j < |entries| ==> entries[i].key != entries[j].key
  }

  predicate HasKey<L>(entries: seq<Entry<L>>, key: nat)
  {
    exists i :: 0 <= i < |entries| && entries[i].key == key
  }

  /** The list with the node of key `key` erased. */
  function EraseKey<L>(entries: seq<Entry<L>>, key: nat): seq<Entry<L>>
  {
    if entries == [] then []
    else if entries[0].key == key then EraseKey(entries[1..], key)
    else [entries[0]] + EraseKey(entries[1..], key)
  }

  /** Erasing the node at position `i` leaves the nodes before and after it
      in their order. */
  lemma {:induction false} EraseKeyAt<L>(entries: seq<Entry<L>>, i: nat)
    requires KeysDistinct(entries) && i < |entries|
    ensures EraseKey(entries, entries[i].key) == entries[..i] + entries[i + 1..]
    decreases |entries|
  {
    var key := entries[i].key;
    if i == 0 {
      EraseMissingKey(entries[1..], key);
      assert entries[..0] + entries[1..] == entries[1..];
    } else {
      EraseKeyAt(entries[1..], i - 1);
      assert entries[1..][..i - 1] + entries[1..][i..] == entries[1..i] + entries[i + 1..];
      assert entries[..i] == [entries[0]] + entries[1..i];
    }
  }

  /** Erasing a key that no node has changes nothing. */
  lemma {:induction false} EraseMissingKey<L>(entries: seq<Entry<L>>, key: nat)
    requires forall k :: 0 <= k < |entries| ==> entries[k].key != key
    ensures EraseKey(entries, key) == entries
    decreases |entries|
  {
    if entries != [] {
      EraseMissingKey(entries[1..], key);
    }
  }

  /** Erasing keeps the remaining keys distinct and never adds a key. */
  lemma {:induction false} EraseKeyKeepsDistinct<L>(entries: seq<Entry<L>>, key: nat, bound: nat)
    requires KeysDistinct(entries) && forall k :: 0 <= k < |entries| ==> entries[k].key < bound
    ensures KeysDistinct(EraseKey(entries, key))
    ensures forall k :: 0 <= k < |EraseKey(entries, key)| ==> EraseKey(entries, key)[k].key < bound
    ensures !HasKey(EraseKey(entries, key), key)
    ensures forall k :: HasKey(EraseKey(entries, key), k) ==> HasKey(entries, k)
    decreases |entries|
  {
    if entries != [] {
      var rest := entries[1..];
      EraseKeyKeepsDistinct(rest, key, bound);
      var erased := EraseKey(rest, key);
      forall k | HasKey(erased, k) ensures HasKey(entries, k) {
        var j :| 0 <= j < |erased| && erased[j].key == k;
        assert HasKey(rest, k);
        var m :| 0 <= m < |rest| && rest[m].key == k;
        assert entries[m + 1].key == k;
      }
      if entries[0].key != key {
        var whole := [entries[0]] + erased;
        forall a, b | 0 <= a < b < |whole| ensures whole[a].key != whole[b].key {
          if a == 0 {
            assert HasKey(erased, whole[b].key) by { assert erased[b - 1] == whole[b]; }
            assert HasKey(rest, whole[b].key);
            var m :| 0 <= m < |rest| && rest[m].key == whole[b].key;
            assert entries[m + 1].key == whole[b].key;
          }
        }
        assert !HasKey(whole, key) by {
          forall k | 0 <= k < |whole| ensures whole[k].key != key {
            if k > 0 { assert whole[k] == erased[k - 1]; }
          }
        }
      }
    }
  }

  /** What `addListener` hands back. */
  class ListenerId {
    var valid: bool
    const key: nat

    /** The default id, which refers to no listener. */
    constructor Default()
      ensures !valid
    {
      valid := false;
      key := 0;
    }

    constructor Of(key: nat)
      ensures valid && this.key == key
    {
      valid := true;
      this.key := key;
    }
  }

  class Dispatcher<L> {
    /** `_listeners`, as nodes. */
    var entries: seq<Entry<L>>
    /** The key the next node gets. */
    var nextKey: nat

    ghost predicate Valid()
      reads this
    {
      KeysDistinct(entries) && forall k :: 0 <= k < |entries| ==> entries[k].key < nextKey
    }

    constructor()
      ensures Valid() && entries == []
    {
      entries := [];
      nextKey := 0;
    }

    /** The listener id is one this dispatcher gave out: if it is still
        valid, its node is in the list. */
    ghost predicate Issued(id: ListenerId)
      reads this, id
    {
      id.valid ==> HasKey(entries, id.key)
    }

    /** Appends `listener` at the end of the list. */
    method AddListener(listener: L) returns (id: ListenerId)
      requires Valid()
      modifies this
      ensures Valid() && fresh(id) && id.valid && Issued(id)
      ensures entries == old(entries) + [Entry(id.key, listener)]
      ensures Listeners(entries) == Listeners(old(entries)) + [listener]
      ensures forall k :: HasKey(old(entries), k) ==> HasKey(entries, k)
    {
      id := new ListenerId.Of(nextKey);
      entries := entries + [Entry(nextKey, listener)];
      nextKey := nextKey + 1;
      assert entries[|entries| - 1].key == id.key;
      assert Listeners(entries) == Listeners(old(entries)) + [listener];
      forall k | HasKey(old(entries), k) ensures HasKey(entries, k) {
        var j :| 0 <= j < |old(entries)| && old(entries)[j].key == k;
        assert entries[j].key == k;
      }
    }

    /** Erases the listener of a valid id and marks the id invalid; an
        invalid id is left alone. */
    method RemoveListener(id: ListenerId)
      requires Valid() && Issued(id)
      modifies this, id
      ensures Valid() && !id.valid
      ensures old(id.valid) ==>
        exists i :: 0 <= i < |old(entries)| && old(entries)[i].key == id.key
          && entries == old(entries)[..i] + old(entries)[i + 1..]
          && Listeners(entries) == Listeners(old(entries)[..i]) + Listeners(old(entries)[i + 1..])
      ensures !old(id.valid) ==> entries == old(entries)
      ensures !HasKey(entries, id.key) || !old(id.valid)
      ensures nextKey == old(nextKey)
    {
      if id.valid {
        ghost var i :| 0 <= i < |entries| && entries[i].key == id.key;
        EraseKeyAt(entries, i);
        EraseKeyKeepsDistinct(entries, id.key, nextKey);
        ListenersConcat(entries[..i], entries[i + 1..]);
        entries := EraseKey(entries, id.key);
        id.valid := false;
      }
    }

    /** Calls every listener, in the order they were added; the result is
        the sequence of listeners called. */
    method InvokeListeners() returns (called: seq<L>)
      ensures called == Listeners(entries)
    {
      called := [];
      for i := 0 to |entries|
        invariant called == Listeners(entries[..i])
      {
        assert entries[..i + 1] == entries[..i] + [entries[i]];
        ListenersConcat(entries[..i], [entries[i]]);
        called := called + [entries[i].listener];
      }
      assert entries[..|entries|] == entries;
    }
  }

  lemma ListenersConcat<L>(a: seq<Entry<L>>, b: seq<Entry<L>>)
    ensures Listeners(a + b) == Listeners(a) + Listeners(b)
  {
  }

  /** Subscribes a listener for as long as it lives. */
  class ScopedListener<L> {
    const dispatcher: Dispatcher<L>
    const listenerId: ListenerId

    constructor(dispatcher: Dispatcher<L>, listener: L)
      requires dispatcher.Valid()
      modifies dispatcher
      ensures dispatcher.Valid() && this.dispatcher == dispatcher && fresh(listenerId)
      ensures listenerId.valid && dispatcher.Issued(listenerId)
      ensures dispatcher.entries == old(dispatcher.entries) + [Entry(listenerId.key, listener)]
      ensures Listeners(dispatcher.entries) == Listeners(old(dispatcher.entries)) + [listener]
    {
      this.dispatcher := dispatcher;
      var id := dispatcher.AddListener(listener);
      listenerId := id;
    }

    /** The destructor: unsubscribes the listener. */
    method Destroy()
      requires dispatcher.Valid() && dispatcher.Issued(listenerId)
      modifies dispatcher, listenerId
      ensures dispatcher.Valid() && !listenerId.valid
      ensures old(listenerId.valid) ==>
        exists i :: 0 <= i < |old(dispatcher.entries)| && old(dispatcher.entries)[i].key == listenerId.key
          && dispatcher.entries == old(dispatcher.entries)[..i] + old(dispatcher.entries)[i + 1..]
      ensures !old(listenerId.valid) ==> dispatcher.entries == old(dispatcher.entries)
    {
      dispatcher.RemoveListener(listenerId);
    }
  }

  /** A scoped listener takes its listener off the list when it goes away:
      the listeners before and after are the same. */
  method ScopedListenerRestoresList<L>(dispatcher: Dispatcher<L>, listener: L)
    requires dispatcher.Valid()
    modifies dispatcher
    ensures Listeners(dispatcher.entries) == Listeners(old(dispatcher.entries))
  {
    var scoped := new ScopedListener(dispatcher, listener);
    ghost var during := dispatcher.entries;
    scoped.Destroy();
    ghost var i :| 0 <= i < |during| && during[i].key == scoped.listenerId.key
      && dispatcher.entries == during[..i] + during[i + 1..];
    assert during[|during| - 1].key == scoped.listenerId.key;
    assert i == |during| - 1;
    assert dispatcher.entries == old(dispatcher.entries);
  }
}

=== FILE: engine_utils.dfy ===
/** String helpers and the enum-table search of the engine utilities.

    The narrow (`std::string`) and wide (`std::wstring`) overloads of
    `str_starts` and `str_ends` share one definition each, generic in the
    character type; `WideChar` is the 16-bit `wchar_t` of the platform. */
module EngineUtils {
  import opened Outcome

  type WideChar = bv16

  lemma AppendAssoc<T>(a: seq<T>, b: seq<T>, c: seq<T>)
    ensures a + (b + c) == (a + b) + c
  {
  }

  // ---------------------------------------------------------------------------
  // str_starts / str_ends

  /** `std::equal(prefix.begin(), prefix.end(), str.begin())`. */
  function EqualFromFront<T(==)>(prefix: seq<T>, s: seq<T>): (r: bool)
    requires |prefix| <= |s|
    ensures r <==> s[..|prefix|] == prefix
  {
    if prefix == [] then true
    else prefix[0] == s[0] && EqualFromFront(prefix[1..], s[1..])
  }

  /** `std::equal(suffix.rbegin(), suffix.rend(), str.rbegin())`. */
  function EqualFromBack<T(==)>(suffix: seq<T>, s: seq<T>): (r: bool)
    requires |suffix| <= |s|
    ensures r <==> s[|s| - |suffix|..] == suffix
  {
    if suffix == [] then true
    else suffix[|suffix| - 1] == s[|s| - 1] && EqualFromBack(suffix[..|suffix| - 1], s[..|s| - 1])
  }

  function StrStarts<T(==)>(s: seq<T>, prefix: seq<T>): (r: bool)
    ensures r <==> |prefix| <= |s| && s[..|prefix|] == prefix
  {
    if |prefix| > |s| then false else EqualFromFront(prefix, s)
  }

  function StrEnds<T(==)>(s: seq<T>, suffix: seq<T>): (r: bool)
    ensures r <==> |suffix| <= |s| && s[|s| - |suffix|..] == suffix
  {
    if |suffix| > |s| then false else EqualFromBack(suffix, s)
  }

  /** A string starts with `p` exactly when it is `p` followed by something. */
  lemma StartsIffConcat<T>(s: seq<T>, p: seq<T>)
    ensures StrStarts(s, p) <==> exists t :: s == p + t
  {
    if StrStarts(s, p) {
      assert s == p + s[|p|..];
    }
  }

  /** A string ends with `x` exactly when it is something followed by `x`. */
  lemma EndsIffConcat<T>(s: seq<T>, x: seq<T>)
    ensures StrEnds(s, x) <==> exists t :: s == t + x
  {
    if StrEnds(s, x) {
      assert s == s[..|s| - |x|] + x;
    }
    if exists t :: s == t + x {
      var t :| s == t + x;
      assert s[|s| - |x|..] == x;
    }
  }

  // ---------------------------------------------------------------------------
  // str_replace_all

  /** `pat` occurs in `s` starting at index `j`. */
  predicate MatchesAt<T(==)>(s: seq<T>, pat: seq<T>, j: int)
  {
    0 <= j && j + |pat| <= |s| && AgreeFrom(s, pat, j, 0)
  }

  /** `s` holds `pat[k..]` at index `j + k`, compared element by element. */
  predicate AgreeFrom<T(==)>(s: seq<T>, pat: seq<T>, j: nat, k: nat)
    requires j + |pat| <= |s|
    decreases |pat| - k
  {
    k >= |pat| || (s[j + k] == pat[k] && AgreeFrom(s, pat, j, k + 1))
  }

  lemma {:induction false} AgreeFromMeaning<T>(s: seq<T>, pat: seq<T>, j: nat, k: nat)
    requires j + |pat| <= |s|
    ensures AgreeFrom(s, pat, j, k) <==> forall m :: k <= m < |pat| ==> s[j + m] == pat[m]
    decreases |pat| - k
  {
    if k < |pat| {
      AgreeFromMeaning(s, pat, j, k + 1);
    }
  }

  /** A match is the pattern sitting in the text. */
  lemma MatchesAtMeaning<T>(s: seq<T>, pat: seq<T>, j: int)
    ensures MatchesAt(s, pat, j) <==> 0 <= j && j + |pat| <= |s| && s[j..j + |pat|] == pat
  {
    if 0 <= j && j + |pat| <= |s| {
      AgreeFromMeaning(s, pat, j, 0);
      if s[j..j + |pat|] == pat {
        forall m | 0 <= m < |pat| ensures s[j + m] == pat[m] {
          assert s[j..j + |pat|][m] == s[j + m];
        }
      }
    }
  }

  /** `std::string::find(pat, pos)`: the first match at or after `pos`. */
  function FindFrom<T(==)>(s: seq<T>, pat: seq<T>, pos: nat): (r: Option<nat>)
    ensures r.Some? ==> pos <= r.value && r.value + |pat| <= |s|
    decreases |s| - pos
  {
    if pos + |pat| > |s| then None
    else if MatchesAt(s, pat, pos) then Some(pos)
    else FindFrom(s, pat, pos + 1)
  }

  /** `find` answers the first match at or after `pos`, and no position when
      there is none. */
  lemma {:induction false} FindFromMeaning<T>(s: seq<T>, pat: seq<T>, pos: nat)
    ensures var r := FindFrom(s, pat, pos);
      && (r.Some? ==> MatchesAt(s, pat, r.value))
      && (r.Some? ==> forall j :: pos <= j < r.value ==> !MatchesAt(s, pat, j))
      && (r.None? ==> forall j :: pos <= j ==> !MatchesAt(s, pat, j))
    decreases |s| - pos
  {
    if pos + |pat| <= |s| && !MatchesAt(s, pat, pos) {
      FindFromMeaning(s, pat, pos + 1);
    }
  }

  /** Every occurrence of `from` in `s` at or after `pos` replaced, scanning
      left to right in the original text, so inserted text is never searched. */
  function ReplacedFrom<T(==)>(s: seq<T>, from: seq<T>, to: seq<T>, pos: nat): seq<T>
    requires |from| > 0 && pos <= |s|
    decreases |s| - pos
  {
    match FindFrom(s, from, pos)
    case None => s[pos..]
    case Some(i) => s[pos..i] + to + ReplacedFrom(s, from, to, i + |from|)
  }

  function Replaced<T(==)>(s: seq<T>, from: seq<T>, to: seq<T>): seq<T>
    requires |from| > 0
  {
    ReplacedFrom(s, from, to, 0)
  }

  /** `ReplacedFrom` unfolded at a match. */
  lemma ReplacedAtMatch<T>(s: seq<T>, from: seq<T>, to: seq<T>, pos: nat, i: nat)
    requires |from| > 0 && pos <= |s| && FindFrom(s, from, pos) == Some(i)
    ensures ReplacedFrom(s, from, to, pos) == s[pos..i] + to + ReplacedFrom(s, from, to, i + |from|)
  {
  }

  /** Two texts that agree from `pa` and `pb` on have their matches at the same
      offsets from there. */
  lemma {:induction false} FindShift<T>(a: seq<T>, pa: nat, b: seq<T>, pb: nat, pat: seq<T>)
    requires pa <= |a| && pb <= |b| && a[pa..] == b[pb..]
    ensures FindFrom(a, pat, pa) ==
      match FindFrom(b, pat, pb) case None => None case Some(i) => Some(i - pb + pa)
    decreases |b| - pb
  {
    assert |a| - pa == |b| - pb;
    if pb + |pat| <= |b| {
      assert MatchesAt(a, pat, pa) <==> MatchesAt(b, pat, pb) by {
        MatchesAtMeaning(a, pat, pa);
        MatchesAtMeaning(b, pat, pb);
        assert a[pa..pa + |pat|] == a[pa..][..|pat|];
        assert b[pb..pb + |pat|] == b[pb..][..|pat|];
      }
      if !MatchesAt(b, pat, pb) {
        assert a[pa + 1..] == a[pa..][1..];
        assert b[pb + 1..] == b[pb..][1..];
        FindShift(a, pa + 1, b, pb + 1, pat);
      }
    }
  }

  /** Two texts that agree from `pa` and `pb` on have the same replacement
      from there. */
  lemma {:induction false} ReplacedShift<T>(a: seq<T>, pa: nat, b: seq<T>, pb: nat, from: seq<T>, to: seq<T>)
    requires |from| > 0 && pa <= |a| && pb <= |b| && a[pa..] == b[pb..]
    ensures ReplacedFrom(a, from, to, pa) == ReplacedFrom(b, from, to, pb)
    decreases |b| - pb
  {
    FindShift(a, pa, b, pb, from);
    match FindFrom(b, from, pb)
    case None =>
    case Some(k) =>
      var ka := k - pb + pa;
      assert FindFrom(a, from, pa) == Some(ka);
      assert a[pa..ka] == b[pb..k] by {
        assert a[pa..ka] == a[pa..][..k - pb];
        assert b[pb..k] == b[pb..][..k - pb];
      }
      assert a[ka + |from|..] == b[k + |from|..] by {
        assert a[ka + |from|..] == a[pa..][k - pb + |from|..];
        assert b[k + |from|..] == b[pb..][k - pb + |from|..];
      }
      ReplacedShift(a, ka + |from|, b, k + |from|, from, to);
      ReplacedAtMatch(a, from, to, pa, ka);
      ReplacedAtMatch(b, from, to, pb, k);
  }

  /** One pass of the replacement loop keeps the replacement of the whole
      text equal to the finished prefix of the working string followed by the
      replacement of the rest: splicing `to` over the match at `i` moves the
      text before the match and `to` into the prefix, and leaves the text
      after the match to be scanned. */
  lemma ReplaceLoopStep<T>(str: seq<T>, from: seq<T>, to: seq<T>, startPos: nat, i: nat, whole: seq<T>,
                           next: seq<T>, nextPos: nat)
    requires |from| > 0 && startPos <= |str|
    requires whole == str[..startPos] + ReplacedFrom(str, from, to, startPos)
    requires FindFrom(str, from, startPos) == Some(i)
    requires nextPos <= |next| && next[..nextPos] == str[..i] + to && next[nextPos..] == str[i + |from|..]
    ensures whole == next[..nextPos] + ReplacedFrom(next, from, to, nextPos)
  {
    var rest := ReplacedFrom(str, from, to, i + |from|);
    ReplacedAtMatch(str, from, to, startPos, i);
    Regroup(str, startPos, i, to, rest);
    ReplacedShift(str, i + |from|, next, nextPos, from, to);
  }

  lemma Regroup<T>(s: seq<T>, p: nat, i: nat, to: seq<T>, rest: seq<T>)
    requires p <= i <= |s|
    ensures s[..p] + (s[p..i] + to + rest) == (s[..i] + to) + rest
  {
    assert s[..p] + s[p..i] == s[..i];
  }

  /** The working string after `to` is spliced over `m` elements at `i`. */
  lemma Splice<T>(str: seq<T>, i: nat, to: seq<T>, m: nat)
    requires i + m <= |str|
    ensures (str[..i] + to + str[i + m..])[..i + |to|] == str[..i] + to
    ensures (str[..i] + to + str[i + m..])[i + |to|..] == str[i + m..]
  {
  }

  method ReplaceAll(str0: string, from: string, to: string) returns (str: string)
    requires |from| > 0
    ensures str == Replaced(str0, from, to)
  {
    str := str0;
    var startPos := 0;
    ghost var whole := Replaced(str0, from, to);
    assert whole == str[..startPos] + ReplacedFrom(str, from, to, startPos);
    var found := FindFrom(str, from, startPos);
    while found.Some?
      invariant 0 <= startPos <= |str|
      invariant whole == str[..startPos] + ReplacedFrom(str, from, to, startPos)
      invariant found == FindFrom(str, from, startPos)
      decreases |str| - startPos
    {
      var i := found.value;
      ghost var (before, beforePos) := (str, startPos);
      Splice(str, i, to, |from|);
      str := str[..i] + to + str[i + |from|..];
      startPos := i + |to|;
      ReplaceLoopStep(before, from, to, beforePos, i, whole, str, startPos);
      found := FindFrom(str, from, startPos);
    }
    assert str[..startPos] + str[startPos..] == str;
  }

  /** Replacing a pattern with itself changes nothing. */
  lemma {:induction false} ReplaceWithItself<T>(s: seq<T>, from: seq<T>, pos: nat)
    requires |from| > 0 && pos <= |s|
    ensures ReplacedFrom(s, from, from, pos) == s[pos..]
    decreases |s| - pos
  {
    match FindFrom(s, from, pos)
    case None =>
    case Some(i) =>
      ReplaceWithItself(s, from, i + |from|);
      ReplaceWithItselfStep(s, from, pos, i);
  }

  lemma ReplaceWithItselfStep<T>(s: seq<T>, from: seq<T>, pos: nat, i: nat)
    requires |from| > 0 && pos <= |s| && FindFrom(s, from, pos) == Some(i)
    requires ReplacedFrom(s, from, from, i + |from|) == s[i + |from|..]
    ensures ReplacedFrom(s, from, from, pos) == s[pos..]
  {
    assert s[i..i + |from|] == from by {
      FindFromMeaning(s, from, pos);
      MatchesAtMeaning(s, from, i);
    }
    calc {
      ReplacedFrom(s, from, from, pos);
      { ReplacedAtMatch(s, from, from, pos, i); }
      s[pos..i] + from + s[i + |from|..];
      s[pos..i] + s[i..i + |from|] + s[i + |from|..];
      { assert s[pos..] == s[pos..i] + s[i..i + |from|] + s[i + |from|..]; }
      s[pos..];
    }
  }

  /** Text without the pattern comes back unchanged. */
  lemma NoOccurrenceUnchanged<T>(s: seq<T>, from: seq<T>, to: seq<T>)
    requires |from| > 0
    requires forall j :: !MatchesAt(s, from, j)
    ensures Replaced(s, from, to) == s
  {
    FindFromMeaning(s, from, 0);
  }

  /** Scanning resumes after the inserted text: replacing "a" by "aa" in "a"
      gives "aa" rather than looping. */
  lemma InsertedTextIsNotRescanned()
    ensures Replaced("a", "a", "aa") == "aa"
  {
    assert AgreeFrom("a", "a", 0, 1);
    assert FindFrom("a", "a", 0) == Some(0);
    assert FindFrom("a", "a", 1) == None;
  }

  // ---------------------------------------------------------------------------
  // str_split

  /** `std::find_first_of(first, end, delims)`: the first position at or after
      `first` holding a delimiter, or |s| when there is none. */
  function FirstOf(s: string, delims: string, first: nat): (j: nat)
    requires first <= |s|
    ensures first <= j <= |s|
    decreases |s| - first
  {
    if first == |s| then first
    else if s[first] in delims then first
    else FirstOf(s, delims, first + 1)
  }

  /** The position found holds a delimiter, and none before it does. */
  lemma {:induction false} FirstOfMeaning(s: string, delims: string, first: nat)
    requires first <= |s|
    ensures FirstOf(s, delims, first) < |s| ==> s[FirstOf(s, delims, first)] in delims
    ensures forall k :: first <= k < FirstOf(s, delims, first) ==> s[k] !in delims
    decreases |s| - first
  {
    if first < |s| && s[first] !in delims {
      FirstOfMeaning(s, delims, first + 1);
    }
  }

  /** The pieces of `s` from index `first` on: the text up to each delimiter,
      empty pieces dropped. */
  function PiecesFrom(s: string, delims: string, first: nat): seq<string>
    requires first <= |s|
    decreases |s| - first
  {
    if first == |s| then []
    else
      var second := FirstOf(s, delims, first);
      Piece(s, first, second) + (if second == |s| then [] else PiecesFrom(s, delims, second + 1))
  }

  /** The text between `first` and the next delimiter at `second`, as a
      piece, unless it is empty. */
  function Piece(s: string, first: nat, second: nat): seq<string>
    requires first <= second <= |s|
  {
    if first != second then [s[first..second]] else []
  }

  function Pieces(s: string, delims: string): seq<string>
  {
    PiecesFrom(s, delims, 0)
  }

  method Split(str: string, delims: string) returns (output: seq<string>)
    ensures output == Pieces(str, delims)
  {
    output := [];
    var first := 0;
    ghost var whole := SplitLoop(str, delims, 0, []);
    while first != |str|
      invariant first <= |str|
      invariant SplitLoop(str, delims, first, output) == whole
      decreases |str| - first
    {
      var second := FirstOf(str, delims, first);
      ghost var emitted := output;
      if first != second {
        output := output + [str[first..second]];
      } else {
        assert output == emitted + [];
      }
      assert output == emitted + Piece(str, first, second);
      if second == |str| {
        break;
      }
      first := second + 1;
    }
    SplitLoopPieces(str, delims, 0, []);
    assert [] + Pieces(str, delims) == Pieces(str, delims);
  }

  /** What `str_split`'s loop ends with when it starts at `first` having
      emitted `acc`. */
  function SplitLoop(s: string, delims: string, first: nat, acc: seq<string>): seq<string>
    requires first <= |s|
    decreases |s| - first
  {
    if first == |s| then acc
    else
      var second := FirstOf(s, delims, first);
      var acc' := acc + Piece(s, first, second);
      if second == |s| then acc' else SplitLoop(s, delims, second + 1, acc')
  }

  /** The loop appends the pieces still to find to what it has emitted. */
  lemma {:induction false} SplitLoopPieces(s: string, delims: string, first: nat, acc: seq<string>)
    requires first <= |s|
    ensures SplitLoop(s, delims, first, acc) == acc + PiecesFrom(s, delims, first)
    decreases |s| - first
  {
    if first < |s| {
      var second := FirstOf(s, delims, first);
      var head := Piece(s, first, second);
      if second < |s| {
        var rest := PiecesFrom(s, delims, second + 1);
        calc {
          SplitLoop(s, delims, first, acc);
          SplitLoop(s, delims, second + 1, acc + head);
          { SplitLoopPieces(s, delims, second + 1, acc + head); }
          acc + head + rest;
          { AppendAssoc(acc, head, rest); }
          acc + (head + rest);
          { PiecesFromAt(s, delims, first, second); }
          acc + PiecesFrom(s, delims, first);
        }
      } else {
        PiecesFromLast(s, delims, first, second);
      }
    }
  }

  /** A piece `str_split` may emit: non-empty and free of delimiters. */
  ghost predicate CleanPiece(p: string, delims: string)
  {
    |p| > 0 && forall c :: c in p ==> c !in delims
  }

  /** `str_split` never emits an empty piece, and no piece holds a delimiter. */
  ghost predicate AllClean(pieces: seq<string>, delims: string)
  {
    forall i :: 0 <= i < |pieces| ==> CleanPiece(pieces[i], delims)
  }

  lemma {:induction false} PiecesAreClean(s: string, delims: string, first: nat)
    requires first <= |s|
    ensures AllClean(PiecesFrom(s, delims, first), delims)
    decreases |s| - first
  {
    if first < |s| {
      var second := FirstOf(s, delims, first);
      PieceIsClean(s, delims, first, second);
      if second < |s| {
        PiecesAreClean(s, delims, second + 1);
        PiecesFromAt(s, delims, first, second);
        AllCleanAppend(Piece(s, first, second), PiecesFrom(s, delims, second + 1), delims);
      } else {
        PiecesFromLast(s, delims, first, second);
      }
    }
  }

  /** The piece before the next delimiter is clean. */
  lemma PieceIsClean(s: string, delims: string, first: nat, second: nat)
    requires first <= |s| && second == FirstOf(s, delims, first)
    ensures AllClean(Piece(s, first, second), delims)
  {
    if first != second {
      FirstOfMeaning(s, delims, first);
      forall c | c in s[first..second] ensures c !in delims {
        var k :| 0 <= k < second - first && s[first..second][k] == c;
        assert s[first + k] == c;
      }
      assert CleanPiece(Piece(s, first, second)[0], delims);
    }
  }

  lemma AllCleanAppend(a: seq<string>, b: seq<string>, delims: string)
    requires AllClean(a, delims) && AllClean(b, delims)
    ensures AllClean(a + b, delims)
  {
    forall i | 0 <= i < |a + b| ensures CleanPiece((a + b)[i], delims) {
      if i < |a| {
        assert (a + b)[i] == a[i];
      } else {
        assert (a + b)[i] == b[i - |a|];
      }
    }
  }

  function Concat(pieces: seq<string>): string
  {
    if pieces == [] then [] else pieces[0] + Concat(pieces[1..])
  }

  /** The input with every delimiter character removed. */
  function WithoutDelims(s: string, delims: string): string
  {
    if s == [] then []
    else (if s[0] in delims then [] else [s[0]]) + WithoutDelims(s[1..], delims)
  }

  lemma {:induction false} WithoutDelimsAppend(a: string, b: string, delims: string)
    ensures WithoutDelims(a + b, delims) == WithoutDelims(a, delims) + WithoutDelims(b, delims)
    decreases |a|
  {
    if a == [] {
      assert a + b == b;
    } else {
      var head := if a[0] in delims then [] else [a[0]];
      assert (a + b)[0] == a[0];
      assert (a + b)[1..] == a[1..] + b;
      calc {
        WithoutDelims(a + b, delims);
        head + WithoutDelims(a[1..] + b, delims);
        { WithoutDelimsAppend(a[1..], b, delims); }
        head + (WithoutDelims(a[1..], delims) + WithoutDelims(b, delims));
        { AppendAssoc(head, WithoutDelims(a[1..], delims), WithoutDelims(b, delims)); }
        WithoutDelims(a, delims) + WithoutDelims(b, delims);
      }
    }
  }

  lemma {:induction false} WithoutDelimsClean(s: string, delims: string)
    requires forall c :: c in s ==> c !in delims
    ensures WithoutDelims(s, delims) == s
    decreases |s|
  {
    if s != [] {
      WithoutDelimsClean(s[1..], delims);
    }
  }

  lemma SliceAround<T>(s: seq<T>, i: nat, j: nat)
    requires i <= j < |s|
    ensures s[i..] == s[i..j] + [s[j]] + s[j + 1..]
  {
  }

  /** Removing delimiters from text that runs clean up to a delimiter at
      `second`. */
  lemma WithoutDelimsUpTo(s: string, delims: string, first: nat, second: nat)
    requires first <= second <= |s|
    requires forall k :: first <= k < second ==> s[k] !in delims
    requires second < |s| ==> s[second] in delims
    ensures second == |s| ==> WithoutDelims(s[first..], delims) == s[first..second]
    ensures second < |s| ==>
      WithoutDelims(s[first..], delims) == s[first..second] + WithoutDelims(s[second + 1..], delims)
  {
    var clean := s[first..second];
    assert WithoutDelims(clean, delims) == clean by {
      forall c | c in clean ensures c !in delims {
        var k :| 0 <= k < second - first && clean[k] == c;
        assert s[first + k] == c;
      }
      WithoutDelimsClean(clean, delims);
    }
    if second < |s| {
      var after := WithoutDelims(s[second + 1..], delims);
      calc {
        WithoutDelims(s[first..], delims);
        { SliceAround(s, first, second); }
        WithoutDelims(clean + [s[second]] + s[second + 1..], delims);
        { WithoutDelimsAppend(clean + [s[second]], s[second + 1..], delims); }
        WithoutDelims(clean + [s[second]], delims) + after;
        { WithoutDelimsAppend(clean, [s[second]], delims); }
        WithoutDelims(clean, delims) + WithoutDelims([s[second]], delims) + after;
        { assert WithoutDelims([s[second]], delims) == []; }
        clean + [] + after;
        { assert clean + [] == clean; }
        clean + after;
      }
    } else {
      assert s[first..] == clean;
    }
  }

  /** The pieces, in order, spell the input with its delimiters removed. */
  lemma {:induction false} PiecesConcat(s: string, delims: string, first: nat)
    requires first <= |s|
    ensures Concat(PiecesFrom(s, delims, first)) == WithoutDelims(s[first..], delims)
    decreases |s| - first
  {
    if first == |s| {
      PiecesConcatEnd(s, delims);
    } else if FirstOf(s, delims, first) < |s| {
      PiecesConcat(s, delims, FirstOf(s, delims, first) + 1);
      PiecesConcatInner(s, delims, first, FirstOf(s, delims, first));
    } else {
      PiecesConcatLast(s, delims, first, FirstOf(s, delims, first));
    }
  }

  lemma PiecesConcatEnd(s: string, delims: string)
    ensures Concat(PiecesFrom(s, delims, |s|)) == WithoutDelims(s[|s|..], delims)
  {
    assert s[|s|..] == [];
  }

  /** The piece `str_split` emits for the text between `first` and the next
      delimiter spells that text. */
  lemma ConcatPiece(s: string, first: nat, second: nat)
    requires first <= second <= |s|
    ensures Concat(Piece(s, first, second)) == s[first..second]
  {
    if first != second {
      assert Concat([s[first..second]]) == s[first..second] + Concat([]);
    }
  }

  /** `PiecesConcat` when no delimiter is left after `first`. */
  lemma PiecesConcatLast(s: string, delims: string, first: nat, second: nat)
    requires first < |s| && second == FirstOf(s, delims, first) == |s|
    ensures Concat(PiecesFrom(s, delims, first)) == WithoutDelims(s[first..], delims)
  {
    PiecesFromLast(s, delims, first, second);
    ConcatPiece(s, first, second);
    FirstOfMeaning(s, delims, first);
    WithoutDelimsUpTo(s, delims, first, second);
  }

  /** `PiecesFrom` unfolded at a delimiter. */
  lemma PiecesFromAt(s: string, delims: string, first: nat, second: nat)
    requires first < |s| && second == FirstOf(s, delims, first) < |s|
    ensures PiecesFrom(s, delims, first)
      == Piece(s, first, second) + PiecesFrom(s, delims, second + 1)
  {
  }

  /** `PiecesFrom` unfolded when no delimiter is left. */
  lemma PiecesFromLast(s: string, delims: string, first: nat, second: nat)
    requires first < |s| && second == FirstOf(s, delims, first) == |s|
    ensures PiecesFrom(s, delims, first) == Piece(s, first, second)
  {
    assert Piece(s, first, second) + [] == Piece(s, first, second);
  }

  /** `PiecesConcat` at a delimiter: the piece before it, then the pieces
      after it. */
  lemma PiecesConcatInner(s: string, delims: string, first: nat, second: nat)
    requires first < |s| && second == FirstOf(s, delims, first) < |s|
    requires Concat(PiecesFrom(s, delims, second + 1)) == WithoutDelims(s[second + 1..], delims)
    ensures Concat(PiecesFrom(s, delims, first)) == WithoutDelims(s[first..], delims)
  {
    var head := Piece(s, first, second);
    var tail := PiecesFrom(s, delims, second + 1);
    PiecesFromAt(s, delims, first, second);
    assert WithoutDelims(s[first..], delims) == s[first..second] + WithoutDelims(s[second + 1..], delims) by {
      FirstOfMeaning(s, delims, first);
      WithoutDelimsUpTo(s, delims, first, second);
    }
    calc {
      Concat(PiecesFrom(s, delims, first));
      { ConcatAppend(head, tail); }
      Concat(head) + Concat(tail);
      { ConcatPiece(s, first, second); }
      s[first..second] + Concat(tail);
    }
  }

  lemma {:induction false} ConcatAppend(a: seq<string>, b: seq<string>)
    ensures Concat(a + b) == Concat(a) + Concat(b)
    decreases |a|
  {
    if a == [] {
      assert a + b == b;
    } else {
      assert (a + b)[0] == a[0];
      assert (a + b)[1..] == a[1..] + b;
      ConcatAppend(a[1..], b);
    }
  }

  // ---------------------------------------------------------------------------
  // is_power_of_two

  function IsPowerOfTwo(i: bv32): bool
  {
    i != 0 && (i - 1) & i == 0
  }

  /** The 32 values of a `uint32_t` with exactly one bit set. */
  const PowersOfTwo: seq<bv32> := [
    0x1, 0x2, 0x4, 0x8, 0x10, 0x20, 0x40, 0x80,
    0x100, 0x200, 0x400, 0x800, 0x1000, 0x2000, 0x4000, 0x8000,
    0x1_0000, 0x2_0000, 0x4_0000, 0x8_0000, 0x10_0000, 0x20_0000, 0x40_0000, 0x80_0000,
    0x100_0000, 0x200_0000, 0x400_0000, 0x800_0000, 0x1000_0000, 0x2000_0000, 0x4000_0000, 0x8000_0000]

  /** Entry `k` of the list is bit `k` set. */
  lemma PowersAreShifts()
    ensures |PowersOfTwo| == 32
    ensures forall k :: 0 <= k < 32 ==> PowersOfTwo[k] == 1 << k
  {
    PowersAreShiftsFrom(0);
    PowersAreShiftsFrom(8);
    PowersAreShiftsFrom(16);
    PowersAreShiftsFrom(24);
  }

  /** Eight entries of the list at a time, from entry `lo`. */
  lemma PowersAreShiftsFrom(lo: nat)
    requires lo == 0 || lo == 8 || lo == 16 || lo == 24
    ensures forall k :: lo <= k < lo + 8 ==> PowersOfTwo[k] == 1 << k
  {
    forall k | lo <= k < lo + 8 ensures PowersOfTwo[k] == 1 << k {
      if k == lo { } else if k == lo + 1 { } else if k == lo + 2 { } else if k == lo + 3 { }
      else if k == lo + 4 { } else if k == lo + 5 { } else if k == lo + 6 { } else { }
    }
  }

  /** `is_power_of_two` holds for exactly the single-bit values: never for 0. */
  lemma PowerOfTwoIffSingleBit(i: bv32)
    ensures IsPowerOfTwo(i) <==> i in PowersOfTwo
  {
    if IsPowerOfTwo(i) {
      PowerIsListed(i);
    }
    if i in PowersOfTwo {
      ListedIsPower(i);
    }
  }

  lemma PowerIsListed(i: bv32)
    requires IsPowerOfTwo(i)
    ensures i in PowersOfTwo
  {
    SingleBitCases(i);
  }

  lemma SingleBitCases(i: bv32)
    requires IsPowerOfTwo(i)
    ensures i == 0x1 || i == 0x2 || i == 0x4 || i == 0x8 || i == 0x10 || i == 0x20 || i == 0x40 || i == 0x80
      || i == 0x100 || i == 0x200 || i == 0x400 || i == 0x800 || i == 0x1000 || i == 0x2000 || i == 0x4000 || i == 0x8000
      || i == 0x10000 || i == 0x20000 || i == 0x40000 || i == 0x80000 || i == 0x100000 || i == 0x200000 || i == 0x400000 || i == 0x800000
      || i == 0x1000000 || i == 0x2000000 || i == 0x4000000 || i == 0x8000000 || i == 0x10000000 || i == 0x20000000 || i == 0x40000000 || i == 0x80000000
  {
  }

  lemma ListedIsPower(i: bv32)
    requires i in PowersOfTwo
    ensures IsPowerOfTwo(i)
  {
    var k :| 0 <= k < 32 && PowersOfTwo[k] == i;
    PowersAreShifts();
    ShiftIsPower(k);
  }

  lemma ShiftIsPower(k: nat)
    requires k < 32
    ensures IsPowerOfTwo(1 << k)
  {
  }

  // ---------------------------------------------------------------------------
  // stringToEnum

  /** The first index at or after `from` whose entry equals `value`; an
      exception when there is none. */
  function IndexOfFrom(strings: seq<string>, value: string, from: nat): (r: Result<nat>)
    requires from <= |strings|
    ensures r.Ok? ==>
      && from <= r.value < |strings| && strings[r.value] == value
      && forall j :: from <= j < r.value ==> strings[j] != value
    ensures r.Err? ==> r.fault == Thrown && forall j :: from <= j < |strings| ==> strings[j] != value
    decreases |strings| - from
  {
    if from == |strings| then Err(Thrown)
    else if strings[from] == value then Ok(from)
    else IndexOfFrom(strings, value, from + 1)
  }

  function IndexOf(strings: seq<string>, value: string): Result<nat>
  {
    IndexOfFrom(strings, value, 0)
  }

  method StringToEnum(value: string, strings: seq<string>) returns (r: Result<nat>)
    ensures r == IndexOf(strings, value)
    ensures r.Ok? <==> value in strings
  {
    for i := 0 to |strings|
      invariant IndexOfFrom(strings, value, 0) == IndexOfFrom(strings, value, i)
    {
      if strings[i] == value {
        return Ok(i);
      }
    }
    return Err(Thrown);
  }

  ghost predicate Distinct(strings: seq<string>)
  {
    forall i, j :: 0 <= i < j < |strings| ==> strings[i] != strings[j]
  }

  /** With pairwise distinct names, looking up the name at index `i` gives
      back `i`. */
  lemma DistinctRoundTrip(strings: seq<string>, i: nat)
    requires Distinct(strings) && i < |strings|
    ensures IndexOf(strings, strings[i]) == Ok(i)
  {
  }

  /** A lookup fails exactly for a value no entry equals. */
  lemma UnknownNameThrows(strings: seq<string>, value: string)
    ensures IndexOf(strings, value).Err? <==> value !in strings
  {
    if value in strings {
      var i :| 0 <= i < |strings| && strings[i] == value;
    }
  }
}

=== FILE: entity_filter.dfy ===
/** The set of entities matched by one component-type filter.

    A filter holds a set of component types and a mode. In `All` mode an
    entity matches when it has a component of every type in the set; in
    `Any` mode, when it has a component of at least one of them. The scene
    tells the filter when an entity is added, removed or has its components
    changed, and the filter inserts or erases the entity and notifies its
    listeners. The notifications are recorded here as a sequence of events;
    the listeners themselves are not part of this model. An entity is its id
    and the types of its components, in order (a type may repeat). */
module EntityFilter {

  type ComponentType = nat

  datatype Entity = Entity(id: nat, components: seq<ComponentType>)

  datatype FilterMode = All | Any

  datatype FilterEvent = Added(entityId: nat) | Removed(entityId: nat)

  /** Some component of the entity has one of the filter's types. */
  predicate HasFilterType(types: set<ComponentType>, components: seq<ComponentType>)
  {
    exists i :: 0 <= i < |components| && components[i] in types
  }

  /** Every one of the filter's types is among the entity's components. */
  predicate HasAllTypes(types: set<ComponentType>, components: seq<ComponentType>)
  {
    forall t :: t in types ==> t in components
  }

  predicate Accepts(mode: FilterMode, types: set<ComponentType>, components: seq<ComponentType>)
  {
    match mode
    case All => HasAllTypes(types, components)
    case Any => HasFilterType(types, components)
  }

  /** The filter types found among the components are as many as the
      filter types exactly when every filter type was found. */
  lemma FoundAllExactlyWhenSameSize(found: set<ComponentType>, types: set<ComponentType>, components: seq<ComponentType>)
    requires forall t :: t in found <==> t in types && t in components
    ensures |found| == |types| <==> HasAllTypes(types, components)
  {
    if HasAllTypes(types, components) {
      assert found == types;
    } else {
      var t :| t in types && t !in components;
      assert found <= types - {t};
      SubsetSizeBound(found, types - {t});
    }
  }

  lemma SubsetSizeBound<T>(a: set<T>, b: set<T>)
    requires a <= b
    ensures |a| <= |b|
  {
    assert b == a + (b - a);
  }

  class EntityFilter {
    const componentTypes: set<ComponentType>
    const mode: FilterMode
    /** `_entities`. */
    var entities: set<nat>
    /** The notifications published so far, oldest first. */
    var events: seq<FilterEvent>

    constructor(types: seq<ComponentType>, mode: FilterMode)
      ensures componentTypes == set i | 0 <= i < |types| :: types[i]
      ensures this.mode == mode && entities == {} && events == []
    {
      componentTypes := set i | 0 <= i < |types| :: types[i];
      this.mode := mode;
      entities := {};
      events := [];
    }

    /** Inserts the entity, and publishes its addition, when it matches the
        filter; does nothing otherwise. */
    method HandleEntityAdd(entity: Entity)
      modifies this
      ensures Accepts(mode, componentTypes, entity.components) ==>
        entities == old(entities) + {entity.id} && events == old(events) + [Added(entity.id)]
      ensures !Accepts(mode, componentTypes, entity.components) ==>
        entities == old(entities) && events == old(events)
    {
      var components := entity.components;
      if mode == All {
        var foundComponents: set<ComponentType> := {};
        for i := 0 to |components|
          invariant foundComponents <= componentTypes
          invariant forall t :: t in componentTypes && t in components[..i] ==> t in foundComponents
          invariant forall t :: t in foundComponents ==> t in components[..i]
        {
          assert components[..i + 1] == components[..i] + [components[i]];
          if components[i] !in componentTypes {
            continue;
          }
          foundComponents := foundComponents + {components[i]};
        }
        assert components[..|components|] == components;
        FoundAllExactlyWhenSameSize(foundComponents, componentTypes, components);
        if |foundComponents| == |componentTypes| {
          entities := entities + {entity.id};
          events := events + [Added(entity.id)];
        }
      } else {
        for i := 0 to |components|
          invariant forall j :: 0 <= j < i ==> components[j] !in componentTypes
        {
          if components[i] in componentTypes {
            entities := entities + {entity.id};
            events := events + [Added(entity.id)];
            return;
          }
        }
      }
    }

    /** Erases the entity, and publishes its removal, when it has a
        component of one of the filter's types, whatever the mode and
        whether or not it was in the set; does nothing otherwise. */
    method HandleEntityRemove(entity: Entity)
      modifies this
      ensures HasFilterType(componentTypes, entity.components) ==>
        entities == old(entities) - {entity.id} && events == old(events) + [Removed(entity.id)]
      ensures !HasFilterType(componentTypes, entity.components) ==>
        entities == old(entities) && events == old(events)
    {
      var components := entity.components;
      for i := 0 to |components|
        invariant forall j :: 0 <= j < i ==> components[j] !in componentTypes
        invariant entities == old(entities) && events == old(events)
      {
        if components[i] !in componentTypes {
          continue;
        }
        entities := entities - {entity.id};
        events := events + [Removed(entity.id)];
        break;
      }
    }

    /** Re-evaluates an entity whose components changed: a removal followed
        by an addition. */
    method HandleEntityComponentsUpdated(entity: Entity)
      modifies this
      ensures entities == UpdatedMembership(old(entities), entity)
      ensures events == old(events) + UpdateEvents(entity)
    {
      HandleEntityRemove(entity);
      HandleEntityAdd(entity);
    }

    /** The entity set after a components update. */
    function UpdatedMembership(before: set<nat>, entity: Entity): (after: set<nat>)
      reads this
      ensures after - {entity.id} == before - {entity.id}
      ensures entity.id in after <==>
        Accepts(mode, componentTypes, entity.components)
        || (entity.id in before && !HasFilterType(componentTypes, entity.components))
    {
      var removed := if HasFilterType(componentTypes, entity.components) then before - {entity.id} else before;
      if Accepts(mode, componentTypes, entity.components) then removed + {entity.id} else removed
    }

    /** The notifications a components update publishes. */
    function UpdateEvents(entity: Entity): (r: seq<FilterEvent>)
      reads this
      ensures |r| <= 2
      ensures Removed(entity.id) in r <==> HasFilterType(componentTypes, entity.components)
      ensures Added(entity.id) in r <==> Accepts(mode, componentTypes, entity.components)
    {
      (if HasFilterType(componentTypes, entity.components) then [Removed(entity.id)] else [])
      + (if Accepts(mode, componentTypes, entity.components) then [Added(entity.id)] else [])
    }
  }

  /** A filter with no component types in `All` mode takes every entity; in
      `Any` mode it takes none. */
  lemma EmptyFilter(components: seq<ComponentType>)
    ensures Accepts(All, {}, components)
    ensures !Accepts(Any, {}, components)
  {
  }

  /** In `All` mode repeated components count once: an entity matches
      exactly when the set of its component types covers the filter's. */
  lemma AllModeIgnoresDuplicates(types: set<ComponentType>, components: seq<ComponentType>)
    ensures Accepts(All, types, components) <==> types <= set i | 0 <= i < |components| :: components[i]
  {
    var present := set i | 0 <= i < |components| :: components[i];
    if types <= present {
      forall t | t in types ensures t in components {
        var i :| 0 <= i < |components| && components[i] == t;
      }
    }
  }

  /** An entity that a filter with at least one type has taken in, in
      either mode, has a component of a filter type, so removing it erases it
      again. */
  lemma MatchedEntitiesAreRemovable(mode: FilterMode, types: set<ComponentType>, components: seq<ComponentType>)
    requires Accepts(mode, types, components) && types != {}
    ensures HasFilterType(types, components)
  {
    if mode == All {
      var t :| t in types;
      assert t in components;
      var i :| 0 <= i < |components| && components[i] == t;
    }
  }
}

=== FILE: frame_resources.dfy ===
/** The per-frame resources of the renderer: three constant-buffer pools of
    256, 512 and 1024-byte items, the pools retired during the frame, and
    the root signature currently bound.

    When the pool that fits a request runs short, it is retired (kept alive
    until the frame is reset) and a larger pool of the same item size takes
    its slot. A root signature is identified by a number; `None` is the null
    pointer. */
module FrameResources {
  import opened Outcome
  import opened ConstantBufferPool

  /** The item sizes of the three pools, smallest first. */
  const PoolItemSizes: seq<nat> := [256, 512, 1024]

  function Max(a: int, b: int): int
  {
    if a < b then b else a
  }

  class FrameResources {
    /** `_constantBufferPools`, one slot per item size. */
    var pools: seq<ConstantBufferPool>
    var retiredPools: seq<ConstantBufferPool>
    var currentRootSignature: Option<nat>

    ghost predicate Valid()
      reads this, pools
    {
      && |pools| == |PoolItemSizes|
      && forall k :: 0 <= k < |pools| ==> pools[k].itemSizeInBytes == PoolItemSizes[k] && pools[k].Valid()
    }

    /** Three empty pools of `initialCapacity` items each, nothing retired
        and no root signature bound. */
    constructor(initialCapacity: nat)
      ensures Valid() && fresh(pools[0]) && fresh(pools[1]) && fresh(pools[2])
      ensures forall k :: 0 <= k < |pools| ==> pools[k].capacityInItems == initialCapacity && pools[k].allocatedItems == 0
      ensures retiredPools == [] && currentRootSignature == None
    {
      var p256 := new ConstantBufferPool(256, initialCapacity);
      var p512 := new ConstantBufferPool(512, initialCapacity);
      var p1024 := new ConstantBufferPool(1024, initialCapacity);
      pools := [p256, p512, p1024];
      retiredPools := [];
      currentRootSignature := None;
    }

    /** The first pool, smallest item size first, whose items are at least
        `itemSizeInBytes` long; a request larger than every pool's item size
        is fatal. If that pool has fewer than `itemCount` free items it is
        retired and its slot gets a new, empty pool of the same item size
        with room for `max(itemCount, 2 * old capacity)` items. */
    method GetOrCreateConstantBufferPoolToFit(itemSizeInBytes: nat, itemCount: int)
      returns (r: Result<ConstantBufferPool>, ghost slot: nat)
      requires Valid()
      modifies this
      ensures Valid()
      ensures r.Err? <==> itemSizeInBytes > PoolItemSizes[|PoolItemSizes| - 1]
      ensures r.Err? ==> r.fault == Fatal && pools == old(pools) && retiredPools == old(retiredPools)
      ensures currentRootSignature == old(currentRootSignature)
      ensures r.Ok? ==>
        && slot < |pools| && r.value == pools[slot] && SlotFor(itemSizeInBytes) == Some(slot)
        && itemSizeInBytes <= r.value.itemSizeInBytes
        && (forall k :: 0 <= k < slot ==> PoolItemSizes[k] < itemSizeInBytes)
        && r.value.FreeCount() >= itemCount
        && pools == old(pools)[slot := r.value]
      ensures r.Ok? && old(pools[slot].FreeCount()) < itemCount ==>
        && fresh(r.value) && r.value.allocatedItems == 0
        && r.value.capacityInItems == Max(itemCount, 2 * old(pools[slot].capacityInItems))
        && retiredPools == old(retiredPools) + [old(pools[slot])]
      ensures r.Ok? && old(pools[slot].FreeCount()) >= itemCount ==>
        r.value == old(pools[slot]) && retiredPools == old(retiredPools)
    {
      var k := 0;
      while k < |pools| && pools[k].itemSizeInBytes < itemSizeInBytes
        invariant 0 <= k <= |pools|
        invariant forall j :: 0 <= j < k ==> PoolItemSizes[j] < itemSizeInBytes
      {
        k := k + 1;
      }
      if k == |pools| {
        return Err(Fatal), 0;
      }
      slot := k;
      var pool := pools[k];
      if pool.FreeCount() < itemCount {
        var newCapacity := Max(itemCount, 2 * pool.capacityInItems);
        retiredPools := retiredPools + [pool];
        pool := new ConstantBufferPool(pool.itemSizeInBytes, newCapacity);
        pools := pools[k := pool];
      }
      return Ok(pool), slot;
    }

    /** Takes back every item of every pool and lets go of the retired
        pools. */
    method Reset()
      requires Valid()
      modifies pools, this`retiredPools
      ensures Valid() && pools == old(pools) && retiredPools == []
      ensures forall k :: 0 <= k < |pools| ==> pools[k].allocatedItems == 0
    {
      for i := 0 to |pools|
        invariant Valid() && pools == old(pools)
        invariant forall k :: 0 <= k < i ==> pools[k].allocatedItems == 0
      {
        pools[i].Reset();
      }
      retiredPools := [];
    }

    /** Binds a root signature. Unbinding (null) is always allowed; binding
        one while another is bound is fatal. */
    method SetCurrentBoundRootSignature(rootSignature: Option<nat>) returns (status: Status)
      modifies this`currentRootSignature
      ensures status == Done <==> rootSignature == None || old(currentRootSignature) == None
      ensures status == Done ==> currentRootSignature == rootSignature
      ensures status != Done ==> status == Failed(Fatal) && currentRootSignature == old(currentRootSignature)
    {
      if rootSignature != None && currentRootSignature != None {
        return Failed(Fatal);
      }
      currentRootSignature := rootSignature;
      return Done;
    }

    function CurrentBoundRootSignature(): Option<nat>
      reads this
    {
      currentRootSignature
    }
  }

  /** The slot a request of `itemSizeInBytes` bytes goes to: the first item
      size that is large enough. */
  function SlotFor(itemSizeInBytes: nat): (slot: Option<nat>)
    ensures slot.None? <==> itemSizeInBytes > 1024
    ensures slot.Some? ==>
      && slot.value < |PoolItemSizes| && itemSizeInBytes <= PoolItemSizes[slot.value]
      && forall k :: 0 <= k < slot.value ==> PoolItemSizes[k] < itemSizeInBytes
  {
    if itemSizeInBytes <= 256 then Some(0)
    else if itemSizeInBytes <= 512 then Some(1)
    else if itemSizeInBytes <= 1024 then Some(2)
    else None
  }

  /** A frame that binds a root signature, unbinds it and binds another
      ends with the second bound; binding twice without unbinding fails. */
  method RebindNeedsUnbind(frame: FrameResources, a: nat, b: nat) returns (rebind: Status, afterUnbind: Status)
    requires frame.currentRootSignature == None
    modifies frame
    ensures rebind == Failed(Fatal) && afterUnbind == Done
    ensures frame.currentRootSignature == Some(b)
  {
    var first := frame.SetCurrentBoundRootSignature(Some(a));
    rebind := frame.SetCurrentBoundRootSignature(Some(b));
    var unbind := frame.SetCurrentBoundRootSignature(None);
    afterUnbind := frame.SetCurrentBoundRootSignature(Some(b));
  }
}

=== FILE: light_data.dfy ===
/** The per-frame light list that the renderer hands to its shaders.

    `Render_light_data_impl<TMax_lights>` keeps a fixed array of
    `TMax_lights` light entries and a count of the active ones. Adding a light
    writes the next free slot; clearing only resets the count. Positions,
    directions, colours and matrices are floating-point values that the list
    only stores, so they are carried here as opaque values (`real`). */
module LightData {
  import opened Outcome

  datatype LightType = Directional | Point | Ambient

  datatype Float3 = Float3(x: real, y: real, z: real)

  /** A 4x4 matrix, row after row. */
  datatype Matrix4 = Matrix4(elements: seq<real>)

  /** `Light_entry`, the record a shader reads for one light. */
  datatype LightEntry = LightEntry(
    lightType: LightType,
    positionDirection: Float3,
    intensifiedColor: Float3,
    shadowMapIndex: int,
    shadowViewProjMatrix: Matrix4,
    shadowMapBias: real,
    shadowmapDimension: int)

  /** The shadow map index of a light that casts no shadow. */
  const ShadowMapDisabledIndex: int := -1

  const Origin: Float3 := Float3(0.0, 0.0, 0.0)

  const ZeroMatrix: Matrix4 :=
    Matrix4([0.0, 0.0, 0.0, 0.0, 0.0, 0.0, 0.0, 0.0, 0.0, 0.0, 0.0, 0.0, 0.0, 0.0, 0.0, 0.0])

  /** A default-constructed entry, as the constructor fills every slot. */
  const DefaultEntry: LightEntry :=
    LightEntry(Directional, Origin, Origin, ShadowMapDisabledIndex, ZeroMatrix, 0.0, 0)

  /** An entry for a light without a shadow map: the disabled shadow index,
      no bias and no dimension. */
  function UnshadowedEntry(lightType: LightType, positionDirection: Float3, intensifiedColor: Float3): (e: LightEntry)
    ensures e.lightType == lightType && e.positionDirection == positionDirection
    ensures e.intensifiedColor == intensifiedColor
    ensures e.shadowMapIndex == ShadowMapDisabledIndex && e.shadowMapBias == 0.0 && e.shadowmapDimension == 0
  {
    LightEntry(lightType, positionDirection, intensifiedColor, ShadowMapDisabledIndex, ZeroMatrix, 0.0, 0)
  }

  /** `static_cast<int32_t>` of an unsigned 32-bit value: values of 2^31 and
      above wrap to negative numbers. */
  function ToInt32(v: nat): (r: int)
    requires v < 0x1_0000_0000
    ensures -0x8000_0000 <= r < 0x8000_0000
    ensures r % 0x1_0000_0000 == v
    ensures v < 0x8000_0000 ==> r == v
  {
    if v < 0x8000_0000 then v else v - 0x1_0000_0000
  }

  /** What a shadowed directional light takes from its shadow map. */
  datatype ShadowMapData = ShadowMapData(arraySlice: nat, worldViewProjMatrix: Matrix4, dimensionX: nat)

  /** `Light_constants`: the light array and the number of its active
      entries. */
  class LightConstants {
    const maxLights: nat
    const lights: array<LightEntry>
    var activeLights: nat

    ghost predicate Valid()
      reads this
    {
      maxLights < 256 && lights.Length == maxLights && activeLights <= maxLights
    }

    /** The lights the shader sees: the active prefix of the array. */
    ghost function Active(): (s: seq<LightEntry>)
      reads this, lights
      requires Valid()
      ensures |s| == activeLights
    {
      lights[..activeLights]
    }

    constructor(maxLights: nat)
      requires maxLights < 256
      ensures Valid() && fresh(lights)
      ensures this.maxLights == maxLights && activeLights == 0
      ensures forall i :: 0 <= i < lights.Length ==> lights[i] == DefaultEntry
    {
      this.maxLights := maxLights;
      lights := new LightEntry[maxLights](_ => DefaultEntry);
      activeLights := 0;
    }

    predicate Full()
      reads this
    {
      activeLights == maxLights
    }

    predicate Empty()
      reads this
    {
      activeLights == 0
    }

    /** Stores `entry` in the next free slot, or refuses when the list is
        full. */
    method AddLight(entry: LightEntry) returns (added: bool)
      requires Valid()
      modifies this, lights
      ensures Valid()
      ensures added <==> old(activeLights) < maxLights
      ensures added <==> !old(Full())
      ensures added ==>
        && activeLights == old(activeLights) + 1
        && lights[..] == old(lights[..])[old(activeLights) := entry]
        && Active() == old(Active()) + [entry]
      ensures !added ==> activeLights == old(activeLights) && lights[..] == old(lights[..])
    {
      if Full() {
        return false;
      }
      lights[activeLights] := entry;
      activeLights := activeLights + 1;
      assert lights[..activeLights] == old(lights[..activeLights]) + [entry];
      return true;
    }

    /** Forgets every active light; the stored entries stay in the array. */
    method Clear()
      requires Valid()
      modifies this
      ensures Valid() && activeLights == 0 && Empty()
      ensures Active() == []
    {
      activeLights := 0;
    }
  }

  /** `Render_light_data_impl`: the light list and the image-based lighting
      maps, each a texture handle. */
  class RenderLightData {
    const lightConstants: LightConstants
    var environmentIblMapBrdf: Option<nat>
    var environmentIblMapDiffuse: Option<nat>
    var environmentIblMapSpecular: Option<nat>

    ghost predicate Valid()
      reads this, lightConstants
    {
      lightConstants.Valid()
    }

    constructor(maxLights: nat)
      requires maxLights < 256
      ensures Valid() && fresh(lightConstants) && fresh(lightConstants.lights)
      ensures MaxLights() == maxLights && lightConstants.activeLights == 0
      ensures environmentIblMapBrdf == None && environmentIblMapDiffuse == None && environmentIblMapSpecular == None
    {
      lightConstants := new LightConstants(maxLights);
      environmentIblMapBrdf := None;
      environmentIblMapDiffuse := None;
      environmentIblMapSpecular := None;
    }

    function MaxLights(): nat
      reads this
    {
      lightConstants.maxLights
    }

    predicate Empty()
      reads this, lightConstants
    {
      lightConstants.Empty()
    }

    predicate Full()
      reads this, lightConstants
    {
      lightConstants.Full()
    }

    /** A point light at `lightPosition`, without a shadow. */
    method AddPointLight(lightPosition: Float3, intensifiedColor: Float3) returns (added: bool)
      requires Valid()
      modifies lightConstants, lightConstants.lights
      ensures Valid()
      ensures added <==> old(lightConstants.activeLights) < MaxLights()
      ensures lightConstants.Active() ==
        old(lightConstants.Active()) + (if added then [UnshadowedEntry(Point, lightPosition, intensifiedColor)] else [])
    {
      added := lightConstants.AddLight(UnshadowedEntry(Point, lightPosition, intensifiedColor));
    }

    /** A directional light shining along `lightDirection`, without a
        shadow. */
    method AddDirectionalLight(lightDirection: Float3, intensifiedColor: Float3) returns (added: bool)
      requires Valid()
      modifies lightConstants, lightConstants.lights
      ensures Valid()
      ensures added <==> old(lightConstants.activeLights) < MaxLights()
      ensures lightConstants.Active() ==
        old(lightConstants.Active()) + (if added then [UnshadowedEntry(Directional, lightDirection, intensifiedColor)] else [])
    {
      added := lightConstants.AddLight(UnshadowedEntry(Directional, lightDirection, intensifiedColor));
    }

    /** A directional light that casts a shadow: the entry records the shadow
        map's array slice, its matrix, the bias and the map's width, the
        slice and the width each cast to a signed 32-bit value. */
    method AddShadowedDirectionalLight(lightDirection: Float3, intensifiedColor: Float3,
                                       shadowMapData: ShadowMapData, shadowMapBias: real)
      returns (added: bool)
      requires Valid()
      requires shadowMapData.arraySlice < 0x1_0000_0000 && shadowMapData.dimensionX < 0x1_0000_0000
      modifies lightConstants, lightConstants.lights
      ensures Valid()
      ensures added <==> old(lightConstants.activeLights) < MaxLights()
      ensures added ==> lightConstants.Active() == old(lightConstants.Active()) + [
        LightEntry(Directional, lightDirection, intensifiedColor, ToInt32(shadowMapData.arraySlice),
                   shadowMapData.worldViewProjMatrix, shadowMapBias, ToInt32(shadowMapData.dimensionX))]
      ensures !added ==> lightConstants.Active() == old(lightConstants.Active())
    {
      var lightEntry := LightEntry(Directional, lightDirection, intensifiedColor, ToInt32(shadowMapData.arraySlice),
                                   shadowMapData.worldViewProjMatrix, shadowMapBias, ToInt32(shadowMapData.dimensionX));
      added := lightConstants.AddLight(lightEntry);
    }

    /** An ambient light: no position, no shadow. */
    method AddAmbientLight(intensifiedColor: Float3) returns (added: bool)
      requires Valid()
      modifies lightConstants, lightConstants.lights
      ensures Valid()
      ensures added <==> old(lightConstants.activeLights) < MaxLights()
      ensures lightConstants.Active() ==
        old(lightConstants.Active()) + (if added then [UnshadowedEntry(Ambient, Origin, intensifiedColor)] else [])
    {
      added := lightConstants.AddLight(UnshadowedEntry(Ambient, Origin, intensifiedColor));
    }

    method SetEnvironmentIblMap(brdf: Option<nat>, diffuse: Option<nat>, specular: Option<nat>)
      modifies this
      ensures environmentIblMapBrdf == brdf && environmentIblMapDiffuse == diffuse
      ensures environmentIblMapSpecular == specular
    {
      environmentIblMapBrdf := brdf;
      environmentIblMapDiffuse := diffuse;
      environmentIblMapSpecular := specular;
    }

    method Clear()
      requires Valid()
      modifies lightConstants
      ensures Valid() && Empty() && lightConstants.Active() == []
    {
      lightConstants.Clear();
    }
  }

  /** The unlit pass keeps a list of no lights: every add is refused. */
  method UnlitListRefusesEveryLight(entries: seq<LightEntry>) returns (accepted: nat)
    ensures accepted == 0
  {
    var unlit := new LightConstants(0);
    accepted := 0;
    for i := 0 to |entries|
      invariant unlit.Valid() && unlit.maxLights == 0 && accepted == 0
    {
      var added := unlit.AddLight(entries[i]);
      accepted := accepted + if added then 1 else 0;
    }
  }

  /** The lit pass keeps at most eight lights: offered a sequence of lights
      one after another, an empty list takes the first eight and refuses the
      rest, and the shader then sees exactly those eight, in order. */
  method LitListKeepsFirstEight(entries: seq<LightEntry>) returns (shown: seq<LightEntry>, refused: nat)
    ensures shown == entries[..if |entries| < 8 then |entries| else 8]
    ensures refused == |entries| - |shown|
  {
    var lit := new LightConstants(8);
    refused := 0;
    for i := 0 to |entries|
      invariant lit.Valid() && lit.maxLights == 8
      invariant lit.Active() == entries[..if i < 8 then i else 8]
      invariant refused == i - |lit.Active()|
    {
      var added := lit.AddLight(entries[i]);
      if !added {
        refused := refused + 1;
      } else {
        assert entries[..i + 1] == entries[..i] + [entries[i]];
      }
    }
    shown := lit.lights[..lit.activeLights];
  }
}

=== FILE: material_manager.dfy ===
/** The material contexts of the Direct3D 12 material manager, and the
    handles that name them.

    A context is created at the end of a list; its handle is its position in
    the list plus one, so that no handle is zero or negative. A handle is
    valid while it names a position of the list; dropping the device
    dependent resources empties the list and so invalidates every handle.
    Only the parts of a context that the handle table reads or writes are
    modelled: its name, its state identifier and whether its data is
    ready. */
module MaterialManager {
  import opened Outcome

  /** The state a context was last loaded with; the engine compares it to
      decide whether a context must be rebuilt. */
  datatype StateIdentifier = StateIdentifier(layoutKey: nat, wireframeEnabled: bool)

  const DefaultStateIdentifier := StateIdentifier(0, false)

  datatype MaterialContext = MaterialContext(name: string, stateIdentifier: StateIdentifier, isDataReady: bool)

  /** `materialContextHandleToIndex`, for the handles it is used on. */
  function HandleToIndex(handle: int): (index: nat)
    requires handle >= 1
    ensures IndexToHandle(index) == handle
  {
    handle - 1
  }

  /** `arrayIndexToMaterialContextHandle`. */
  function IndexToHandle(index: nat): (handle: int)
    ensures handle >= 1
  {
    index + 1
  }

  /** The two conversions are inverse: each index round-trips through its
      handle, and each positive handle through its index. */
  lemma HandleIndexRoundTrip(index: nat, handle: int)
    ensures HandleToIndex(IndexToHandle(index)) == index
    ensures handle >= 1 ==> IndexToHandle(HandleToIndex(handle)) == handle
  {
  }

  /** The position `handle` names in a list of `count` contexts, if any:
      a handle that is not positive or is past the list names nothing. */
  function Lookup(count: nat, handle: int): (r: Option<nat>)
    ensures r.Some? <==> 1 <= handle <= count
    ensures r.Some? ==> r.value < count && IndexToHandle(r.value) == handle
  {
    if handle <= 0 then None
    else
      var index := HandleToIndex(handle);
      if index >= count then None else Some(index)
  }

  /** A handle stays valid as the list grows. */
  lemma LookupStable(count: nat, extra: nat, handle: int)
    requires Lookup(count, handle).Some?
    ensures Lookup(count + extra, handle) == Lookup(count, handle)
  {
  }

  /** Distinct handles name distinct contexts. */
  lemma LookupInjective(count: nat, h1: int, h2: int)
    requires Lookup(count, h1).Some? && Lookup(count, h2).Some?
    requires h1 != h2
    ensures Lookup(count, h1).value != Lookup(count, h2).value
  {
  }

  class MaterialManager {
    /** `_deviceDependent.materialContexts`. */
    var materialContexts: seq<MaterialContext>

    constructor()
      ensures materialContexts == []
    {
      materialContexts := [];
    }

    predicate ValidHandle(handle: int)
      reads this
    {
      Lookup(|materialContexts|, handle).Some?
    }

    /** `destroyDeviceDependentResources`: the contexts go with the device. */
    method DestroyDeviceDependentResources()
      modifies this
      ensures materialContexts == []
      ensures forall handle :: !ValidHandle(handle)
    {
      materialContexts := [];
    }

    /** Appends a new context, not ready and with the default state
        identifier, and returns the handle that names it. */
    method CreateMaterialContext(name: string) returns (handle: int)
      modifies this
      ensures handle == |old(materialContexts)| + 1
      ensures materialContexts == old(materialContexts) + [MaterialContext(name, DefaultStateIdentifier, false)]
      ensures Lookup(|materialContexts|, handle) == Some(|old(materialContexts)|)
      ensures forall h :: old(ValidHandle(h)) ==> ValidHandle(h)
    {
      handle := IndexToHandle(|materialContexts|);
      materialContexts := materialContexts + [MaterialContext(name, DefaultStateIdentifier, false)];
    }

    /** The context `handle` names; an invalid handle names none. */
    function MaterialContextImpl(handle: int): (r: Option<MaterialContext>)
      reads this
      ensures r.Some? <==> ValidHandle(handle)
      ensures r.Some? ==> r.value == materialContexts[handle - 1]
    {
      match Lookup(|materialContexts|, handle)
      case None => None
      case Some(index) => Some(materialContexts[index])
    }

    /** Copies the state identifier of the context `handle` names into the
        caller's `stateIdentifier` and answers true; with an invalid handle
        answers false and leaves the caller's value as it was. */
    method GetMaterialStateIdentifier(handle: int, stateIdentifier: StateIdentifier)
      returns (found: bool, identifier: StateIdentifier)
      ensures found <==> 1 <= handle <= |materialContexts|
      ensures found ==> identifier == materialContexts[handle - 1].stateIdentifier
      ensures !found ==> identifier == stateIdentifier
    {
      var impl := MaterialContextImpl(handle);
      if impl.None? {
        return false, stateIdentifier;
      }
      return true, impl.value.stateIdentifier;
    }

    /** Whether the data of the context `handle` names is ready; an invalid
        handle fails a check. */
    method IsMaterialContextDataReady(handle: int) returns (r: Result<bool>)
      ensures r.Ok? <==> ValidHandle(handle)
      ensures r.Ok? ==> r.value == materialContexts[handle - 1].isDataReady
      ensures r.Err? ==> r.fault == Fatal
    {
      var impl := MaterialContextImpl(handle);
      if impl.None? {
        return Err(Fatal);
      }
      return Ok(impl.value.isDataReady);
    }

    /** Marks the data of the context `handle` names as ready or not; an
        invalid handle fails a check and changes nothing. */
    method SetDataReady(handle: int, ready: bool) returns (status: Status)
      modifies this
      ensures status == Done <==> old(ValidHandle(handle))
      ensures status == Done ==>
        materialContexts == old(materialContexts)[handle - 1 := old(materialContexts)[handle - 1].(isDataReady := ready)]
      ensures status != Done ==> status == Failed(Fatal) && materialContexts == old(materialContexts)
    {
      var index := Lookup(|materialContexts|, handle);
      if index.None? {
        return Failed(Fatal);
      }
      var impl := materialContexts[index.value];
      materialContexts := materialContexts[index.value := impl.(isDataReady := ready)];
      return Done;
    }
  }

  /** Setting one context's readiness is read back through its handle and
      leaves every other context as it was. */
  method SetDataReadyReadsBack(manager: MaterialManager, handle: int, other: int, ready: bool)
    returns (readBack: Result<bool>, otherBefore: Option<MaterialContext>, otherAfter: Option<MaterialContext>)
    requires manager.ValidHandle(handle) && other != handle
    modifies manager
    ensures readBack == Ok(ready)
    ensures otherAfter == otherBefore
  {
    otherBefore := manager.MaterialContextImpl(other);
    var status := manager.SetDataReady(handle, ready);
    readBack := manager.IsMaterialContextDataReady(handle);
    otherAfter := manager.MaterialContextImpl(other);
  }

  /** Successive contexts get successive handles, each naming its own
      context, and both stay valid. */
  method SuccessiveHandles(manager: MaterialManager, first: string, second: string) returns (h1: int, h2: int)
    modifies manager
    ensures h2 == h1 + 1
    ensures manager.MaterialContextImpl(h1) == Some(MaterialContext(first, DefaultStateIdentifier, false))
    ensures manager.MaterialContextImpl(h2) == Some(MaterialContext(second, DefaultStateIdentifier, false))
  {
    h1 := manager.CreateMaterialContext(first);
    h2 := manager.CreateMaterialContext(second);
  }
}

=== FILE: mesh_data.dfy ===
/** Mesh byte buffers, buffer accessors and the per-attribute tables of the
    mesh data.

    A `Mesh_buffer` is a block of `dataSize` bytes; here it is the sequence of
    those bytes, and a pointer into it is an index. The `std::map` of vertex
    accessors, which iterates in ascending key order, is the sequence of its
    entries in that order. */
module MeshData {
  import opened Outcome
  import opened RendererEnums
  import EngineUtils

  type Byte = x: int | 0 <= x < 256

  datatype MeshBuffer = MeshBuffer(data: seq<Byte>)

  datatype MeshBufferAccessor = MeshBufferAccessor(buffer: MeshBuffer, count: nat, stride: nat, offset: nat)

  datatype VertexAttributeSemantic = VertexAttributeSemantic(attribute: VertexAttribute, semanticIndex: nat)

  datatype VertexAttributeElement =
    VertexAttributeElement(semantic: VertexAttributeSemantic, elementType: ElementType, component: ElementComponent)

  datatype VertexBufferAccessor = VertexBufferAccessor(accessor: MeshBufferAccessor, attributeElement: VertexAttributeElement)

  datatype IndexBufferAccessor = IndexBufferAccessor(accessor: MeshBufferAccessor, component: ElementComponent)

  /** `Mesh_data`, reduced to its vertex accessors in map order. */
  datatype MeshData = MeshData(vertexBufferAccessors: seq<(VertexAttributeSemantic, VertexBufferAccessor)>)

  // ---------------------------------------------------------------------------
  // getIndexed

  /** One more than the largest `size_t`. */
  const SizeTLimit: nat := 0x1_0000_0000_0000_0000

  /** The position of element `index` of a buffer laid out with `stride` bytes
      per element from `offset`; an exception when the element does not lie
      wholly inside the buffer. Both ends are computed in `size_t`, so they
      wrap modulo 2^64. */
  function GetIndexed(b: MeshBuffer, index: nat, stride: nat, offset: nat): (r: Result<nat>)
    requires index < SizeTLimit && stride < SizeTLimit && offset < SizeTLimit && |b.data| < SizeTLimit
    ensures r.Ok? ==> r.value <= |b.data| && r.value == (offset + index * stride) % SizeTLimit
    ensures offset + index * stride + stride < SizeTLimit ==>
      && (r.Ok? <==> offset + index * stride + stride <= |b.data|)
      && (r.Ok? ==> r.value == offset + index * stride)
    ensures r.Err? ==> r.fault == Thrown
  {
    var start := offset + index * stride;
    var startPos := start % SizeTLimit;
    var endPos := (startPos + stride) % SizeTLimit;
    SizeTNoWrap(start, stride);
    if startPos > |b.data| || endPos > |b.data| then Err(Thrown) else Ok(startPos)
  }

  /** Below 2^64, `size_t` arithmetic is plain arithmetic. */
  lemma SizeTNoWrap(start: nat, length: nat)
    ensures start + length < SizeTLimit ==>
      start % SizeTLimit == start && (start % SizeTLimit + length) % SizeTLimit == start + length
  {
  }

  /** An index so large that `index * stride` wraps past 2^64 back to the
      start is accepted, and the first element is returned for it. */
  lemma WrappedIndexIsAccepted()
    ensures GetIndexed(MeshBuffer([0, 0]), 0x8000_0000_0000_0000, 2, 0) == Ok(0)
  {
    assert (0x8000_0000_0000_0000 * 2) % SizeTLimit == 0;
  }

  /** The accessor's element lookup, with its own stride and offset. */
  function AccessorGetIndexed(a: MeshBufferAccessor, index: nat): (r: Result<nat>)
    requires index < SizeTLimit && a.stride < SizeTLimit && a.offset < SizeTLimit && |a.buffer.data| < SizeTLimit
    ensures a.offset + (index + 1) * a.stride < SizeTLimit ==>
      && (r.Ok? <==> a.offset + (index + 1) * a.stride <= |a.buffer.data|)
      && (r.Ok? ==> r.value == a.offset + index * a.stride)
  {
    GetIndexed(a.buffer, index, a.stride, a.offset)
  }

  /** When an element is in bounds and its end does not wrap, every earlier
      element is in bounds too, and earlier elements end before later ones
      begin. */
  lemma IndexedElementsAreOrderedAndDisjoint(b: MeshBuffer, i: nat, j: nat, stride: nat, offset: nat)
    requires j < SizeTLimit && stride < SizeTLimit && offset < SizeTLimit && |b.data| < SizeTLimit
    requires offset + j * stride + stride < SizeTLimit
    requires i < j && GetIndexed(b, j, stride, offset).Ok?
    ensures GetIndexed(b, i, stride, offset).Ok?
    ensures GetIndexed(b, i, stride, offset).value + stride <= GetIndexed(b, j, stride, offset).value
  {
    MulMonotone(i + 1, j, stride);
  }

  lemma MulMonotone(a: nat, b: nat, k: nat)
    requires a <= b
    ensures a * k <= b * k
  {
  }

  // ---------------------------------------------------------------------------
  // getVertexCount

  /** `Vertex_attribute_semantic::operator<`: by attribute, then by index. */
  predicate SemanticLess(a: VertexAttributeSemantic, b: VertexAttributeSemantic)
  {
    if a.attribute == b.attribute then a.semanticIndex < b.semanticIndex
    else VertexAttributeOrdinal(a.attribute) < VertexAttributeOrdinal(b.attribute)
  }

  /** The entries of a `std::map`: keys strictly ascending. */
  ghost predicate KeysAscending<V>(entries: seq<(VertexAttributeSemantic, V)>)
  {
    forall i, j :: 0 <= i < j < |entries| ==> SemanticLess(entries[i].0, entries[j].0)
  }

  /** The vertex count: 0 without vertex accessors, otherwise the count of the
      accessor with the least key. */
  function GetVertexCount(m: MeshData): (r: nat)
    requires KeysAscending(m.vertexBufferAccessors)
    ensures |m.vertexBufferAccessors| == 0 ==> r == 0
    ensures |m.vertexBufferAccessors| > 0 ==>
      exists k :: 0 <= k < |m.vertexBufferAccessors|
        && r == m.vertexBufferAccessors[k].1.accessor.count
        && forall j :: 0 <= j < |m.vertexBufferAccessors| ==>
             !SemanticLess(m.vertexBufferAccessors[j].0, m.vertexBufferAccessors[k].0)
  {
    if |m.vertexBufferAccessors| == 0 then 0
    else
      var first := m.vertexBufferAccessors[0];
      assert forall j :: 0 <= j < |m.vertexBufferAccessors| ==>
        !SemanticLess(m.vertexBufferAccessors[j].0, first.0) by {
        forall j | 0 <= j < |m.vertexBufferAccessors|
          ensures !SemanticLess(m.vertexBufferAccessors[j].0, first.0)
        {
          if j > 0 {
            SemanticLessAsymmetric(first.0, m.vertexBufferAccessors[j].0);
          }
        }
      }
      first.1.accessor.count
  }

  lemma SemanticLessAsymmetric(a: VertexAttributeSemantic, b: VertexAttributeSemantic)
    requires SemanticLess(a, b)
    ensures !SemanticLess(b, a)
  {
    if a.attribute != b.attribute {
      VertexAttributeOrdinalInjective(a.attribute, b.attribute);
    }
  }

  lemma VertexAttributeOrdinalInjective(a: VertexAttribute, b: VertexAttribute)
    requires a != b
    ensures VertexAttributeOrdinal(a) != VertexAttributeOrdinal(b)
  {
  }

  // ---------------------------------------------------------------------------
  // vsInputName

  /** The decimal digits of `n`, as `std::to_string` writes them. */
  function DecimalString(n: nat): (r: string)
    ensures |r| > 0
    decreases n
  {
    if n < 10 then [DigitChar(n)] else DecimalString(n / 10) + [DigitChar(n % 10)]
  }

  function DigitChar(d: nat): char
    requires d < 10
  {
    "0123456789"[d]
  }

  /** Reads back a string of decimal digits. */
  function ParseDecimal(s: string): nat
  {
    if s == [] then 0
    else
      var c := s[|s| - 1];
      ParseDecimal(s[..|s| - 1]) * 10 + (if '0' <= c <= '9' then (c as int - '0' as int) else 0)
  }

  lemma {:induction false} ParseDecimalString(n: nat)
    ensures ParseDecimal(DecimalString(n)) == n
    decreases n
  {
    if n >= 10 {
      ParseDecimalString(n / 10);
      var s := DecimalString(n);
      assert s[..|s| - 1] == DecimalString(n / 10);
    }
  }

  /** Text that `std::to_string` can produce for a positive number: decimal
      digits only, at least one, and no leading zero. */
  predicate PositiveDecimalText(s: string)
  {
    && |s| > 0
    && s[0] != '0'
    && forall i :: 0 <= i < |s| ==> '0' <= s[i] <= '9'
  }

  lemma {:induction false} DecimalStringDigits(n: nat)
    ensures forall i :: 0 <= i < |DecimalString(n)| ==> '0' <= DecimalString(n)[i] <= '9'
    ensures n > 0 ==> PositiveDecimalText(DecimalString(n))
    decreases n
  {
    if n >= 10 {
      DecimalStringDigits(n / 10);
      var s := DecimalString(n);
      assert s == DecimalString(n / 10) + [DigitChar(n % 10)];
      assert s[0] == DecimalString(n / 10)[0];
    }
  }

  /** The input name of an attribute, before any semantic index. */
  function InputBaseName(attribute: VertexAttribute): string
  {
    match attribute
    case Position => "VA_POSITION"
    case Color => "VA_COLOR"
    case Normal => "VA_NORMAL"
    case Tangent => "VA_TANGENT"
    case BiTangent => "VA_BITANGENT"
    case TexCoord => "VA_TEXCOORD"
    case Joints => "VA_INVALID"
    case Weights => "VA_INVALID"
  }

  /** The vertex shader input name: the attribute's name, followed by `_` and
      the semantic index when that index is not 0. */
  function VsInputName(s: VertexAttributeSemantic): (r: string)
    ensures s.semanticIndex == 0 ==> r == InputBaseName(s.attribute)
    ensures s.semanticIndex != 0 ==>
      EngineUtils.StrStarts(r, InputBaseName(s.attribute) + "_")
      && PositiveDecimalText(r[|InputBaseName(s.attribute)| + 1..])
      && ParseDecimal(r[|InputBaseName(s.attribute)| + 1..]) == s.semanticIndex
  {
    var str := InputBaseName(s.attribute);
    if s.semanticIndex != 0 then
      var r := str + "_" + DecimalString(s.semanticIndex);
      assert r[..|str| + 1] == str + "_";
      assert r[|str| + 1..] == DecimalString(s.semanticIndex);
      ParseDecimalString(s.semanticIndex);
      DecimalStringDigits(s.semanticIndex);
      r
    else str
  }

  /** Joints and weights have no input name of their own: both come out as
      the invalid name. */
  lemma JointsAndWeightsShareInvalidName(i: nat)
    ensures VsInputName(VertexAttributeSemantic(Joints, i)) == VsInputName(VertexAttributeSemantic(Weights, i))
    ensures VsInputName(VertexAttributeSemantic(Joints, 0)) == "VA_INVALID"
  {
  }

  /** The listed attributes have pairwise distinct base names. */
  lemma ListedBaseNamesDistinct(a: VertexAttribute, b: VertexAttribute)
    requires a != b && a !in {Joints, Weights} && b !in {Joints, Weights}
    ensures InputBaseName(a) != InputBaseName(b)
  {
  }

  // ---------------------------------------------------------------------------
  // numComponents and semanticName

  /** The number of components of an attribute; joints and weights have none
      defined and throw. */
  function NumComponents(attribute: VertexAttribute): (r: Result<nat>)
    ensures r.Err? <==> attribute == Joints || attribute == Weights
    ensures r.Err? ==> r.fault == Thrown
    ensures r.Ok? ==> 2 <= r.value <= 4
    ensures r.Ok? && r.value == 4 <==> attribute == Tangent
    ensures r.Ok? && r.value == 2 <==> attribute == TexCoord
  {
    match attribute
    case TexCoord => Ok(2)
    case Position => Ok(3)
    case Color => Ok(3)
    case Normal => Ok(3)
    case BiTangent => Ok(3)
    case Tangent => Ok(4)
    case _ => Err(Thrown)
  }

  const SemanticNames: seq<string> :=
    ["POSITION", "COLOR", "NORMAL", "TANGENT", "BITANGENT", "TEXCOORD", "BONEINDICES", "WEIGHTS"]

  /** The HLSL semantic of an attribute: the table entry at its ordinal; the
      table has one entry per attribute. */
  function SemanticName(attribute: VertexAttribute): (r: string)
    ensures |SemanticNames| == |VertexAttributeValues|
    ensures r in SemanticNames
  {
    SemanticNames[VertexAttributeOrdinal(attribute)]
  }

  /** Distinct attributes have distinct semantics. */
  lemma SemanticNameInjective(a: VertexAttribute, b: VertexAttribute)
    requires a != b
    ensures SemanticName(a) != SemanticName(b)
  {
    VertexAttributeOrdinalInjective(a, b);
  }
}

=== FILE: mesh_utils.dfy ===
/** Building mesh buffers from raw source bytes.

    `create_buffer` copies `elementCount` elements of `elementSize` bytes,
    `sourceStride` bytes apart in the source, into a fresh packed buffer;
    `create_index_buffer` widens every source index to a 32-bit unsigned
    value; `getDxgiFormat` looks an element layout up in a fixed table. All
    sizes are `UINT`s: values below 2^32. */
module MeshUtils {
  import opened Outcome
  import opened RendererEnums
  import opened MeshData

  const Uint32Limit: nat := 0x1_0000_0000

  // ---------------------------------------------------------------------------
  // Little-endian values

  function Pow256(n: nat): (r: nat)
    ensures r > 0
  {
    if n == 0 then 1 else 256 * Pow256(n - 1)
  }

  /** The unsigned value of `bytes`, least significant byte first. */
  function LittleEndian(bytes: seq<Byte>): nat
  {
    if bytes == [] then 0 else bytes[0] + 256 * LittleEndian(bytes[1..])
  }

  /** The `width` bytes of `v` in memory order on a little-endian machine. */
  function EncodeLittleEndian(v: nat, width: nat): (r: seq<Byte>)
    ensures |r| == width
  {
    if width == 0 then [] else [(v % 256) as Byte] + EncodeLittleEndian(v / 256, width - 1)
  }

  lemma {:induction false} DecodeEncode(v: nat, width: nat)
    requires v < Pow256(width)
    ensures LittleEndian(EncodeLittleEndian(v, width)) == v
  {
    if width > 0 {
      var r := EncodeLittleEndian(v, width);
      assert r[1..] == EncodeLittleEndian(v / 256, width - 1);
      DecodeEncode(v / 256, width - 1);
    }
  }

  // ---------------------------------------------------------------------------
  // convert_index_value

  /** How many bytes `convert_index_value` reads for a component. */
  function ReadWidth(c: ElementComponent): nat
  {
    match c
    case SignedByte => 1
    case UnsignedByte => 1
    case SignedShort => 2
    case UnsignedShort => 2
    case SignedInt => 4
    case UnsignedInt => 4
    case Float => 0
  }

  /** The components `convert_index_value` reads as two's complement. */
  predicate IsSigned(c: ElementComponent)
  {
    c == SignedByte || c == SignedShort || c == SignedInt
  }

  /** Reading `width` bytes as a two's complement value, the value is not
      negative exactly when the top bit is clear. */
  predicate SignBitClear(bytes: seq<Byte>, width: nat)
    requires 0 < width <= |bytes|
  {
    bytes[width - 1] < 128
  }

  /** One source index widened to 32 bits. Unsigned sources are read as they
      are; a signed source must not be negative, which is a fatal check; any
      other component throws. */
  function ConvertIndexValue(c: ElementComponent, bytes: seq<Byte>): Result<nat>
    requires ReadWidth(c) <= |bytes|
  {
    if c == Float then Err(Thrown)
    else if IsSigned(c) && !SignBitClear(bytes, ReadWidth(c)) then Err(Fatal)
    else Ok(LittleEndian(bytes[..ReadWidth(c)]))
  }

  /** A converted index fits 32 bits; conversion fails exactly for a
      floating-point source, which throws, and for a negative signed index,
      which is fatal. */
  lemma ConvertIndexValueMeaning(c: ElementComponent, bytes: seq<Byte>)
    requires ReadWidth(c) <= |bytes|
    ensures ConvertIndexValue(c, bytes).Ok? ==> ConvertIndexValue(c, bytes).value < Uint32Limit
    ensures ConvertIndexValue(c, bytes).Err? <==> c == Float || (IsSigned(c) && !SignBitClear(bytes, ReadWidth(c)))
    ensures c == Float ==> ConvertIndexValue(c, bytes) == Err(Thrown)
    ensures c != Float && ConvertIndexValue(c, bytes).Err? ==> ConvertIndexValue(c, bytes).fault == Fatal
  {
    WidthFitsUint32(c);
    LittleEndianBound(bytes[..ReadWidth(c)]);
  }

  /** `width` bytes hold values below 256^width. */
  lemma LittleEndianBound(bytes: seq<Byte>)
    ensures LittleEndian(bytes) < Pow256(|bytes|)
  {
  }

  lemma WidthFitsUint32(c: ElementComponent)
    ensures Pow256(ReadWidth(c)) <= Uint32Limit
  {
    assert Pow256(4) == Uint32Limit;
  }

  /** Decoding undoes encoding: every value that fits the component's width
      comes back unchanged, and for a signed component every non-negative one. */
  lemma ConvertEncoded(c: ElementComponent, v: nat, rest: seq<Byte>)
    requires c != Float
    requires !IsSigned(c) ==> v < Pow256(ReadWidth(c))
    requires IsSigned(c) ==> v < Pow256(ReadWidth(c)) / 2
    ensures ConvertIndexValue(c, EncodeLittleEndian(v, ReadWidth(c)) + rest) == Ok(v)
  {
    var w := ReadWidth(c);
    var bytes := EncodeLittleEndian(v, w) + rest;
    assert bytes[..w] == EncodeLittleEndian(v, w);
    DecodeEncode(v, w);
    if IsSigned(c) {
      TopByteOfSmallValue(v, w);
    }
  }

  /** A value below half the range has a top byte below 128. */
  lemma {:induction false} TopByteOfSmallValue(v: nat, width: nat)
    requires width > 0 && v < Pow256(width) / 2
    ensures EncodeLittleEndian(v, width)[width - 1] < 128
  {
    if width > 1 {
      Pow256Even(width - 1);
      assert Pow256(width) / 2 == 256 * (Pow256(width - 1) / 2);
      TopByteOfSmallValue(v / 256, width - 1);
      assert EncodeLittleEndian(v, width)[width - 1] == EncodeLittleEndian(v / 256, width - 1)[width - 2];
    }
  }

  lemma Pow256Even(n: nat)
    requires n > 0
    ensures Pow256(n) == 2 * (Pow256(n) / 2)
  {
  }

  /** A signed index with its top bit set is negative, and the fatal check
      rejects it. */
  lemma NegativeSignedIndexIsFatal()
    ensures ConvertIndexValue(SignedShort, [0xFF, 0xFF]) == Err(Fatal)
    ensures ConvertIndexValue(UnsignedShort, [0xFF, 0xFF]) == Ok(0xFFFF)
  {
    var ones: seq<Byte> := [0xFF, 0xFF];
    assert ones[..2] == ones;
  }

  // ---------------------------------------------------------------------------
  // create_buffer

  /** Each of `count` reads of `width` bytes, the first at `start` and each
      next one `stride` bytes further on, lies inside a source of `size`
      bytes. */
  predicate ReadsFit(size: nat, start: nat, stride: nat, width: nat, count: nat)
    decreases count
  {
    count == 0 || (start + width <= size && ReadsFit(size, start + stride, stride, width, count - 1))
  }

  /** `count` elements of `width` bytes taken `stride` bytes apart from
      `start`, packed one after the other. */
  function Gather(src: seq<Byte>, start: nat, stride: nat, width: nat, count: nat): seq<Byte>
    requires ReadsFit(|src|, start, stride, width, count)
    decreases count
  {
    if count == 0 then []
    else src[start..start + width] + Gather(src, start + stride, stride, width, count - 1)
  }

  /** The packed copy holds `width` bytes per element. */
  lemma {:induction false} GatherLength(src: seq<Byte>, start: nat, stride: nat, width: nat, count: nat)
    requires ReadsFit(|src|, start, stride, width, count)
    ensures |Gather(src, start, stride, width, count)| == count * width
    decreases count
  {
    if count > 0 {
      GatherLength(src, start + stride, stride, width, count - 1);
      assert count * width == width + (count - 1) * width;
    }
  }

  /** Byte `j` of packed element `i` is byte `j` of source element `i`. */
  lemma GatherElement(src: seq<Byte>, start: nat, stride: nat, width: nat, count: nat, i: nat, j: nat)
    requires ReadsFit(|src|, start, stride, width, count)
    requires i < count && j < width
    ensures i * width + j < |Gather(src, start, stride, width, count)|
    ensures start + i * stride + j < |src|
    ensures Gather(src, start, stride, width, count)[i * width + j] == src[start + i * stride + j]
  {
    GatherElementAt(src, start, stride, width, count, i, j);
    OffsetIsProduct(i, width);
    OffsetIsProduct(i, stride);
  }

  /** `i * step`, as repeated addition. */
  function Offset(i: nat, step: nat): nat
  {
    if i == 0 then 0 else Offset(i - 1, step) + step
  }

  lemma {:induction false} OffsetIsProduct(i: nat, step: nat)
    ensures Offset(i, step) == i * step
  {
    if i > 0 {
      OffsetIsProduct(i - 1, step);
      MulSucc(i - 1, step);
    }
  }

  lemma {:induction false} GatherElementAt(src: seq<Byte>, start: nat, stride: nat, width: nat, count: nat, i: nat, j: nat)
    requires ReadsFit(|src|, start, stride, width, count)
    requires i < count && j < width
    ensures Offset(i, width) + j < |Gather(src, start, stride, width, count)|
    ensures start + Offset(i, stride) + j < |src|
    ensures Gather(src, start, stride, width, count)[Offset(i, width) + j] == src[start + Offset(i, stride) + j]
    decreases i
  {
    var piece := src[start..start + width];
    var rest := Gather(src, start + stride, stride, width, count - 1);
    assert Gather(src, start, stride, width, count) == piece + rest;
    if i > 0 {
      GatherElementAt(src, start + stride, stride, width, count - 1, i - 1, j);
      OffsetShift(i - 1, width);
      OffsetShift(i - 1, stride);
      ConcatIndex(piece, rest, width + Offset(i - 1, width) + j);
    }
  }

  lemma OffsetShift(i: nat, step: nat)
    ensures Offset(i + 1, step) == step + Offset(i, step)
  {
  }

  lemma ConcatIndex<T>(a: seq<T>, b: seq<T>, k: nat)
    requires k < |a| + |b|
    ensures (a + b)[k] == if k < |a| then a[k] else b[k - |a|]
  {
  }

  lemma MulSucc(a: nat, b: nat)
    ensures (a + 1) * b == b + a * b
  {
  }

  /** With a stride equal to the element size the copy is one block. */
  lemma {:induction false} GatherContiguous(src: seq<Byte>, start: nat, width: nat, count: nat)
    requires start + count * width <= |src|
    ensures ReadsFit(|src|, start, width, width, count)
    ensures Gather(src, start, width, width, count) == src[start..start + count * width]
    decreases count
  {
    if count > 0 {
      assert count * width == width + (count - 1) * width;
      GatherContiguous(src, start + width, width, count - 1);
      assert src[start..start + width] + src[start + width..start + count * width] == src[start..start + count * width];
    }
  }

  /** `memcpy_s`: `count` bytes of `src` from `srcPos` over `dest` from
      `destPos`; the rest of `dest` is kept. */
  method MemCopy(dest: array<Byte>, destPos: nat, src: seq<Byte>, srcPos: nat, count: nat)
    requires destPos + count <= dest.Length && srcPos + count <= |src|
    modifies dest
    ensures dest[..destPos + count] == old(dest[..destPos]) + src[srcPos..srcPos + count]
    ensures dest[destPos + count..] == old(dest[destPos + count..])
  {
    forall j | 0 <= j < count {
      dest[destPos + j] := src[srcPos + j];
    }
    assert dest[..destPos + count] == dest[..destPos] + dest[destPos..destPos + count];
  }

  /** The two bounds asserts of `create_buffer` and `create_index_buffer`
      fail: the offset lies past the data, or the end of the copy, summed in
      32-bit `UINT` arithmetic, does. */
  function SizeCheckFails(size: nat, offset: nat, width: nat): (r: bool)
    ensures r ==> offset + width > size
    ensures offset + width < Uint32Limit ==> (r <==> offset + width > size)
  {
    offset > size || (offset + width) % Uint32Limit > size
  }

  /** When the 32-bit sum wraps back inside the data, the asserts pass
      although the copy runs past its end. */
  lemma WrappedSizeCheckMissesOverrun(size: nat, offset: nat, width: nat)
    requires offset <= size < offset + width
    requires Uint32Limit <= offset + width < 2 * Uint32Limit && offset + width - Uint32Limit <= size
    ensures !SizeCheckFails(size, offset, width)
  {
    assert (offset + width) % Uint32Limit == offset + width - Uint32Limit;
  }

  method CreateBuffer(elementSize: nat, elementCount: nat, sourceData: seq<Byte>, sourceStride: nat, sourceOffset: nat)
    returns (r: Result<MeshBuffer>)
    requires elementSize < Uint32Limit && elementCount < Uint32Limit
    requires sourceStride < Uint32Limit && sourceOffset < Uint32Limit
    requires elementCount * elementSize < Uint32Limit
    requires !SizeCheckFails(|sourceData|, sourceOffset, elementCount * elementSize) ==>
      sourceOffset + elementCount * elementSize <= |sourceData|
    requires sourceStride != elementSize && sourceOffset + elementCount * elementSize <= |sourceData| ==>
      ReadsFit(|sourceData|, sourceOffset, sourceStride, elementSize, elementCount)
    ensures r.Err? <==> SizeCheckFails(|sourceData|, sourceOffset, elementCount * elementSize)
    ensures r.Err? <==> sourceOffset + elementCount * elementSize > |sourceData|
    ensures r.Err? ==> r.fault == Fatal
    ensures r.Ok? ==>
      && ReadsFit(|sourceData|, sourceOffset, sourceStride, elementSize, elementCount)
      && r.value.data == Gather(sourceData, sourceOffset, sourceStride, elementSize, elementCount)
  {
    if sourceOffset > |sourceData| {
      return Err(Fatal);
    }
    var byteWidth := elementCount * elementSize;
    if (sourceOffset + byteWidth) % Uint32Limit > |sourceData| {
      return Err(Fatal);
    }
    if sourceStride == elementSize {
      GatherContiguous(sourceData, sourceOffset, elementSize, elementCount);
      return Ok(MeshBuffer(sourceData[sourceOffset..sourceOffset + byteWidth]));
    }
    var data := new Byte[byteWidth];
    GatherLength(sourceData, sourceOffset, sourceStride, elementSize, elementCount);
    CopyStrided(data, sourceData, sourceOffset, sourceStride, elementSize, elementCount);
    return Ok(MeshBuffer(data[..]));
  }

  /** The first element of a copy, and the copy of the rest. */
  lemma GatherStep(src: seq<Byte>, start: nat, stride: nat, width: nat, count: nat)
    requires count > 0 && ReadsFit(|src|, start, stride, width, count)
    ensures start + width <= |src| && ReadsFit(|src|, start + stride, stride, width, count - 1)
    ensures Gather(src, start, stride, width, count)
      == src[start..start + width] + Gather(src, start + stride, stride, width, count - 1)
  {
  }

  /** Copying the next piece moves it from the rest of the gather to the
      copied prefix. */
  lemma CopiedPrefix(before: seq<Byte>, piece: seq<Byte>, next: seq<Byte>, copied: seq<Byte>, whole: seq<Byte>)
    requires before + (piece + next) == whole && copied == before + piece
    ensures copied + next == whole
  {
    EngineUtils.AppendAssoc(before, piece, next);
  }

  /** The strided branch of `create_buffer`: one `memcpy_s` per element,
      filling `data` front to back. */
  method CopyStrided(data: array<Byte>, sourceData: seq<Byte>, sourceOffset: nat, sourceStride: nat, elementSize: nat, elementCount: nat)
    requires ReadsFit(|sourceData|, sourceOffset, sourceStride, elementSize, elementCount)
    requires data.Length == |Gather(sourceData, sourceOffset, sourceStride, elementSize, elementCount)|
    modifies data
    ensures data[..] == Gather(sourceData, sourceOffset, sourceStride, elementSize, elementCount)
  {
    ghost var whole := Gather(sourceData, sourceOffset, sourceStride, elementSize, elementCount);
    var dest: nat := 0;
    var src: nat := sourceOffset;
    ghost var left := elementCount;
    ghost var rest := whole;
    for i := 0 to elementCount
      invariant left + i == elementCount
      invariant ReadsFit(|sourceData|, src, sourceStride, elementSize, left)
      invariant rest == Gather(sourceData, src, sourceStride, elementSize, left)
      invariant dest + |rest| == data.Length
      invariant data[..dest] + rest == whole
    {
      GatherStep(sourceData, src, sourceStride, elementSize, left);
      ghost var before := data[..dest];
      ghost var piece := sourceData[src..src + elementSize];
      ghost var next := Gather(sourceData, src + sourceStride, sourceStride, elementSize, left - 1);
      MemCopy(data, dest, sourceData, src, elementSize);
      CopiedPrefix(before, piece, next, data[..dest + elementSize], whole);
      dest := dest + elementSize;
      src := src + sourceStride;
      left := left - 1;
      rest := next;
    }
    assert data[..] == data[..dest];
  }

  /** The asserts of `create_buffer_s`: each `size_t` argument fits a
      `UINT`, the count and the offset strictly below its maximum. */
  predicate SizeTArgumentsFit(elementSize: nat, elementCount: nat, sourceStride: nat, sourceOffset: nat)
  {
    && elementSize < Uint32Limit && elementCount < Uint32Limit - 1
    && sourceStride < Uint32Limit && sourceOffset < Uint32Limit - 1
  }

  /** `create_buffer` for `size_t` arguments: each must fit a `UINT` (the
      count and the offset strictly below its maximum), checked fatally. */
  method CreateBufferS(elementSize: nat, elementCount: nat, sourceData: seq<Byte>, sourceStride: nat, sourceOffset: nat)
    returns (r: Result<MeshBuffer>)
    requires SizeTArgumentsFit(elementSize, elementCount, sourceStride, sourceOffset) ==>
      && elementCount * elementSize < Uint32Limit
      && (!SizeCheckFails(|sourceData|, sourceOffset, elementCount * elementSize) ==>
            sourceOffset + elementCount * elementSize <= |sourceData|)
      && (sourceStride != elementSize && sourceOffset + elementCount * elementSize <= |sourceData| ==>
            ReadsFit(|sourceData|, sourceOffset, sourceStride, elementSize, elementCount))
    ensures r.Err? <==>
      || elementSize >= Uint32Limit || elementCount >= Uint32Limit - 1
      || sourceStride >= Uint32Limit || sourceOffset >= Uint32Limit - 1
      || sourceOffset + elementCount * elementSize > |sourceData|
    ensures r.Err? ==> r.fault == Fatal
    ensures r.Ok? ==>
      && ReadsFit(|sourceData|, sourceOffset, sourceStride, elementSize, elementCount)
      && r.value.data == Gather(sourceData, sourceOffset, sourceStride, elementSize, elementCount)
  {
    if !SizeTArgumentsFit(elementSize, elementCount, sourceStride, sourceOffset) {
      return Err(Fatal);
    }
    r := CreateBuffer(elementSize, elementCount, sourceData, sourceStride, sourceOffset);
  }

  // ---------------------------------------------------------------------------
  // create_index_buffer

  /** The `count` source indices from `start`, `stride` bytes apart,
      converted in order; the first failure wins. */
  function ConvertAll(src: seq<Byte>, c: ElementComponent, stride: nat, start: nat, count: nat): (r: Result<seq<nat>>)
    requires ReadsFit(|src|, start, stride, ReadWidth(c), count)
    ensures r.Ok? ==> |r.value| == count
    decreases count
  {
    if count == 0 then Ok([])
    else
      match ConvertIndexValue(c, src[start..])
      case Err(f) => Err(f)
      case Ok(v) =>
        match ConvertAll(src, c, stride, start + stride, count - 1)
        case Err(f) => Err(f)
        case Ok(values) => Ok([v] + values)
  }

  /** `values` followed by the values of `r`, or the failure of `r`. */
  function Prefixed(values: seq<nat>, r: Result<seq<nat>>): Result<seq<nat>>
  {
    match r
    case Err(f) => Err(f)
    case Ok(rest) => Ok(values + rest)
  }

  /** When the conversion succeeds, each value is the conversion of the
      source index at its position. */
  lemma {:induction false} ConvertAllElement(src: seq<Byte>, c: ElementComponent, stride: nat, start: nat, count: nat, k: nat)
    requires ReadsFit(|src|, start, stride, ReadWidth(c), count)
    requires ConvertAll(src, c, stride, start, count).Ok? && k < count
    ensures start + k * stride + ReadWidth(c) <= |src|
    ensures ConvertIndexValue(c, src[start + k * stride..]) == Ok(ConvertAll(src, c, stride, start, count).value[k])
    decreases k
  {
    if k > 0 {
      ConvertAllElement(src, c, stride, start + stride, count - 1, k - 1);
      assert k * stride == stride + (k - 1) * stride;
    }
  }

  /** A single index that does not convert makes the whole conversion fail;
      with `ConvertAllElement`, the conversion succeeds exactly when every
      index converts. */
  lemma ConvertAllFailsOnBadIndex(src: seq<Byte>, c: ElementComponent, stride: nat, start: nat, count: nat, k: nat)
    requires ReadsFit(|src|, start, stride, ReadWidth(c), count) && k < count
    requires start + k * stride + ReadWidth(c) <= |src|
    requires ConvertIndexValue(c, src[start + k * stride..]).Err?
    ensures ConvertAll(src, c, stride, start, count).Err?
  {
    if ConvertAll(src, c, stride, start, count).Ok? {
      ConvertAllElement(src, c, stride, start, count, k);
    }
  }

  /** Every converted index fits the 32-bit destination. */
  lemma ConvertAllFitsUint32(src: seq<Byte>, c: ElementComponent, stride: nat, start: nat, count: nat)
    requires ReadsFit(|src|, start, stride, ReadWidth(c), count)
    requires ConvertAll(src, c, stride, start, count).Ok?
    ensures forall k :: 0 <= k < count ==> ConvertAll(src, c, stride, start, count).value[k] < Uint32Limit
  {
    forall k | 0 <= k < count
      ensures ConvertAll(src, c, stride, start, count).value[k] < Uint32Limit
    {
      ConvertAllElement(src, c, stride, start, count, k);
      ConvertIndexValueMeaning(c, src[start + k * stride..]);
    }
  }

  /** One step of the conversion loop: a failing index fails the whole
      conversion, a converted one moves to the converted prefix. */
  lemma ConvertStep(src: seq<Byte>, c: ElementComponent, stride: nat, start: nat, count: nat,
                    values: seq<nat>, whole: Result<seq<nat>>, v: Result<nat>)
    requires count > 0 && ReadsFit(|src|, start, stride, ReadWidth(c), count)
    requires whole == Prefixed(values, ConvertAll(src, c, stride, start, count))
    requires v == ConvertIndexValue(c, src[start..])
    ensures ReadsFit(|src|, start + stride, stride, ReadWidth(c), count - 1)
    ensures v.Err? ==> whole == Err(v.fault)
    ensures v.Ok? ==> whole == Prefixed(values + [v.value], ConvertAll(src, c, stride, start + stride, count - 1))
  {
    var rest := ConvertAll(src, c, stride, start + stride, count - 1);
    if v.Ok? && rest.Ok? {
      EngineUtils.AppendAssoc(values, [v.value], rest.value);
    }
  }

  /** Each value written as four little-endian bytes. */
  function Widen(values: seq<nat>): (r: seq<Byte>)
    ensures |r| == 4 * |values|
  {
    if values == [] then [] else Widen(values[..|values| - 1]) + EncodeLittleEndian(values[|values| - 1], 4)
  }

  lemma WidenSnoc(values: seq<nat>, v: nat)
    ensures Widen(values + [v]) == Widen(values) + EncodeLittleEndian(v, 4)
  {
    assert (values + [v])[..|values|] == values;
  }

  /** The four bytes of entry `i` are the encoding of value `i`. */
  lemma {:induction false} WidenEntry(values: seq<nat>, i: nat)
    requires i < |values|
    ensures Widen(values)[4 * i..4 * i + 4] == EncodeLittleEndian(values[i], 4)
  {
    var last := |values| - 1;
    var prefix := Widen(values[..last]);
    assert Widen(values) == prefix + EncodeLittleEndian(values[last], 4);
    if i < last {
      WidenEntry(values[..last], i);
      assert Widen(values)[4 * i..4 * i + 4] == prefix[4 * i..4 * i + 4];
    } else {
      assert Widen(values)[4 * i..4 * i + 4] == Widen(values)[|prefix|..];
    }
  }

  method CreateIndexBuffer(sourceData: seq<Byte>, srcElementCount: nat, srcComponent: ElementComponent, sourceStride: nat, sourceOffset: nat)
    returns (r: Result<IndexBufferAccessor>)
    requires srcElementCount < Uint32Limit && sourceStride < Uint32Limit && sourceOffset < Uint32Limit
    requires srcElementCount * 4 < Uint32Limit
    requires !SizeCheckFails(|sourceData|, sourceOffset, srcElementCount * 4) ==>
      sourceOffset + srcElementCount * 4 <= |sourceData|
    requires sourceOffset + srcElementCount * 4 <= |sourceData| ==>
      ReadsFit(|sourceData|, sourceOffset, sourceStride, ReadWidth(srcComponent), srcElementCount)
    ensures SizeCheckFails(|sourceData|, sourceOffset, srcElementCount * 4) ==> r == Err(Fatal)
    ensures sourceOffset + srcElementCount * 4 > |sourceData| ==> r == Err(Fatal)
    ensures sourceOffset + srcElementCount * 4 <= |sourceData| ==>
      match ConvertAll(sourceData, srcComponent, sourceStride, sourceOffset, srcElementCount)
      case Err(f) => r == Err(f)
      case Ok(values) =>
        r == Ok(IndexBufferAccessor(MeshBufferAccessor(MeshBuffer(Widen(values)), srcElementCount, 4, 0), UnsignedInt))
  {
    if sourceOffset > |sourceData| {
      return Err(Fatal);
    }
    var dstByteWidth := srcElementCount * 4;
    if (sourceOffset + dstByteWidth) % Uint32Limit > |sourceData| {
      return Err(Fatal);
    }
    var dest := new Byte[dstByteWidth];
    var status := ConvertIndices(dest, sourceData, srcComponent, sourceStride, sourceOffset, srcElementCount);
    if status.Failed? {
      return Err(status.fault);
    }
    return Ok(IndexBufferAccessor(MeshBufferAccessor(MeshBuffer(dest[..]), srcElementCount, 4, 0), UnsignedInt));
  }

  /** `dest[i] = convert_index_value(srcComponent, src)`: entry `i` of the
      32-bit destination receives the converted index, stored little-endian;
      the entries before it are kept. */
  method StoreIndex(dest: array<Byte>, i: nat, sourceData: seq<Byte>, srcComponent: ElementComponent, src: nat)
    returns (v: Result<nat>)
    requires 4 * i + 4 <= dest.Length && src + ReadWidth(srcComponent) <= |sourceData|
    modifies dest
    ensures v == ConvertIndexValue(srcComponent, sourceData[src..])
    ensures v.Ok? ==> dest[..4 * i + 4] == old(dest[..4 * i]) + EncodeLittleEndian(v.value, 4)
  {
    v := ConvertIndexValue(srcComponent, sourceData[src..]);
    if v.Ok? {
      var bytes := EncodeLittleEndian(v.value, 4);
      assert bytes[0..4] == bytes;
      MemCopy(dest, 4 * i, bytes, 0, 4);
    }
  }

  /** The conversion loop of `create_index_buffer`: each source index,
      converted, is stored as the next 32-bit entry of `dest`. */
  method ConvertIndices(dest: array<Byte>, sourceData: seq<Byte>, srcComponent: ElementComponent, sourceStride: nat, sourceOffset: nat, srcElementCount: nat)
    returns (status: Status)
    requires dest.Length == 4 * srcElementCount
    requires ReadsFit(|sourceData|, sourceOffset, sourceStride, ReadWidth(srcComponent), srcElementCount)
    modifies dest
    ensures match ConvertAll(sourceData, srcComponent, sourceStride, sourceOffset, srcElementCount)
      case Err(f) => status == Failed(f)
      case Ok(values) => status == Done && dest[..] == Widen(values)
  {
    ghost var whole := ConvertAll(sourceData, srcComponent, sourceStride, sourceOffset, srcElementCount);
    var src: nat := sourceOffset;
    ghost var values: seq<nat> := [];
    if whole.Ok? {
      assert values + whole.value == whole.value;
    }
    for i := 0 to srcElementCount
      invariant ConvertedSoFar(dest[..4 * i], values, sourceData, srcComponent, sourceStride, src, srcElementCount - i, whole)
    {
      var v := ConvertNext(dest, i, sourceData, srcComponent, sourceStride, src, srcElementCount - i, values, whole);
      if v.Err? {
        return Failed(v.fault);
      }
      values := values + [v.value];
      src := src + sourceStride;
    }
    assert dest[..] == dest[..4 * srcElementCount];
    assert values + [] == values;
    return Done;
  }

  /** One turn of the conversion loop, from one loop state to the next. */
  method ConvertNext(dest: array<Byte>, i: nat, sourceData: seq<Byte>, srcComponent: ElementComponent, sourceStride: nat, src: nat,
                     left: nat, ghost values: seq<nat>, ghost whole: Result<seq<nat>>)
    returns (v: Result<nat>)
    requires left > 0 && 4 * i + 4 <= dest.Length
    requires ConvertedSoFar(dest[..4 * i], values, sourceData, srcComponent, sourceStride, src, left, whole)
    modifies dest
    ensures v.Err? ==> whole == Err(v.fault)
    ensures v.Ok? ==> ConvertedSoFar(dest[..4 * (i + 1)], values + [v.value], sourceData, srcComponent, sourceStride, src + sourceStride, left - 1, whole)
  {
    v := StoreIndex(dest, i, sourceData, srcComponent, src);
    ConvertStep(sourceData, srcComponent, sourceStride, src, left, values, whole, v);
    if v.Ok? {
      WidenSnoc(values, v.value);
    }
  }

  /** The state of the conversion loop: `written` holds the converted prefix
      `values`, and converting the `left` indices from `start` completes the
      whole conversion. */
  ghost predicate ConvertedSoFar(written: seq<Byte>, values: seq<nat>, src: seq<Byte>, c: ElementComponent,
                                 stride: nat, start: nat, left: nat, whole: Result<seq<nat>>)
  {
    && ReadsFit(|src|, start, stride, ReadWidth(c), left)
    && whole == Prefixed(values, ConvertAll(src, c, stride, start, left))
    && written == Widen(values)
  }

  /** Reading entry `i` of a created index buffer back through its accessor
      gives the converted source index `i`. */
  lemma IndexBufferReadsBack(values: seq<nat>, i: nat)
    requires i < |values| < Uint32Limit && forall k :: 0 <= k < |values| ==> values[k] < Uint32Limit
    ensures AccessorGetIndexed(MeshBufferAccessor(MeshBuffer(Widen(values)), |values|, 4, 0), i) == Ok(4 * i)
    ensures ConvertIndexValue(UnsignedInt, Widen(values)[4 * i..]) == Ok(values[i])
  {
    IndexBufferEntryDecodes(values, i);
  }

  lemma IndexBufferEntryDecodes(values: seq<nat>, i: nat)
    requires i < |values| && values[i] < Uint32Limit
    ensures 4 * i <= |Widen(values)|
    ensures ConvertIndexValue(UnsignedInt, Widen(values)[4 * i..]) == Ok(values[i])
  {
    WidenedEntryDecodes(Widen(values), values[i], 4 * i) by {
      WidenEntry(values, i);
    }
  }

  /** Four bytes holding the encoding of `v` decode, as an unsigned int, to
      `v`. */
  lemma WidenedEntryDecodes(bytes: seq<Byte>, v: nat, pos: nat)
    requires v < Uint32Limit && pos + 4 <= |bytes|
    requires bytes[pos..pos + 4] == EncodeLittleEndian(v, 4)
    ensures ConvertIndexValue(UnsignedInt, bytes[pos..]) == Ok(v)
  {
    var tail := bytes[pos..];
    assert tail == bytes[pos..pos + 4] + tail[4..];
    assert Pow256(4) == Uint32Limit;
    ConvertEncoded(UnsignedInt, v, tail[4..]);
  }

  // ---------------------------------------------------------------------------
  // getDxgiFormat

  datatype DxgiFormat =
    | R16Uint | R16Sint | R32Uint | R32Sint | R32Float
    | R16G16Uint | R16G16Sint | R32G32Uint | R32G32Sint | R32G32Float
    | R32G32B32Uint | R32G32B32Sint | R32G32B32Float
    | R16G16B16A16Uint | R16G16B16A16Sint | R32G32B32A32Uint | R32G32B32A32Sint | R32G32B32A32Float

  const DxgiFormats: map<ElementType, map<ElementComponent, DxgiFormat>> := map[
    Scalar := map[UnsignedShort := R16Uint, SignedShort := R16Sint, UnsignedInt := R32Uint, SignedInt := R32Sint, Float := R32Float],
    Vector2 := map[UnsignedShort := R16G16Uint, SignedShort := R16G16Sint, UnsignedInt := R32G32Uint, SignedInt := R32G32Sint, Float := R32G32Float],
    Vector3 := map[UnsignedInt := R32G32B32Uint, SignedInt := R32G32B32Sint, Float := R32G32B32Float],
    Vector4 := map[UnsignedShort := R16G16B16A16Uint, SignedShort := R16G16B16A16Sint, UnsignedInt := R32G32B32A32Uint, SignedInt := R32G32B32A32Sint, Float := R32G32B32A32Float]
  ]

  /** The format for an element layout; an exception for a type or a
      component the table has no row for. */
  function GetDxgiFormat(t: ElementType, c: ElementComponent): (r: Result<DxgiFormat>)
    ensures r.Err? <==> t !in DxgiFormats || c !in DxgiFormats[t]
    ensures r.Err? ==> r.fault == Thrown
  {
    if t !in DxgiFormats then Err(Thrown)
    else
      var typeMap := DxgiFormats[t];
      if c !in typeMap then Err(Thrown) else Ok(typeMap[c])
  }

  /** How many components each element type has. */
  function ComponentCount(t: ElementType): nat
  {
    match t
    case Scalar => 1
    case Vector2 => 2
    case Vector3 => 3
    case Vector4 => 4
    case Matrix2 => 4
    case Matrix3 => 9
    case Matrix4 => 16
  }

  /** The channel count and the channel type a format describes. */
  function FormatChannels(f: DxgiFormat): nat
  {
    match f
    case R16Uint => 1 case R16Sint => 1 case R32Uint => 1 case R32Sint => 1 case R32Float => 1
    case R16G16Uint => 2 case R16G16Sint => 2 case R32G32Uint => 2 case R32G32Sint => 2 case R32G32Float => 2
    case R32G32B32Uint => 3 case R32G32B32Sint => 3 case R32G32B32Float => 3
    case R16G16B16A16Uint => 4 case R16G16B16A16Sint => 4
    case R32G32B32A32Uint => 4 case R32G32B32A32Sint => 4 case R32G32B32A32Float => 4
  }

  function FormatComponent(f: DxgiFormat): ElementComponent
  {
    match f
    case R16Uint => UnsignedShort case R16G16Uint => UnsignedShort case R16G16B16A16Uint => UnsignedShort
    case R16Sint => SignedShort case R16G16Sint => SignedShort case R16G16B16A16Sint => SignedShort
    case R32Uint => UnsignedInt case R32G32Uint => UnsignedInt case R32G32B32Uint => UnsignedInt case R32G32B32A32Uint => UnsignedInt
    case R32Sint => SignedInt case R32G32Sint => SignedInt case R32G32B32Sint => SignedInt case R32G32B32A32Sint => SignedInt
    case R32Float => Float case R32G32Float => Float case R32G32B32Float => Float case R32G32B32A32Float => Float
  }

  /** Every format in the table describes exactly the requested layout: as
      many channels as the type has components, each of the requested
      component type. Distinct layouts therefore get distinct formats. */
  lemma DxgiFormatMatchesLayout(t: ElementType, c: ElementComponent)
    requires GetDxgiFormat(t, c).Ok?
    ensures FormatChannels(GetDxgiFormat(t, c).value) == ComponentCount(t)
    ensures FormatComponent(GetDxgiFormat(t, c).value) == c
  {
    match t
    case Scalar => DxgiRowMatches(Scalar, c);
    case Vector2 => DxgiRowMatches(Vector2, c);
    case Vector3 => DxgiRowMatches(Vector3, c);
    case Vector4 => DxgiRowMatches(Vector4, c);
  }

  lemma DxgiRowMatches(t: ElementType, c: ElementComponent)
    requires t in DxgiFormats && c in DxgiFormats[t]
    ensures FormatChannels(DxgiFormats[t][c]) == ComponentCount(t)
    ensures FormatComponent(DxgiFormats[t][c]) == c
  {
  }

  /** The table has no row for the matrix types, no byte components, and no
      16-bit components for three-vectors; everything else has a format. */
  lemma DxgiFormatUnsupported(t: ElementType, c: ElementComponent)
    ensures GetDxgiFormat(t, c).Err? <==>
      t in {Matrix2, Matrix3, Matrix4} || c in {SignedByte, UnsignedByte}
      || (t == Vector3 && c in {SignedShort, UnsignedShort})
  {
  }
}

=== FILE: outcome.dfy ===
/** Failure-aware results shared by every module of the model.

    The engine has two ways of failing: an exception that the caller may catch
    (`OE_THROW` in C++, `raise` in Python) and a fatal check that ends the
    process (`OE_CHECK`, `LOG(FATAL)`, a debug `assert`). Both become an `Err`
    value here; a method that fails leaves its object as it was unless its
    contract says otherwise. */
module Outcome {

  datatype Fault = Thrown | Fatal

  datatype Option<+T> = None | Some(value: T)

  datatype Result<+T> = Ok(value: T) | Err(fault: Fault)

  /** The outcome of an operation that returns nothing. */
  datatype Status = Done | Failed(fault: Fault)
}

=== FILE: production.dfy ===
/** The production simulation: produce quantities, capacity-bounded storage and
    the producer state machine that turns recipe inputs into outputs, one tick
    (`do_work`) at a time.

    Quantities are natural numbers. The storage semantics are first given as
    functions on values (a map from produce name to stored amount); the
    `Storage` and `Producer` classes update their fields in place and are
    proved to follow those functions. */
module Production {
  import opened Outcome

  datatype ProduceDefinition = ProduceDefinition(name: string, displayName: string)

  datatype ProduceQuantity = ProduceQuantity(definition: ProduceDefinition, quantity: nat)

  function Min(a: int, b: int): int { if a <= b then a else b }

  /** `ProduceQuantity.take`: split `amount` off `pq`. The first component is
      what the receiver holds afterwards, the second the new quantity. */
  function Take(pq: ProduceQuantity, amount: nat): (r: Result<(ProduceQuantity, ProduceQuantity)>)
    ensures r.Err? <==> amount > pq.quantity
    ensures r.Err? ==> r.fault == Thrown
    ensures r.Ok? ==>
      && r.value.0.definition == pq.definition
      && r.value.1 == ProduceQuantity(pq.definition, amount)
      && r.value.0.quantity + r.value.1.quantity == pq.quantity
  {
    if amount > pq.quantity then Err(Thrown)
    else Ok((pq.(quantity := pq.quantity - amount), ProduceQuantity(pq.definition, amount)))
  }

  /** A recipe: its inputs are consumed once per iteration, an iteration takes
      `iterationWorkCycles` ticks, and the outputs are emitted after
      `iterationCount` iterations. */
  datatype ProcessDefinition = ProcessDefinition(
    name: string,
    inputs: seq<ProduceQuantity>,
    iterationWorkCycles: int,
    iterationCount: int,
    outputs: seq<ProduceQuantity>)

  // ---------------------------------------------------------------------------
  // Storage semantics on values

  /** The stored amount of a produce name; an absent name holds 0. */
  function Stored(m: map<string, nat>, name: string): nat
  {
    if name in m then m[name] else 0
  }

  /** Every stored amount is within the per-type capacity. */
  ghost predicate Bounded(m: map<string, nat>, cap: nat)
  {
    forall k :: k in m ==> m[k] <= cap
  }

  /** The allow-list scan of `filter_allows`, one entry at a time. */
  function ListAllows(allowed: seq<string>, name: string): (r: bool)
    ensures r <==> name in allowed
  {
    if allowed == [] then false
    else if allowed[0] == name then true
    else ListAllows(allowed[1..], name)
  }

  /** No allow-list admits every produce. */
  function FilterAllows(filter: Option<seq<string>>, name: string): bool
  {
    if filter.None? then true else ListAllows(filter.value, name)
  }

  function CanAddTo(cap: nat, filter: Option<seq<string>>, m: map<string, nat>, pq: ProduceQuantity): bool
  {
    FilterAllows(filter, pq.definition.name) && Stored(m, pq.definition.name) + pq.quantity <= cap
  }

  /** `contains`: the name must have been stored at some point. */
  function ContainsIn(m: map<string, nat>, pq: ProduceQuantity): (r: bool)
    ensures r ==> Stored(m, pq.definition.name) >= pq.quantity
    ensures pq.definition.name !in m ==> !r
    ensures pq.definition.name in m && Stored(m, pq.definition.name) >= pq.quantity ==> r
  {
    var name := pq.definition.name;
    name in m && m[name] >= pq.quantity
  }

  /** A zero quantity is contained exactly when its name has an entry, even
      an entry of zero left behind by a removal. */
  lemma ContainsZeroIffEntry(m: map<string, nat>, d: ProduceDefinition)
    ensures ContainsIn(m, ProduceQuantity(d, 0)) <==> d.name in m
  {
  }

  datatype AddOutcome = AddOutcome(stored: map<string, nat>, leftover: Option<ProduceQuantity>)

  function LeftoverAmount(o: Option<ProduceQuantity>): nat
  {
    if o.Some? then o.value.quantity else 0
  }

  /** `Storage.add` on values: the new stored map and what is handed back. */
  function AddTo(cap: nat, filter: Option<seq<string>>, m: map<string, nat>, pq: ProduceQuantity): (r: AddOutcome)
  {
    var name := pq.definition.name;
    if !FilterAllows(filter, name) then
      AddOutcome(m, Some(pq))
    else
      var current := Stored(m, name);
      var toAdd := Min(cap - current, pq.quantity);
      var toReturn := pq.quantity - toAdd;
      AddOutcome(m[name := current + toAdd],
                 if toReturn != 0 then Some(ProduceQuantity(pq.definition, toReturn)) else None)
  }

  /** What `add` does: a type the filter refuses is handed back whole;
      otherwise the stored amount becomes min(capacity, current + quantity),
      nothing is lost or created, only that type changes, and a leftover is
      returned exactly when the quantity did not fit. */
  lemma AddToMeaning(cap: nat, filter: Option<seq<string>>, m: map<string, nat>, pq: ProduceQuantity)
    ensures var r := AddTo(cap, filter, m, pq);
      !FilterAllows(filter, pq.definition.name) ==> r.stored == m && r.leftover == Some(pq)
    ensures var r := AddTo(cap, filter, m, pq);
      var name := pq.definition.name;
      FilterAllows(filter, name) ==>
        && r.stored == m[name := Stored(r.stored, name)]
        && Stored(r.stored, name) == Min(cap, Stored(m, name) + pq.quantity)
        && Stored(r.stored, name) + LeftoverAmount(r.leftover) == Stored(m, name) + pq.quantity
        && (r.leftover.None? <==> Stored(m, name) + pq.quantity <= cap)
        && (r.leftover.Some? ==> r.leftover.value.definition == pq.definition)
  {
  }

  datatype AddAllOutcome = AddAllOutcome(stored: map<string, nat>, leftovers: seq<ProduceQuantity>)

  /** `Storage.add_all` on values: `add` applied in list order, keeping the
      leftovers that are not None. */
  function AddAllTo(cap: nat, filter: Option<seq<string>>, m: map<string, nat>, list: seq<ProduceQuantity>): (r: AddAllOutcome)
    ensures |r.leftovers| <= |list|
    decreases |list|
  {
    if list == [] then AddAllOutcome(m, [])
    else Extend(cap, filter, AddAllTo(cap, filter, m, list[..|list| - 1]), list[|list| - 1])
  }

  /** One more `add` after an `add_all`. */
  function Extend(cap: nat, filter: Option<seq<string>>, prev: AddAllOutcome, x: ProduceQuantity): (r: AddAllOutcome)
    ensures |r.leftovers| <= |prev.leftovers| + 1
  {
    var last := AddTo(cap, filter, prev.stored, x);
    AddAllOutcome(last.stored, prev.leftovers + if last.leftover.Some? then [last.leftover.value] else [])
  }

  /** Leftovers already handed back stay in front of the new ones. */
  lemma ExtendKeepsEarlierLeftovers(cap: nat, filter: Option<seq<string>>, stored: map<string, nat>,
                                    earlier: seq<ProduceQuantity>, later: seq<ProduceQuantity>, x: ProduceQuantity)
    ensures var e := Extend(cap, filter, AddAllOutcome(stored, later), x);
            Extend(cap, filter, AddAllOutcome(stored, earlier + later), x) == AddAllOutcome(e.stored, earlier + e.leftovers)
  {
    var e := Extend(cap, filter, AddAllOutcome(stored, later), x);
    assert e.leftovers == later + e.leftovers[|later|..];
  }

  /** Adding one more element is one more `add` after the others. */
  lemma AddAllSnoc(cap: nat, filter: Option<seq<string>>, m: map<string, nat>,
                   list: seq<ProduceQuantity>, x: ProduceQuantity)
    ensures AddAllTo(cap, filter, m, list + [x]) == Extend(cap, filter, AddAllTo(cap, filter, m, list), x)
  {
    assert (list + [x])[..|list|] == list;
  }

  /** Adding a list in two parts is adding the first part and then the second,
      and the leftovers come out in input order. */
  lemma {:induction false} AddAllConcat(cap: nat, filter: Option<seq<string>>, m: map<string, nat>,
                                        first: seq<ProduceQuantity>, second: seq<ProduceQuantity>)
    ensures var a := AddAllTo(cap, filter, m, first);
            var b := AddAllTo(cap, filter, a.stored, second);
            AddAllTo(cap, filter, m, first + second) == AddAllOutcome(b.stored, a.leftovers + b.leftovers)
    decreases |second|
  {
    if second == [] {
      assert first + second == first;
    } else {
      var init := second[..|second| - 1];
      AddAllConcat(cap, filter, m, first, init);
      AddAllConcatStep(cap, filter, m, first, init, second[|second| - 1]);
      assert second == init + [second[|second| - 1]];
    }
  }

  /** The inductive step of `AddAllConcat`: one more element after the
      second part. */
  lemma AddAllConcatStep(cap: nat, filter: Option<seq<string>>, m: map<string, nat>,
                         first: seq<ProduceQuantity>, init: seq<ProduceQuantity>, x: ProduceQuantity)
    requires var a := AddAllTo(cap, filter, m, first);
             var b := AddAllTo(cap, filter, a.stored, init);
             AddAllTo(cap, filter, m, first + init) == AddAllOutcome(b.stored, a.leftovers + b.leftovers)
    ensures var a := AddAllTo(cap, filter, m, first);
            var b := AddAllTo(cap, filter, a.stored, init + [x]);
            AddAllTo(cap, filter, m, first + (init + [x])) == AddAllOutcome(b.stored, a.leftovers + b.leftovers)
  {
    var a := AddAllTo(cap, filter, m, first);
    var b0 := AddAllTo(cap, filter, a.stored, init);
    assert first + (init + [x]) == (first + init) + [x];
    AddAllSnoc(cap, filter, m, first + init, x);
    AddAllSnoc(cap, filter, a.stored, init, x);
    ExtendKeepsEarlierLeftovers(cap, filter, b0.stored, a.leftovers, b0.leftovers, x);
  }

  /** Every leftover of `add_all` is a rejected input or a positive remainder:
      None results are dropped. */
  lemma {:induction false} AddAllLeftoversNonEmpty(cap: nat, filter: Option<seq<string>>, m: map<string, nat>,
                                                   list: seq<ProduceQuantity>)
    ensures forall x :: x in AddAllTo(cap, filter, m, list).leftovers ==>
              x.quantity > 0 || !FilterAllows(filter, x.definition.name)
    decreases |list|
  {
    if list != [] {
      AddAllLeftoversNonEmpty(cap, filter, m, list[..|list| - 1]);
    }
  }

  /** `enforce_consume` on values: None is the raised exception (a missing
      key or too little stored). */
  function ConsumeFrom(m: map<string, nat>, pq: ProduceQuantity): (r: Option<map<string, nat>>)
    ensures r.Some? <==> ContainsIn(m, pq)
  {
    var name := pq.definition.name;
    if name !in m then None
    else if m[name] < pq.quantity then None
    else Some(m[name := m[name] - pq.quantity])
  }

  /** A successful `enforce_consume` lowers exactly the requested type by
      exactly the requested amount and keeps the set of stored types. */
  lemma ConsumeFromMeaning(m: map<string, nat>, pq: ProduceQuantity)
    requires ContainsIn(m, pq)
    ensures var r := ConsumeFrom(m, pq).value;
      var name := pq.definition.name;
      && r.Keys == m.Keys
      && Stored(r, name) + pq.quantity == Stored(m, name)
      && forall k :: k in m && k != name ==> r[k] == m[k]
  {
  }

  /** `add` never stores more than the capacity of a type. */
  lemma AddToKeepsBound(cap: nat, filter: Option<seq<string>>, m: map<string, nat>, pq: ProduceQuantity)
    requires Bounded(m, cap)
    ensures Bounded(AddTo(cap, filter, m, pq).stored, cap)
  {
  }

  lemma {:induction false} AddAllKeepsBound(cap: nat, filter: Option<seq<string>>, m: map<string, nat>,
                                            list: seq<ProduceQuantity>)
    requires Bounded(m, cap)
    ensures Bounded(AddAllTo(cap, filter, m, list).stored, cap)
    decreases |list|
  {
    if list != [] {
      AddAllKeepsBound(cap, filter, m, list[..|list| - 1]);
      AddToKeepsBound(cap, filter, AddAllTo(cap, filter, m, list[..|list| - 1]).stored, list[|list| - 1]);
    }
  }

  lemma ConsumeKeepsBound(m: map<string, nat>, pq: ProduceQuantity, cap: nat)
    requires Bounded(m, cap) && ContainsIn(m, pq)
    ensures Bounded(ConsumeFrom(m, pq).value, cap)
  {
  }

  // ---------------------------------------------------------------------------
  // Storage

  class Storage {
    const maxCapacity: nat
    const allowList: Option<seq<string>>
    var stored: map<string, nat>

    ghost predicate Valid()
      reads this
    {
      Bounded(stored, maxCapacity)
    }

    constructor (maxCapacity: nat, allowList: Option<seq<string>>)
      ensures Valid()
      ensures this.maxCapacity == maxCapacity && this.allowList == allowList && stored == map[]
    {
      this.maxCapacity := maxCapacity;
      this.allowList := allowList;
      stored := map[];
    }

    predicate CanAdd(pq: ProduceQuantity)
      reads this
    {
      CanAddTo(maxCapacity, allowList, stored, pq)
    }

    predicate Contains(pq: ProduceQuantity)
      reads this
    {
      ContainsIn(stored, pq)
    }

    /** The amount of `d` in storage; a produce never stored has none. */
    function Quantity(d: ProduceDefinition): (q: nat)
      reads this
      ensures d.name !in stored ==> q == 0
      ensures d.name in stored ==> q == stored[d.name]
    {
      Stored(stored, d.name)
    }

    method Add(pq: ProduceQuantity) returns (leftover: Option<ProduceQuantity>)
      requires Valid()
      modifies this
      ensures Valid()
      ensures var r := AddTo(maxCapacity, allowList, old(stored), pq);
              stored == r.stored && leftover == r.leftover
    {
      var r := AddTo(maxCapacity, allowList, stored, pq);
      AddToKeepsBound(maxCapacity, allowList, stored, pq);
      stored := r.stored;
      leftover := r.leftover;
    }

    method AddAll(list: seq<ProduceQuantity>) returns (leftovers: seq<ProduceQuantity>)
      requires Valid()
      modifies this
      ensures Valid()
      ensures var r := AddAllTo(maxCapacity, allowList, old(stored), list);
              stored == r.stored && leftovers == r.leftovers
    {
      leftovers := [];
      var i := 0;
      while i < |list|
        invariant 0 <= i <= |list|
        invariant Valid()
        invariant AddAllTo(maxCapacity, allowList, old(stored), list[..i]) == AddAllOutcome(stored, leftovers)
      {
        assert list[..i + 1][..i] == list[..i];
        var leftover := Add(list[i]);
        if leftover.Some? {
          leftovers := leftovers + [leftover.value];
        }
        i := i + 1;
      }
      assert list[..i] == list;
    }

    method EnforceConsume(pq: ProduceQuantity) returns (st: Status)
      requires Valid()
      modifies this
      ensures Valid()
      ensures st.Done? <==> ContainsIn(old(stored), pq)
      ensures st.Done? ==> stored == ConsumeFrom(old(stored), pq).value
      ensures st.Failed? ==> st.fault == Thrown && stored == old(stored)
    {
      var name := pq.definition.name;
      if name !in stored {
        return Failed(Thrown);
      }
      if stored[name] < pq.quantity {
        return Failed(Thrown);
      }
      stored := stored[name := stored[name] - pq.quantity];
      st := Done;
    }
  }

  /** `can_add` answers whether `add` would take the whole quantity: true
      exactly when the type is admitted and nothing would be handed back. */
  lemma CanAddMeansNoLeftover(cap: nat, filter: Option<seq<string>>, m: map<string, nat>, pq: ProduceQuantity)
    ensures CanAddTo(cap, filter, m, pq) <==>
      (FilterAllows(filter, pq.definition.name) && AddTo(cap, filter, m, pq).leftover.None?)
    ensures CanAddTo(cap, filter, m, pq) ==>
      Stored(AddTo(cap, filter, m, pq).stored, pq.definition.name) == Stored(m, pq.definition.name) + pq.quantity
  {
  }

  // ---------------------------------------------------------------------------
  // Producer semantics on values

  function DefinitionNames(list: seq<ProduceQuantity>): (r: seq<string>)
    ensures |r| == |list|
    ensures forall i :: 0 <= i < |list| ==> r[i] == list[i].definition.name
  {
    if list == [] then [] else [list[0].definition.name] + DefinitionNames(list[1..])
  }

  predicate AllContained(m: map<string, nat>, inputs: seq<ProduceQuantity>)
  {
    forall i :: 0 <= i < |inputs| ==> ContainsIn(m, inputs[i])
  }

  predicate AllCanAdd(cap: nat, filter: Option<seq<string>>, m: map<string, nat>, outputs: seq<ProduceQuantity>)
  {
    forall i :: 0 <= i < |outputs| ==> CanAddTo(cap, filter, m, outputs[i])
  }

  /** The second loop of `_consume_inputs`: `enforce_consume` on each input in
      order. The flag is false when one of them raised; the map is then the
      storage as that exception left it. */
  function ConsumeSeq(m: map<string, nat>, inputs: seq<ProduceQuantity>): (r: (map<string, nat>, bool))
    decreases |inputs|
  {
    if inputs == [] then (m, true)
    else
      var prev := ConsumeSeq(m, inputs[..|inputs| - 1]);
      if !prev.1 then prev
      else match ConsumeFrom(prev.0, inputs[|inputs| - 1])
        case None => (prev.0, false)
        case Some(next) => (next, true)
  }

  lemma {:induction false} ConsumeSeqKeepsBound(m: map<string, nat>, inputs: seq<ProduceQuantity>, cap: nat)
    requires Bounded(m, cap)
    ensures Bounded(ConsumeSeq(m, inputs).0, cap)
    decreases |inputs|
  {
    if inputs != [] {
      ConsumeSeqKeepsBound(m, inputs[..|inputs| - 1], cap);
    }
  }

  ghost predicate DistinctNames(list: seq<ProduceQuantity>)
  {
    forall i, j :: 0 <= i < j < |list| ==> list[i].definition.name != list[j].definition.name
  }

  /** With pairwise distinct input types, a storage that contains every input
      is consumed without an exception, each input type drops by exactly its
      requirement and nothing else changes. */
  lemma {:induction false} ConsumeDistinctInputs(m: map<string, nat>, inputs: seq<ProduceQuantity>)
    requires DistinctNames(inputs) && AllContained(m, inputs)
    ensures ConsumeSeq(m, inputs).1
    ensures ConsumeSeq(m, inputs).0.Keys == m.Keys
    ensures forall i :: 0 <= i < |inputs| ==>
              Stored(ConsumeSeq(m, inputs).0, inputs[i].definition.name) + inputs[i].quantity
                == Stored(m, inputs[i].definition.name)
    ensures forall k :: k in m && k !in DefinitionNames(inputs) ==> ConsumeSeq(m, inputs).0[k] == m[k]
    decreases |inputs|
  {
    if inputs != [] {
      var init := inputs[..|inputs| - 1];
      var last := inputs[|inputs| - 1];
      assert DistinctNames(init);
      assert AllContained(m, init) by {
        forall i | 0 <= i < |init| ensures ContainsIn(m, init[i]) {
          assert init[i] == inputs[i];
        }
      }
      ConsumeDistinctInputs(m, init);
      var p := ConsumeSeq(m, init).0;
      assert last.definition.name !in DefinitionNames(init) by {
        forall i | 0 <= i < |init| ensures DefinitionNames(init)[i] != last.definition.name {
          assert init[i] == inputs[i];
        }
      }
      assert last.definition.name in m by { assert ContainsIn(m, inputs[|inputs| - 1]); }
      assert p[last.definition.name] == m[last.definition.name];
      assert ContainsIn(m, last) by { assert ContainsIn(m, inputs[|inputs| - 1]); }
      var q := ConsumeFrom(p, last).value;
      forall i | 0 <= i < |inputs|
        ensures Stored(q, inputs[i].definition.name) + inputs[i].quantity == Stored(m, inputs[i].definition.name)
      {
        if i < |inputs| - 1 {
          assert inputs[i] == init[i];
        }
      }
      forall k | k in m && k !in DefinitionNames(inputs)
        ensures q[k] == m[k]
      {
        assert k != last.definition.name by { assert DefinitionNames(inputs)[|inputs| - 1] == last.definition.name; }
        assert k !in DefinitionNames(init) by {
          forall i | 0 <= i < |init| ensures DefinitionNames(init)[i] != k {
            assert DefinitionNames(inputs)[i] == inputs[i].definition.name;
          }
        }
      }
    }
  }

  /** A recipe that lists one type twice can raise in the middle of the
      consumption: each `contains` check passes on its own, the second
      `enforce_consume` fails after the first has already subtracted. */
  lemma DuplicateInputsRaise()
    ensures var apple := ProduceDefinition("apple", "Apple");
            var inputs := [ProduceQuantity(apple, 2), ProduceQuantity(apple, 2)];
            var m := map["apple" := 3];
            AllContained(m, inputs) && ConsumeSeq(m, inputs) == (map["apple" := 1], false)
  {
    var apple := ProduceDefinition("apple", "Apple");
    var inputs := [ProduceQuantity(apple, 2), ProduceQuantity(apple, 2)];
    var m := map["apple" := 3];
    assert inputs[..1] == [ProduceQuantity(apple, 2)];
    assert inputs[..1][..0] == [];
    assert ConsumeSeq(m, []) == (m, true);
    assert "apple" in m && m["apple"] == 3;
    assert m["apple" := 1] == map["apple" := 1];
    assert ConsumeFrom(m, inputs[0]) == Some(map["apple" := 1]);
    assert ConsumeSeq(m, inputs[..1]) == (map["apple" := 1], true);
    assert ConsumeFrom(map["apple" := 1], inputs[1]) == None;
  }

  /** The producer's counters together with its storage. */
  datatype Machine = Machine(canProcess: bool, progress: nat, completed: nat, stored: map<string, nat>)

  datatype TickResult = TickResult(next: Machine, raised: bool)

  /** One unit of work: progress moves on, and reaching
      `iteration_work_cycles` completes an iteration and ends processing. */
  function Advance(p: ProcessDefinition, s: Machine): Machine
  {
    var worked := s.progress + 1;
    if worked == p.iterationWorkCycles then s.(progress := 0, completed := s.completed + 1, canProcess := false)
    else s.(progress := worked)
  }

  /** The output flush: after `iteration_count` iterations every output is
      added, or none is when one of them does not fit. */
  function Flush(p: ProcessDefinition, cap: nat, filter: Option<seq<string>>, s: Machine): Machine
  {
    if s.completed == p.iterationCount && AllCanAdd(cap, filter, s.stored, p.outputs) then
      s.(completed := 0, stored := AddAllTo(cap, filter, s.stored, p.outputs).stored)
    else s
  }

  /** One `do_work` call. `raised` is the exception `_consume_inputs` can
      propagate; the storage is then as the failed consumption left it. */
  function Tick(p: ProcessDefinition, cap: nat, filter: Option<seq<string>>, s: Machine): TickResult
  {
    if s.canProcess then
      TickResult(Flush(p, cap, filter, Advance(p, s)), false)
    else if !AllContained(s.stored, p.inputs) then
      TickResult(s, false)
    else
      var c := ConsumeSeq(s.stored, p.inputs);
      if !c.1 then TickResult(s.(stored := c.0), true)
      else TickResult(Flush(p, cap, filter, Advance(p, s.(canProcess := true, stored := c.0))), false)
  }

  // ---------------------------------------------------------------------------
  // Producer

  datatype ConsumeResult = Consumed | Missing | Raised

  /** The defaults of `Producer.__init__` for `name` and `max_storage`. */
  const DefaultProducerName: string := ""
  const DefaultMaxStorage: nat := 20

  class Producer {
    const name: string
    const process: ProcessDefinition
    const storage: Storage
    var progress: nat
    var completedIterations: nat
    var canProcess: bool

    ghost predicate Valid()
      reads this, storage
    {
      storage.Valid()
    }

    ghost function State(): Machine
      reads this, storage
    {
      Machine(canProcess, progress, completedIterations, storage.stored)
    }

    /** The storage admits exactly the recipe's input and output types.
        The source's keyword defaults are `DefaultProducerName` and
        `DefaultMaxStorage`; here every argument is passed explicitly. */
    constructor (process: ProcessDefinition, name: string, maxStorage: nat)
      ensures Valid() && fresh(storage)
      ensures this.process == process && this.name == name
      ensures State() == Machine(false, 0, 0, map[])
      ensures storage.maxCapacity == maxStorage
      ensures storage.allowList == Some(DefinitionNames(process.inputs + process.outputs))
    {
      this.name := name;
      this.process := process;
      progress := 0;
      completedIterations := 0;
      canProcess := false;
      storage := new Storage(maxStorage, Some(DefinitionNames(process.inputs + process.outputs)));
    }

    /** `_consume_inputs`: every input is checked before any is consumed. */
    method ConsumeInputs() returns (r: ConsumeResult)
      requires Valid()
      modifies storage
      ensures Valid()
      ensures !AllContained(old(storage.stored), process.inputs) ==>
                r == Missing && storage.stored == old(storage.stored)
      ensures AllContained(old(storage.stored), process.inputs) ==>
                && storage.stored == ConsumeSeq(old(storage.stored), process.inputs).0
                && (r == Consumed <==> ConsumeSeq(old(storage.stored), process.inputs).1)
                && r != Missing
    {
      var inputs := process.inputs;
      var i := 0;
      while i < |inputs|
        invariant 0 <= i <= |inputs|
        invariant forall j :: 0 <= j < i ==> ContainsIn(storage.stored, inputs[j])
      {
        if !storage.Contains(inputs[i]) {
          return Missing;
        }
        i := i + 1;
      }
      ghost var before := storage.stored;
      i := 0;
      while i < |inputs|
        invariant 0 <= i <= |inputs|
        invariant storage.Valid()
        invariant ConsumeSeq(before, inputs[..i]) == (storage.stored, true)
      {
        assert inputs[..i + 1][..i] == inputs[..i];
        var st := storage.EnforceConsume(inputs[i]);
        if st.Failed? {
          assert ConsumeSeq(before, inputs[..i + 1]) == (storage.stored, false);
          assert ConsumeSeq(before, inputs[..i + 1]) == ConsumeSeq(before, inputs) by {
            ConsumeStopsAtFailure(before, inputs, i + 1);
          }
          return Raised;
        }
        i := i + 1;
      }
      assert inputs[..i] == inputs;
      r := Consumed;
    }

    /** `do_work`: one tick of the state machine. */
    method DoWork() returns (raised: bool)
      requires Valid()
      modifies this, storage
      ensures Valid()
      ensures Tick(process, storage.maxCapacity, storage.allowList, old(State())) == TickResult(State(), raised)
    {
      raised := false;
      if !canProcess {
        var r := ConsumeInputs();
        if r == Raised {
          raised := true;
          return;
        }
        canProcess := r == Consumed;
      }
      if !canProcess {
        return;
      }
      ghost var started := State();
      progress := progress + 1;
      if progress == process.iterationWorkCycles {
        completedIterations := completedIterations + 1;
        progress := 0;
        canProcess := false;
      }
      assert State() == Advance(process, started);
      FlushOutputs();
    }

    /** Lines 181-192 of `do_work`: the all-or-nothing output flush. */
    method FlushOutputs()
      requires Valid()
      modifies this, storage
      ensures Valid()
      ensures State() == Flush(process, storage.maxCapacity, storage.allowList, old(State()))
    {
      if completedIterations == process.iterationCount {
        ghost var m := storage.stored;
        var outputs := process.outputs;
        var i := 0;
        while i < |outputs|
          invariant 0 <= i <= |outputs|
          invariant forall j :: 0 <= j < i ==> CanAddTo(storage.maxCapacity, storage.allowList, m, outputs[j])
        {
          if !storage.CanAdd(outputs[i]) {
            return;
          }
          i := i + 1;
        }
        i := 0;
        while i < |outputs|
          invariant 0 <= i <= |outputs|
          invariant storage.Valid()
          modifies storage
          invariant storage.stored == AddAllTo(storage.maxCapacity, storage.allowList, m, outputs[..i]).stored
        {
          assert outputs[..i + 1][..i] == outputs[..i];
          var _ := storage.Add(outputs[i]);
          i := i + 1;
        }
        assert outputs[..i] == outputs;
        completedIterations := 0;
      }
    }
  }

  /** Once a consumption has failed, later inputs are not looked at. */
  lemma {:induction false} ConsumeStopsAtFailure(m: map<string, nat>, inputs: seq<ProduceQuantity>, k: nat)
    requires k <= |inputs| && !ConsumeSeq(m, inputs[..k]).1
    ensures ConsumeSeq(m, inputs) == ConsumeSeq(m, inputs[..k])
    decreases |inputs| - k
  {
    if k < |inputs| {
      var n := |inputs[..k + 1]|;
      assert inputs[..k + 1][..n - 1] == inputs[..k];
      ConsumeStopsAtFailure(m, inputs, k + 1);
    } else {
      assert inputs[..k] == inputs;
    }
  }

  // ---------------------------------------------------------------------------
  // Properties of the state machine

  /** A tick that finds an input missing changes nothing: not the storage, not
      the counters. */
  lemma StallOnMissingInput(p: ProcessDefinition, cap: nat, filter: Option<seq<string>>, s: Machine)
    requires !s.canProcess && !AllContained(s.stored, p.inputs)
    ensures Tick(p, cap, filter, s) == TickResult(s, false)
  {
  }

  /** Inputs are consumed only on the tick that starts an iteration: a tick in
      the middle of an iteration leaves every stored amount that it does not
      add an output to unchanged. */
  lemma NoConsumptionWhileProcessing(p: ProcessDefinition, cap: nat, filter: Option<seq<string>>, s: Machine)
    requires Bounded(s.stored, cap) && s.canProcess
    ensures var r := Tick(p, cap, filter, s);
            !r.raised && forall k :: k in s.stored ==> Stored(r.next.stored, k) >= s.stored[k]
  {
    var r := Tick(p, cap, filter, s);
    if r.next.stored != s.stored {
      AddAllGrows(cap, filter, s.stored, p.outputs);
    }
  }

  lemma {:induction false} AddAllGrows(cap: nat, filter: Option<seq<string>>, m: map<string, nat>, list: seq<ProduceQuantity>)
    requires Bounded(m, cap)
    ensures forall k :: k in m ==> Stored(AddAllTo(cap, filter, m, list).stored, k) >= m[k]
    decreases |list|
  {
    if list != [] {
      AddAllGrows(cap, filter, m, list[..|list| - 1]);
      AddAllKeepsBound(cap, filter, m, list[..|list| - 1]);
    }
  }

  /** `0 <= progress < iteration_work_cycles` is kept by every tick when the
      recipe has at least one work cycle, and progress moves only when the
      producer could process. */
  lemma TickKeepsProgressBelowCycles(p: ProcessDefinition, cap: nat, filter: Option<seq<string>>, s: Machine)
    requires p.iterationWorkCycles >= 1 && s.progress < p.iterationWorkCycles
    ensures Tick(p, cap, filter, s).next.progress < p.iterationWorkCycles
    ensures var n := Tick(p, cap, filter, s).next;
            n.progress != s.progress ==> n.progress == s.progress + 1 || n.progress == 0
  {
  }

  /** The tick that completes the last iteration flushes all outputs or none:
      when some output does not fit, nothing is added, the completed count
      stays at `iteration_count` and processing still ends. */
  lemma FlushOnCompletion(p: ProcessDefinition, cap: nat, filter: Option<seq<string>>, s: Machine)
    requires s.canProcess && s.progress + 1 == p.iterationWorkCycles && s.completed + 1 == p.iterationCount
    ensures var n := Tick(p, cap, filter, s).next;
            && !n.canProcess && n.progress == 0
            && if AllCanAdd(cap, filter, s.stored, p.outputs)
               then n.completed == 0 && n.stored == AddAllTo(cap, filter, s.stored, p.outputs).stored
               else n.completed == p.iterationCount && n.stored == s.stored
  {
  }

  /** A retried flush, on a working tick after the iterations are complete,
      is all or nothing too: when some output does not fit, no output is
      added and the completed count stays where it is. */
  lemma FlushAllOrNothing(p: ProcessDefinition, cap: nat, filter: Option<seq<string>>, s: Machine)
    requires s.canProcess && s.progress + 1 < p.iterationWorkCycles && s.completed == p.iterationCount
    ensures var n := Tick(p, cap, filter, s).next;
            if AllCanAdd(cap, filter, s.stored, p.outputs)
            then n.completed == 0 && n.stored == AddAllTo(cap, filter, s.stored, p.outputs).stored
            else n.completed == p.iterationCount && n.stored == s.stored
  {
  }

  /** When every output fits, the flush adds each output in full. */
  lemma {:induction false} FlushAddsEveryOutput(cap: nat, filter: Option<seq<string>>, m: map<string, nat>,
                                                outputs: seq<ProduceQuantity>)
    requires AllCanAdd(cap, filter, m, outputs) && DistinctNames(outputs)
    ensures forall i :: 0 <= i < |outputs| ==>
              Stored(AddAllTo(cap, filter, m, outputs).stored, outputs[i].definition.name)
                == Stored(m, outputs[i].definition.name) + outputs[i].quantity
    ensures AddAllTo(cap, filter, m, outputs).leftovers == []
    decreases |outputs|
  {
    if outputs != [] {
      var init := outputs[..|outputs| - 1];
      var last := outputs[|outputs| - 1];
      assert DistinctNames(init);
      assert AllCanAdd(cap, filter, m, init) by {
        forall i | 0 <= i < |init| ensures CanAddTo(cap, filter, m, init[i]) { assert init[i] == outputs[i]; }
      }
      FlushAddsEveryOutput(cap, filter, m, init);
      var prev := AddAllTo(cap, filter, m, init).stored;
      AddAllUntouched(cap, filter, m, init, last.definition.name);
      assert CanAddTo(cap, filter, m, outputs[|outputs| - 1]);
      forall i | 0 <= i < |outputs|
        ensures Stored(AddAllTo(cap, filter, m, outputs).stored, outputs[i].definition.name)
                  == Stored(m, outputs[i].definition.name) + outputs[i].quantity
      {
        if i < |outputs| - 1 {
          assert outputs[i] == init[i];
        }
      }
    }
  }

  /** `add_all` leaves a name that none of its elements carries alone. */
  lemma {:induction false} AddAllUntouched(cap: nat, filter: Option<seq<string>>, m: map<string, nat>,
                                           list: seq<ProduceQuantity>, name: string)
    requires forall i :: 0 <= i < |list| ==> list[i].definition.name != name
    ensures Stored(AddAllTo(cap, filter, m, list).stored, name) == Stored(m, name)
    decreases |list|
  {
    if list != [] {
      AddAllUntouched(cap, filter, m, list[..|list| - 1], name);
    }
  }

  /** No tick stores more than the capacity of a type. */
  lemma TickKeepsBound(p: ProcessDefinition, cap: nat, filter: Option<seq<string>>, s: Machine)
    requires Bounded(s.stored, cap)
    ensures Bounded(Tick(p, cap, filter, s).next.stored, cap)
  {
    ConsumeSeqKeepsBound(s.stored, p.inputs, cap);
    AddAllKeepsBound(cap, filter, s.stored, p.outputs);
    AddAllKeepsBound(cap, filter, ConsumeSeq(s.stored, p.inputs).0, p.outputs);
  }

  /** Once the completed count has passed `iteration_count` (a flush stalled
      and the next consuming tick finished another iteration), it never comes
      back: the `==` test at the flush never holds again. */
  lemma OverrunIsPermanent(p: ProcessDefinition, cap: nat, filter: Option<seq<string>>, s: Machine)
    requires s.completed > p.iterationCount
    ensures Tick(p, cap, filter, s).next.completed >= s.completed
  {
  }
}

=== FILE: production_scenarios.dfy ===
/** The kitchen recipe of the production unit tests (two apples, one
    rhubarb and one sugar make one crumble) and the runs those tests perform,
    stated as facts about `Production.Tick`. */
module ProductionScenarios {
  import opened Outcome
  import opened Production

  const Apple := ProduceDefinition("apple", "Apple")
  const Rhubarb := ProduceDefinition("rhubarb", "Rhubarb")
  const Sugar := ProduceDefinition("sugar", "Sugar")
  const Crumble := ProduceDefinition("crumble", "Apple and Rhubarb Crumble")

  /** The producer's storage capacity per type: the default one. */
  const Capacity: nat := DefaultMaxStorage

  /** `k` batches' worth of inputs. */
  function Stock(k: nat): seq<ProduceQuantity>
  {
    [ProduceQuantity(Apple, 2 * k), ProduceQuantity(Rhubarb, k), ProduceQuantity(Sugar, k)]
  }

  function Kitchen(cycles: int, count: int): ProcessDefinition
  {
    ProcessDefinition("Kitchen", Stock(1), cycles, count, [ProduceQuantity(Crumble, 1)])
  }

  /** The allow-list the producer gives its storage: inputs then outputs. */
  const KitchenNames: seq<string> := ["apple", "rhubarb", "sugar", "crumble"]

  function KitchenFilter(): Option<seq<string>>
  {
    Some(KitchenNames)
  }

  /** The allow-list is the kitchen's input names followed by its output
      names, as the producer builds it. */
  lemma KitchenFilterIsProcessNames()
    ensures KitchenFilter() == Some(DefinitionNames(Kitchen(1, 1).inputs + Kitchen(1, 1).outputs))
  {
    var names := DefinitionNames(Stock(1) + [ProduceQuantity(Crumble, 1)]);
    assert names[0] == "apple" && names[1] == "rhubarb" && names[2] == "sugar" && names[3] == "crumble";
    assert names == KitchenNames;
  }

  /** The four stored amounts. */
  predicate Holds(m: map<string, nat>, apple: nat, rhubarb: nat, sugar: nat, crumble: nat)
  {
    && Stored(m, "apple") == apple && Stored(m, "rhubarb") == rhubarb
    && Stored(m, "sugar") == sugar && Stored(m, "crumble") == crumble
  }

  lemma KitchenFilterAllows()
    ensures FilterAllows(KitchenFilter(), "apple") && FilterAllows(KitchenFilter(), "rhubarb")
    ensures FilterAllows(KitchenFilter(), "sugar") && FilterAllows(KitchenFilter(), "crumble")
  {
    assert KitchenNames[0] == "apple" && KitchenNames[1] == "rhubarb";
    assert KitchenNames[2] == "sugar" && KitchenNames[3] == "crumble";
  }

  /** `add_all` of `k` batches into storage holding a, r, s, c. */
  lemma Refill(m: map<string, nat>, k: nat, a: nat, r: nat, s: nat, c: nat)
    requires Holds(m, a, r, s, c)
    requires a + 2 * k <= Capacity && r + k <= Capacity && s + k <= Capacity
    ensures Holds(AddAllTo(Capacity, KitchenFilter(), m, Stock(k)).stored, a + 2 * k, r + k, s + k, c)
    ensures AddAllTo(Capacity, KitchenFilter(), m, Stock(k)).leftovers == []
  {
    var list := Stock(k);
    StockFits(m, k, a, r, s, c);
    FlushAddsEveryOutput(Capacity, KitchenFilter(), m, list);
    AddAllUntouched(Capacity, KitchenFilter(), m, list, "crumble");
    assert list[0].definition.name == "apple" && list[1].definition.name == "rhubarb";
    assert list[2].definition.name == "sugar";
  }

  /** `k` batches fit in storage holding a, r, s, c when each type has
      room. */
  lemma StockFits(m: map<string, nat>, k: nat, a: nat, r: nat, s: nat, c: nat)
    requires Holds(m, a, r, s, c)
    requires a + 2 * k <= Capacity && r + k <= Capacity && s + k <= Capacity
    ensures AllCanAdd(Capacity, KitchenFilter(), m, Stock(k)) && DistinctNames(Stock(k))
    ensures forall i :: 0 <= i < |Stock(k)| ==> Stock(k)[i].definition.name != "crumble"
  {
    var list := Stock(k);
    KitchenFilterAllows();
    assert CanAddTo(Capacity, KitchenFilter(), m, list[0]);
    assert CanAddTo(Capacity, KitchenFilter(), m, list[1]);
    assert CanAddTo(Capacity, KitchenFilter(), m, list[2]);
    StockNames(k);
  }

  /** A batch names each input type once, and never the crumble. */
  lemma StockNames(k: nat)
    ensures DistinctNames(Stock(k))
    ensures forall i :: 0 <= i < |Stock(k)| ==> Stock(k)[i].definition.name != "crumble"
  {
    assert "apple"[0] != "rhubarb"[0] && "apple"[0] != "sugar"[0] && "rhubarb"[0] != "sugar"[0];
    assert "apple"[0] != "crumble"[0] && "rhubarb"[0] != "crumble"[0] && "sugar"[0] != "crumble"[0];
  }

  /** `_consume_inputs` of one batch. */
  lemma ConsumeBatch(m: map<string, nat>, a: nat, r: nat, s: nat, c: nat)
    requires Holds(m, a, r, s, c) && a >= 2 && r >= 1 && s >= 1
    ensures AllContained(m, Stock(1)) && ConsumeSeq(m, Stock(1)).1
    ensures Holds(ConsumeSeq(m, Stock(1)).0, a - 2, r - 1, s - 1, c)
  {
    var inputs := Stock(1);
    BatchNames();
    assert ContainsIn(m, inputs[0]) && ContainsIn(m, inputs[1]) && ContainsIn(m, inputs[2]);
    ConsumeDistinctInputs(m, inputs);
    assert inputs[0].definition.name == "apple" && inputs[1].definition.name == "rhubarb";
    assert inputs[2].definition.name == "sugar";
  }

  /** One batch names each input type once, and never the crumble. */
  lemma BatchNames()
    ensures DefinitionNames(Stock(1)) == ["apple", "rhubarb", "sugar"]
    ensures DistinctNames(Stock(1))
    ensures "crumble" !in DefinitionNames(Stock(1))
  {
    var names := DefinitionNames(Stock(1));
    assert names[0] == "apple" && names[1] == "rhubarb" && names[2] == "sugar";
    assert "apple"[0] != "rhubarb"[0] && "apple"[0] != "sugar"[0] && "rhubarb"[0] != "sugar"[0];
    assert "apple"[0] != "crumble"[0] && "rhubarb"[0] != "crumble"[0] && "sugar"[0] != "crumble"[0];
  }

  /** test_single_one_cycle_iter: one iteration of one cycle turns a stocked
      storage into one crumble and resets the counters. */
  lemma SingleOneCycleIteration()
    ensures var m := AddAllTo(Capacity, KitchenFilter(), map[], Stock(1)).stored;
            var t := Tick(Kitchen(1, 1), Capacity, KitchenFilter(), Machine(false, 0, 0, m));
            && !ContainsIn(m, ProduceQuantity(Crumble, 1))
            && !t.raised && ContainsIn(t.next.stored, ProduceQuantity(Crumble, 1))
            && t.next == Machine(false, 0, 0, t.next.stored)
  {
    var m := AddAllTo(Capacity, KitchenFilter(), map[], Stock(1)).stored;
    Refill(map[], 1, 0, 0, 0, 0);
    ConsumeBatch(m, 2, 1, 1, 0);
    var c := ConsumeSeq(m, Stock(1)).0;
    CrumbleFlush(c, 0);
    assert ContainsIn(AddAllTo(Capacity, KitchenFilter(), c, [ProduceQuantity(Crumble, 1)]).stored, ProduceQuantity(Crumble, 1));
  }

  /** Adding the one crumble output to storage holding `n` crumbles. */
  lemma CrumbleFlush(m: map<string, nat>, n: nat)
    requires Stored(m, "crumble") == n
    ensures AllCanAdd(Capacity, KitchenFilter(), m, [ProduceQuantity(Crumble, 1)]) <==> n < Capacity
    ensures n < Capacity ==>
      var after := AddAllTo(Capacity, KitchenFilter(), m, [ProduceQuantity(Crumble, 1)]).stored;
      && Stored(after, "crumble") == n + 1
      && forall k :: k != "crumble" ==> Stored(after, k) == Stored(m, k)
  {
    KitchenFilterAllows();
    var out := [ProduceQuantity(Crumble, 1)];
    assert out[..0] == [];
    AddToMeaning(Capacity, KitchenFilter(), m, out[0]);
  }

  /** test_single_two_cycle_iter: two one-cycle iterations; the first leaves
      the producer idle with nothing produced, the second produces. */
  lemma SingleTwoCycleIteration()
    ensures var m := AddAllTo(Capacity, KitchenFilter(), map[], Stock(2)).stored;
            var t1 := Tick(Kitchen(1, 2), Capacity, KitchenFilter(), Machine(false, 0, 0, m));
            var t2 := Tick(Kitchen(1, 2), Capacity, KitchenFilter(), t1.next);
            && !t1.raised && !t1.next.canProcess && !ContainsIn(t1.next.stored, ProduceQuantity(Crumble, 1))
            && !t2.raised && !t2.next.canProcess && ContainsIn(t2.next.stored, ProduceQuantity(Crumble, 1))
  {
    var m := AddAllTo(Capacity, KitchenFilter(), map[], Stock(2)).stored;
    Refill(map[], 2, 0, 0, 0, 0);
    ConsumeBatch(m, 4, 2, 2, 0);
    var c1 := ConsumeSeq(m, Stock(1)).0;
    ConsumeBatch(c1, 2, 1, 1, 0);
    var c2 := ConsumeSeq(c1, Stock(1)).0;
    CrumbleFlush(c2, 0);
  }

  /** test_double_one_cycle_iter: one iteration of two cycles; the first
      tick leaves the producer processing, the second produces. */
  lemma DoubleOneCycleIteration()
    ensures var m := AddAllTo(Capacity, KitchenFilter(), map[], Stock(2)).stored;
            var t1 := Tick(Kitchen(2, 1), Capacity, KitchenFilter(), Machine(false, 0, 0, m));
            var t2 := Tick(Kitchen(2, 1), Capacity, KitchenFilter(), t1.next);
            && !t1.raised && t1.next.canProcess && !ContainsIn(t1.next.stored, ProduceQuantity(Crumble, 1))
            && !t2.raised && !t2.next.canProcess && ContainsIn(t2.next.stored, ProduceQuantity(Crumble, 1))
  {
    var m := AddAllTo(Capacity, KitchenFilter(), map[], Stock(2)).stored;
    Refill(map[], 2, 0, 0, 0, 0);
    ConsumeBatch(m, 4, 2, 2, 0);
    var c1 := ConsumeSeq(m, Stock(1)).0;
    CrumbleFlush(c1, 0);
  }

  /** test_insuffient_input_stalls: an empty storage stalls the producer. */
  lemma InsufficientInputStalls()
    ensures var t := Tick(Kitchen(1, 1), Capacity, KitchenFilter(), Machine(false, 0, 0, map[]));
            !t.raised && t.next == Machine(false, 0, 0, map[])
  {
    assert !ContainsIn(map[], Stock(1)[0]);
  }

  /** test_insuffient_output_storage_stalls: with the crumble store full the
      iteration completes, its inputs are consumed and the flush waits. */
  lemma InsufficientOutputStorageStalls()
    ensures var m := AddAllTo(Capacity, KitchenFilter(), map[], Stock(1) + [ProduceQuantity(Crumble, Capacity)]).stored;
            var t := Tick(Kitchen(1, 1), Capacity, KitchenFilter(), Machine(false, 0, 0, m));
            && !t.raised && t.next.completed == 1
            && !ContainsIn(t.next.stored, ProduceQuantity(Apple, 2))
            && !ContainsIn(t.next.stored, ProduceQuantity(Rhubarb, 1))
            && !ContainsIn(t.next.stored, ProduceQuantity(Sugar, 1))
  {
    StockedBesideFullCrumbles(1);
    var m := AddAllTo(Capacity, KitchenFilter(), map[], Stock(1) + [ProduceQuantity(Crumble, Capacity)]).stored;
    OneCycleTick(Machine(false, 0, 0, m), 2, 1, 1, Capacity);
  }

  /** `k` batches added to an empty storage, then a full store of
      crumbles. */
  lemma StockedBesideFullCrumbles(k: nat)
    requires 2 * k <= Capacity
    ensures Holds(AddAllTo(Capacity, KitchenFilter(), map[], Stock(k) + [ProduceQuantity(Crumble, Capacity)]).stored,
                  2 * k, k, k, Capacity)
  {
    var full := [ProduceQuantity(Crumble, Capacity)];
    Refill(map[], k, 0, 0, 0, 0);
    var m1 := AddAllTo(Capacity, KitchenFilter(), map[], Stock(k)).stored;
    AddAllConcat(Capacity, KitchenFilter(), map[], Stock(k), full);
    KitchenFilterAllows();
    assert full[..0] == [];
    AddToMeaning(Capacity, KitchenFilter(), m1, full[0]);
  }

  /** A tick of the one-cycle, one-iteration kitchen on an idle producer
      whose storage holds a batch: the batch is consumed and the iteration
      completes; the completed count goes up unless the crumble is flushed,
      which happens exactly when this was the first iteration and there is
      room for it. */
  lemma OneCycleTick(s: Machine, a: nat, r: nat, sg: nat, c: nat)
    requires !s.canProcess && s.progress == 0 && Holds(s.stored, a, r, sg, c)
    requires a >= 2 && r >= 1 && sg >= 1 && c <= Capacity
    ensures var t := Tick(Kitchen(1, 1), Capacity, KitchenFilter(), s);
            && !t.raised && !t.next.canProcess && t.next.progress == 0
            && (if s.completed == 0 && c < Capacity
                then t.next.completed == 0 && Holds(t.next.stored, a - 2, r - 1, sg - 1, c + 1)
                else t.next.completed == s.completed + 1 && Holds(t.next.stored, a - 2, r - 1, sg - 1, c))
  {
    ConsumeBatch(s.stored, a, r, sg, c);
    var consumed := ConsumeSeq(s.stored, Stock(1)).0;
    CrumbleFlush(consumed, c);
  }

  // ---------------------------------------------------------------------------
  // test_multiple_full_loops

  /** One pass of the test loop at index `i`: refill one batch when `i` is a
      multiple of 3, tick, then take every crumble out. The number is how many
      crumbles were taken. */
  function LoopStep(s: Machine, i: nat): (Machine, nat)
  {
    var refilled :=
      if i % 3 == 0 then s.(stored := AddAllTo(Capacity, KitchenFilter(), s.stored, Stock(1)).stored) else s;
    var t := Tick(Kitchen(3, 2), Capacity, KitchenFilter(), refilled).next;
    var q := Stored(t.stored, "crumble");
    if q > 0 then
      (t.(stored := ConsumeFrom(t.stored, ProduceQuantity(Crumble, q)).value), q)
    else (t, 0)
  }

  /** `k` passes of a loop from index `i`, adding up what each pass reports. */
  ghost function Run(pass: (Machine, nat) -> (Machine, nat), s: Machine, i: nat, k: nat): (Machine, nat)
    decreases k
  {
    if k == 0 then (s, 0)
    else
      var step := pass(s, i);
      var rest := Run(pass, step.0, i + 1, k - 1);
      (rest.0, step.1 + rest.1)
  }

  /** The producer with an all-empty storage and the given counters. */
  predicate AtPhase(s: Machine, canProcess: bool, progress: nat, completed: nat)
  {
    s.canProcess == canProcess && s.progress == progress && s.completed == completed
    && Holds(s.stored, 0, 0, 0, 0)
  }

  /** Where the test loop stands before pass `p` of each six: the first three
      passes make the first iteration, the last three the second. */
  predicate InPhase(s: Machine, p: nat)
  {
    if p == 0 then AtPhase(s, false, 0, 0)
    else if p == 1 then AtPhase(s, true, 1, 0)
    else if p == 2 then AtPhase(s, true, 2, 0)
    else if p == 3 then AtPhase(s, false, 0, 1)
    else if p == 4 then AtPhase(s, true, 1, 1)
    else p == 5 && AtPhase(s, true, 2, 1)
  }

  /** One step of a pass function at phase `p`: the next phase, and a crumble
      reported only on the last pass of the six. */
  predicate StepsFrom(pass: (Machine, nat) -> (Machine, nat), s: Machine, i: nat, p: nat)
  {
    InPhase(s, p) ==> InPhase(pass(s, i).0, (p + 1) % 6) && pass(s, i).1 == (if p == 5 then 1 else 0)
  }

  /** A pass function that moves the test loop round its six phases. */
  ghost predicate CyclesThroughPhases(pass: (Machine, nat) -> (Machine, nat))
  {
    && (forall s, i: nat :: i % 6 == 0 ==> StepsFrom(pass, s, i, 0))
    && (forall s, i: nat :: i % 6 == 1 ==> StepsFrom(pass, s, i, 1))
    && (forall s, i: nat :: i % 6 == 2 ==> StepsFrom(pass, s, i, 2))
    && (forall s, i: nat :: i % 6 == 3 ==> StepsFrom(pass, s, i, 3))
    && (forall s, i: nat :: i % 6 == 4 ==> StepsFrom(pass, s, i, 4))
    && (forall s, i: nat :: i % 6 == 5 ==> StepsFrom(pass, s, i, 5))
  }

  /** A pass that refills and starts an iteration (indices 0 and 3 of each
      six). */
  lemma StartPass(s: Machine, i: nat, completed: nat)
    requires AtPhase(s, false, 0, completed) && i % 3 == 0
    requires completed < 2
    ensures AtPhase(LoopStep(s, i).0, true, 1, completed) && LoopStep(s, i).1 == 0
  {
    Refill(s.stored, 1, 0, 0, 0, 0);
    var m := AddAllTo(Capacity, KitchenFilter(), s.stored, Stock(1)).stored;
    ConsumeBatch(m, 2, 1, 1, 0);
  }

  /** A pass in the middle of an iteration. */
  lemma MiddlePass(s: Machine, i: nat, completed: nat)
    requires AtPhase(s, true, 1, completed) && i % 3 == 1
    requires completed < 2
    ensures AtPhase(LoopStep(s, i).0, true, 2, completed) && LoopStep(s, i).1 == 0
  {
  }

  /** The pass that completes the first iteration. */
  lemma FirstIterationPass(s: Machine, i: nat)
    requires AtPhase(s, true, 2, 0) && i % 3 == 2
    ensures AtPhase(LoopStep(s, i).0, false, 0, 1) && LoopStep(s, i).1 == 0
  {
  }

  /** The pass that completes the second iteration, flushes one crumble and
      sees the test take it. */
  lemma SecondIterationPass(s: Machine, i: nat)
    requires AtPhase(s, true, 2, 1) && i % 3 == 2
    ensures AtPhase(LoopStep(s, i).0, false, 0, 0) && LoopStep(s, i).1 == 1
  {
    CrumbleFlush(s.stored, 0);
    var t := Tick(Kitchen(3, 2), Capacity, KitchenFilter(), s).next;
    ConsumeFromMeaning(t.stored, ProduceQuantity(Crumble, 1));
  }

  /** The test loop's pass goes round the six phases. */
  lemma PassCyclesThroughPhases()
    ensures CyclesThroughPhases(LoopStep)
  {
    forall s, i: nat | i % 6 == 0 ensures StepsFrom(LoopStep, s, i, 0) { StartPhase(s, i, 0); }
    forall s, i: nat | i % 6 == 1 ensures StepsFrom(LoopStep, s, i, 1) { MiddlePhase(s, i, 1); }
    forall s, i: nat | i % 6 == 2 ensures StepsFrom(LoopStep, s, i, 2) { FirstCompletionPhase(s, i); }
    forall s, i: nat | i % 6 == 3 ensures StepsFrom(LoopStep, s, i, 3) { StartPhase(s, i, 3); }
    forall s, i: nat | i % 6 == 4 ensures StepsFrom(LoopStep, s, i, 4) { MiddlePhase(s, i, 4); }
    forall s, i: nat | i % 6 == 5 ensures StepsFrom(LoopStep, s, i, 5) { SecondCompletionPhase(s, i); }
  }

  /** The pass at phase 2 completes the first iteration. */
  lemma FirstCompletionPhase(s: Machine, i: nat)
    requires i % 6 == 2
    ensures StepsFrom(LoopStep, s, i, 2)
  {
    assert i % 3 == 2;
    if InPhase(s, 2) { FirstIterationPass(s, i); }
  }

  /** The pass at phase 5 completes the second iteration. */
  lemma SecondCompletionPhase(s: Machine, i: nat)
    requires i % 6 == 5
    ensures StepsFrom(LoopStep, s, i, 5)
  {
    assert i % 3 == 2;
    if InPhase(s, 5) { SecondIterationPass(s, i); }
  }

  /** The passes at phases 0 and 3 refill and start an iteration. */
  lemma StartPhase(s: Machine, i: nat, p: nat)
    requires p == 0 || p == 3
    requires i % 6 == p
    ensures StepsFrom(LoopStep, s, i, p)
  {
    assert i % 3 == 0;
    if InPhase(s, p) { StartPass(s, i, p / 3); }
  }

  /** The passes at phases 1 and 4 only work. */
  lemma MiddlePhase(s: Machine, i: nat, p: nat)
    requires p == 1 || p == 4
    requires i % 6 == p
    ensures StepsFrom(LoopStep, s, i, p)
  {
    assert i % 3 == 1;
    if InPhase(s, p) { MiddlePass(s, i, p / 3); }
  }

  /** Three passes through the first iteration of a cycle. */
  lemma FirstHalf(pass: (Machine, nat) -> (Machine, nat), s: Machine, i: nat)
    requires CyclesThroughPhases(pass) && InPhase(s, 0) && i % 6 == 0
    ensures InPhase(Run(pass, s, i, 3).0, 3) && Run(pass, s, i, 3).1 == 0
  {
    NextIndices(i);
    assert StepsFrom(pass, s, i, 0);
    var s1 := pass(s, i).0;
    assert StepsFrom(pass, s1, i + 1, 1);
    var s2 := pass(s1, i + 1).0;
    assert StepsFrom(pass, s2, i + 2, 2);
    var s3 := pass(s2, i + 2).0;
    RunThree(pass, s, i, s1, s2, s3, 0, 0, 0);
  }

  /** Three passes through the second iteration of a cycle, the last of
      which reports the crumble. */
  lemma SecondHalf(pass: (Machine, nat) -> (Machine, nat), s: Machine, i: nat)
    requires CyclesThroughPhases(pass) && InPhase(s, 3) && i % 6 == 3
    ensures InPhase(Run(pass, s, i, 3).0, 0) && Run(pass, s, i, 3).1 == 1
  {
    NextIndices(i - 3);
    assert StepsFrom(pass, s, i, 3);
    var s1 := pass(s, i).0;
    assert StepsFrom(pass, s1, i + 1, 4);
    var s2 := pass(s1, i + 1).0;
    assert StepsFrom(pass, s2, i + 2, 5);
    var s3 := pass(s2, i + 2).0;
    RunThree(pass, s, i, s1, s2, s3, 0, 0, 1);
  }

  /** Six passes from the start of a cycle produce exactly one crumble and
      come back to the start. */
  lemma SixPasses(pass: (Machine, nat) -> (Machine, nat), s: Machine, i: nat)
    requires CyclesThroughPhases(pass) && InPhase(s, 0) && i % 6 == 0
    ensures InPhase(Run(pass, s, i, 6).0, 0) && Run(pass, s, i, 6).1 == 1
  {
    FirstHalf(pass, s, i);
    NextIndices(i);
    SecondHalf(pass, Run(pass, s, i, 3).0, i + 3);
    RunSplit(pass, s, i, 3, 3);
  }

  lemma NextIndices(i: int)
    requires i % 6 == 0
    ensures (i + 1) % 6 == 1 && (i + 2) % 6 == 2 && (i + 3) % 6 == 3
    ensures (i + 4) % 6 == 4 && (i + 5) % 6 == 5 && (i + 6) % 6 == 0
  {
  }

  /** Running `6 * c` passes from the start of a cycle produces `c` crumbles. */
  lemma {:induction false} FullLoops(pass: (Machine, nat) -> (Machine, nat), s: Machine, i: nat, c: nat)
    requires CyclesThroughPhases(pass) && InPhase(s, 0) && i % 6 == 0
    ensures Run(pass, s, i, 6 * c).1 == c
    decreases c
  {
    if c > 0 {
      SixPasses(pass, s, i);
      var s6 := Run(pass, s, i, 6).0;
      FullLoops(pass, s6, i + 6, c - 1);
      RunSplit(pass, s, i, 6, 6 * (c - 1));
      assert 6 + 6 * (c - 1) == 6 * c;
    }
  }

  /** Three passes whose states and reports are known one by one. */
  lemma RunThree(pass: (Machine, nat) -> (Machine, nat), s: Machine, i: nat,
                 s1: Machine, s2: Machine, s3: Machine, q1: nat, q2: nat, q3: nat)
    requires pass(s, i) == (s1, q1) && pass(s1, i + 1) == (s2, q2) && pass(s2, i + 2) == (s3, q3)
    ensures Run(pass, s, i, 3) == (s3, q1 + q2 + q3)
  {
    RunOne(pass, s2, i + 2, 0, s3, 0);
    RunOne(pass, s1, i + 1, 1, s3, q3);
    RunOne(pass, s, i, 2, s3, q2 + q3);
  }

  /** One pass followed by `k` passes. */
  lemma RunOne(pass: (Machine, nat) -> (Machine, nat), s: Machine, i: nat, k: nat, last: Machine, total: nat)
    requires Run(pass, pass(s, i).0, i + 1, k) == (last, total)
    ensures Run(pass, s, i, k + 1) == (last, pass(s, i).1 + total)
  {
  }

  /** `a + b` passes are `a` passes followed by `b`. */
  lemma {:induction false} RunSplit(pass: (Machine, nat) -> (Machine, nat), s: Machine, i: nat, a: nat, b: nat)
    ensures var first := Run(pass, s, i, a);
            var second := Run(pass, first.0, i + a, b);
            Run(pass, s, i, a + b) == (second.0, first.1 + second.1)
    decreases a
  {
    if a > 0 {
      var step := pass(s, i);
      RunSplit(pass, step.0, i + 1, a - 1, b);
    }
  }

  /** test_multiple_full_loops: 60 passes with three work cycles and two
      iterations per run produce exactly 10 crumbles. */
  lemma MultipleFullLoops()
    ensures Run(LoopStep, Machine(false, 0, 0, map[]), 0, 60).1 == 10
  {
    PassCyclesThroughPhases();
    FullLoops(LoopStep, Machine(false, 0, 0, map[]), 0, 10);
  }

  /** Taking every crumble out of the storage leaves the rest. */
  lemma TakeCrumbles(m: map<string, nat>, a: nat, r: nat, s: nat, c: nat)
    requires Holds(m, a, r, s, c)
    ensures Holds(m["crumble" := 0], a, r, s, 0)
  {
    assert "apple"[0] != "crumble"[0] && "rhubarb"[0] != "crumble"[0] && "sugar"[0] != "crumble"[0];
  }

  /** Once a flush has stalled, a producer with one work cycle per iteration
      finishes another iteration on its next stocked tick, passes
      `iteration_count` and never produces again, whatever space is freed. */
  lemma StalledFlushOverruns()
    ensures var m := AddAllTo(Capacity, KitchenFilter(), map[], Stock(2) + [ProduceQuantity(Crumble, Capacity)]).stored;
            var t1 := Tick(Kitchen(1, 1), Capacity, KitchenFilter(), Machine(false, 0, 0, m));
            var t2 := Tick(Kitchen(1, 1), Capacity, KitchenFilter(), t1.next.(stored := t1.next.stored["crumble" := 0]));
            t1.next.completed == 1 && t2.next.completed == 2
  {
    StockedBesideFullCrumbles(2);
    var m := AddAllTo(Capacity, KitchenFilter(), map[], Stock(2) + [ProduceQuantity(Crumble, Capacity)]).stored;
    var s1 := Machine(false, 0, 0, m);
    OneCycleTick(s1, 4, 2, 2, Capacity);
    var t1 := Tick(Kitchen(1, 1), Capacity, KitchenFilter(), s1);
    var s2 := t1.next.(stored := t1.next.stored["crumble" := 0]);
    TakeCrumbles(t1.next.stored, 2, 1, 1, Capacity);
    OneCycleTick(s2, 2, 1, 1, 0);
  }
}

=== FILE: renderer_enums.dfy ===
/** The renderer's enumerations and their name tables.

    Each enumeration has a table of names in declaration order; converting an
    enumerator to text indexes that table by the enumerator's ordinal, and
    converting text back searches the table with `stringToEnum`, which throws
    for a name that is not there. The tables have as many entries as their
    enumeration has enumerators, which the source checks at compile time and
    each `...Ordinal` function states here. */
module RendererEnums {
  import Outcome
  import EngineUtils

  // Material_alpha_mode

  datatype MaterialAlphaMode = Opaque | Mask | Blend

  const MaterialAlphaModeNames: seq<string> := ["Opaque", "Mask", "Blend"]

  /** The enumerators in declaration order. */
  const MaterialAlphaModeValues: seq<MaterialAlphaMode> := [MaterialAlphaMode.Opaque, MaterialAlphaMode.Mask, MaterialAlphaMode.Blend]

  /** The enumerator's position in the enumeration, which indexes its name. */
  function MaterialAlphaModeOrdinal(e: MaterialAlphaMode): (r: nat)
    ensures r < |MaterialAlphaModeNames| == |MaterialAlphaModeValues| && MaterialAlphaModeValues[r] == e
  {
    match e
    case Opaque => 0
    case Mask => 1
    case Blend => 2
  }

  function MaterialAlphaModeToString(e: MaterialAlphaMode): string
  {
    MaterialAlphaModeNames[MaterialAlphaModeOrdinal(e)]
  }

  /** Throws for any text that is not one of the names. */
  function StringToMaterialAlphaMode(s: string): (r: Outcome.Result<MaterialAlphaMode>)
    ensures r.Ok? <==> s in MaterialAlphaModeNames
    ensures r.Ok? ==> MaterialAlphaModeToString(r.value) == s
    ensures r.Err? ==> r.fault == Outcome.Thrown
  {
    EngineUtils.UnknownNameThrows(MaterialAlphaModeNames, s);
    match EngineUtils.IndexOf(MaterialAlphaModeNames, s)
    case Ok(i) =>
      assert MaterialAlphaModeOrdinal(MaterialAlphaModeValues[i]) == i;
      Outcome.Ok(MaterialAlphaModeValues[i])
    case Err(f) => Outcome.Err(f)
  }

  /** Every enumerator's name converts back to that enumerator. */
  lemma MaterialAlphaModeRoundTrip(e: MaterialAlphaMode)
    ensures StringToMaterialAlphaMode(MaterialAlphaModeToString(e)) == Outcome.Ok(e)
  {
    EngineUtils.DistinctRoundTrip(MaterialAlphaModeNames, MaterialAlphaModeOrdinal(e));
  }

  // Material_face_cull_mode

  datatype MaterialFaceCullMode = BackFace | FrontFace | None

  const MaterialFaceCullModeNames: seq<string> := ["Back_face", "Front_face", "None"]

  /** The enumerators in declaration order. */
  const MaterialFaceCullModeValues: seq<MaterialFaceCullMode> := [MaterialFaceCullMode.BackFace, MaterialFaceCullMode.FrontFace, MaterialFaceCullMode.None]

  /** The enumerator's position in the enumeration, which indexes its name. */
  function MaterialFaceCullModeOrdinal(e: MaterialFaceCullMode): (r: nat)
    ensures r < |MaterialFaceCullModeNames| == |MaterialFaceCullModeValues| && MaterialFaceCullModeValues[r] == e
  {
    match e
    case BackFace => 0
    case FrontFace => 1
    case None => 2
  }

  function MaterialFaceCullModeToString(e: MaterialFaceCullMode): string
  {
    MaterialFaceCullModeNames[MaterialFaceCullModeOrdinal(e)]
  }

  /** Throws for any text that is not one of the names. */
  function StringToMaterialFaceCullMode(s: string): (r: Outcome.Result<MaterialFaceCullMode>)
    ensures r.Ok? <==> s in MaterialFaceCullModeNames
    ensures r.Ok? ==> MaterialFaceCullModeToString(r.value) == s
    ensures r.Err? ==> r.fault == Outcome.Thrown
  {
    EngineUtils.UnknownNameThrows(MaterialFaceCullModeNames, s);
    match EngineUtils.IndexOf(MaterialFaceCullModeNames, s)
    case Ok(i) =>
      assert MaterialFaceCullModeOrdinal(MaterialFaceCullModeValues[i]) == i;
      Outcome.Ok(MaterialFaceCullModeValues[i])
    case Err(f) => Outcome.Err(f)
  }

  /** Every enumerator's name converts back to that enumerator. */
  lemma MaterialFaceCullModeRoundTrip(e: MaterialFaceCullMode)
    ensures StringToMaterialFaceCullMode(MaterialFaceCullModeToString(e)) == Outcome.Ok(e)
  {
    EngineUtils.DistinctRoundTrip(MaterialFaceCullModeNames, MaterialFaceCullModeOrdinal(e));
  }

  // Material_light_mode

  datatype MaterialLightMode = Unlit | Lit

  const MaterialLightModeNames: seq<string> := ["Unlit", "Lit"]

  /** The enumerators in declaration order. */
  const MaterialLightModeValues: seq<MaterialLightMode> := [MaterialLightMode.Unlit, MaterialLightMode.Lit]

  /** The enumerator's position in the enumeration, which indexes its name. */
  function MaterialLightModeOrdinal(e: MaterialLightMode): (r: nat)
    ensures r < |MaterialLightModeNames| == |MaterialLightModeValues| && MaterialLightModeValues[r] == e
  {
    match e
    case Unlit => 0
    case Lit => 1
  }

  function MaterialLightModeToString(e: MaterialLightMode): string
  {
    MaterialLightModeNames[MaterialLightModeOrdinal(e)]
  }

  /** Throws for any text that is not one of the names. */
  function StringToMaterialLightMode(s: string): (r: Outcome.Result<MaterialLightMode>)
    ensures r.Ok? <==> s in MaterialLightModeNames
    ensures r.Ok? ==> MaterialLightModeToString(r.value) == s
    ensures r.Err? ==> r.fault == Outcome.Thrown
  {
    EngineUtils.UnknownNameThrows(MaterialLightModeNames, s);
    match EngineUtils.IndexOf(MaterialLightModeNames, s)
    case Ok(i) =>
      assert MaterialLightModeOrdinal(MaterialLightModeValues[i]) == i;
      Outcome.Ok(MaterialLightModeValues[i])
    case Err(f) => Outcome.Err(f)
  }

  /** Every enumerator's name converts back to that enumerator. */
  lemma MaterialLightModeRoundTrip(e: MaterialLightMode)
    ensures StringToMaterialLightMode(MaterialLightModeToString(e)) == Outcome.Ok(e)
  {
    EngineUtils.DistinctRoundTrip(MaterialLightModeNames, MaterialLightModeOrdinal(e));
  }

  // Render_pass_blend_mode

  datatype RenderPassBlendMode = Opaque | BlendedAlpha | Additive

  const RenderPassBlendModeNames: seq<string> := ["Opaque", "Blended_alpha", "Additive"]

  /** The enumerators in declaration order. */
  const RenderPassBlendModeValues: seq<RenderPassBlendMode> := [RenderPassBlendMode.Opaque, RenderPassBlendMode.BlendedAlpha, RenderPassBlendMode.Additive]

  /** The enumerator's position in the enumeration, which indexes its name. */
  function RenderPassBlendModeOrdinal(e: RenderPassBlendMode): (r: nat)
    ensures r < |RenderPassBlendModeNames| == |RenderPassBlendModeValues| && RenderPassBlendModeValues[r] == e
  {
    match e
    case Opaque => 0
    case BlendedAlpha => 1
    case Additive => 2
  }

  function RenderPassBlendModeToString(e: RenderPassBlendMode): string
  {
    RenderPassBlendModeNames[RenderPassBlendModeOrdinal(e)]
  }

  /** Throws for any text that is not one of the names. */
  function StringToRenderPassBlendMode(s: string): (r: Outcome.Result<RenderPassBlendMode>)
    ensures r.Ok? <==> s in RenderPassBlendModeNames
    ensures r.Ok? ==> RenderPassBlendModeToString(r.value) == s
    ensures r.Err? ==> r.fault == Outcome.Thrown
  {
    EngineUtils.UnknownNameThrows(RenderPassBlendModeNames, s);
    match EngineUtils.IndexOf(RenderPassBlendModeNames, s)
    case Ok(i) =>
      assert RenderPassBlendModeOrdinal(RenderPassBlendModeValues[i]) == i;
      Outcome.Ok(RenderPassBlendModeValues[i])
    case Err(f) => Outcome.Err(f)
  }

  /** Every enumerator's name converts back to that enumerator. */
  lemma RenderPassBlendModeRoundTrip(e: RenderPassBlendMode)
    ensures StringToRenderPassBlendMode(RenderPassBlendModeToString(e)) == Outcome.Ok(e)
  {
    EngineUtils.DistinctRoundTrip(RenderPassBlendModeNames, RenderPassBlendModeOrdinal(e));
  }

  // Render_pass_depth_mode

  datatype RenderPassDepthMode = ReadWrite | ReadOnly | WriteOnly | Disabled

  const RenderPassDepthModeNames: seq<string> := ["Read_write", "Read_only", "Write_only", "Disabled"]

  /** The enumerators in declaration order. */
  const RenderPassDepthModeValues: seq<RenderPassDepthMode> := [RenderPassDepthMode.ReadWrite, RenderPassDepthMode.ReadOnly, RenderPassDepthMode.WriteOnly, RenderPassDepthMode.Disabled]

  /** The enumerator's position in the enumeration, which indexes its name. */
  function RenderPassDepthModeOrdinal(e: RenderPassDepthMode): (r: nat)
    ensures r < |RenderPassDepthModeNames| == |RenderPassDepthModeValues| && RenderPassDepthModeValues[r] == e
  {
    match e
    case ReadWrite => 0
    case ReadOnly => 1
    case WriteOnly => 2
    case Disabled => 3
  }

  function RenderPassDepthModeToString(e: RenderPassDepthMode): string
  {
    RenderPassDepthModeNames[RenderPassDepthModeOrdinal(e)]
  }

  /** Throws for any text that is not one of the names. */
  function StringToRenderPassDepthMode(s: string): (r: Outcome.Result<RenderPassDepthMode>)
    ensures r.Ok? <==> s in RenderPassDepthModeNames
    ensures r.Ok? ==> RenderPassDepthModeToString(r.value) == s
    ensures r.Err? ==> r.fault == Outcome.Thrown
  {
    EngineUtils.UnknownNameThrows(RenderPassDepthModeNames, s);
    match EngineUtils.IndexOf(RenderPassDepthModeNames, s)
    case Ok(i) =>
      assert RenderPassDepthModeOrdinal(RenderPassDepthModeValues[i]) == i;
      Outcome.Ok(RenderPassDepthModeValues[i])
    case Err(f) => Outcome.Err(f)
  }

  /** Every enumerator's name converts back to that enumerator. */
  lemma RenderPassDepthModeRoundTrip(e: RenderPassDepthMode)
    ensures StringToRenderPassDepthMode(RenderPassDepthModeToString(e)) == Outcome.Ok(e)
  {
    EngineUtils.DistinctRoundTrip(RenderPassDepthModeNames, RenderPassDepthModeOrdinal(e));
  }

  // Render_pass_stencil_mode

  datatype RenderPassStencilMode = Enabled | Disabled

  const RenderPassStencilModeNames: seq<string> := ["Enabled", "Disabled"]

  /** The enumerators in declaration order. */
  const RenderPassStencilModeValues: seq<RenderPassStencilMode> := [RenderPassStencilMode.Enabled, RenderPassStencilMode.Disabled]

  /** The enumerator's position in the enumeration, which indexes its name. */
  function RenderPassStencilModeOrdinal(e: RenderPassStencilMode): (r: nat)
    ensures r < |RenderPassStencilModeNames| == |RenderPassStencilModeValues| && RenderPassStencilModeValues[r] == e
  {
    match e
    case Enabled => 0
    case Disabled => 1
  }

  function RenderPassStencilModeToString(e: RenderPassStencilMode): string
  {
    RenderPassStencilModeNames[RenderPassStencilModeOrdinal(e)]
  }

  /** Throws for any text that is not one of the names. */
  function StringToRenderPassStencilMode(s: string): (r: Outcome.Result<RenderPassStencilMode>)
    ensures r.Ok? <==> s in RenderPassStencilModeNames
    ensures r.Ok? ==> RenderPassStencilModeToString(r.value) == s
    ensures r.Err? ==> r.fault == Outcome.Thrown
  {
    EngineUtils.UnknownNameThrows(RenderPassStencilModeNames, s);
    match EngineUtils.IndexOf(RenderPassStencilModeNames, s)
    case Ok(i) =>
      assert RenderPassStencilModeOrdinal(RenderPassStencilModeValues[i]) == i;
      Outcome.Ok(RenderPassStencilModeValues[i])
    case Err(f) => Outcome.Err(f)
  }

  /** Every enumerator's name converts back to that enumerator. */
  lemma RenderPassStencilModeRoundTrip(e: RenderPassStencilMode)
    ensures StringToRenderPassStencilMode(RenderPassStencilModeToString(e)) == Outcome.Ok(e)
  {
    EngineUtils.DistinctRoundTrip(RenderPassStencilModeNames, RenderPassStencilModeOrdinal(e));
  }

  // Render_pass_destination

  datatype RenderPassDestination = Default | Gbuffer | RenderTargetView

  const RenderPassDestinationNames: seq<string> := ["Default", "Gbuffer", "Render_target_view"]

  /** The enumerators in declaration order. */
  const RenderPassDestinationValues: seq<RenderPassDestination> := [RenderPassDestination.Default, RenderPassDestination.Gbuffer, RenderPassDestination.RenderTargetView]

  /** The enumerator's position in the enumeration, which indexes its name. */
  function RenderPassDestinationOrdinal(e: RenderPassDestination): (r: nat)
    ensures r < |RenderPassDestinationNames| == |RenderPassDestinationValues| && RenderPassDestinationValues[r] == e
  {
    match e
    case Default => 0
    case Gbuffer => 1
    case RenderTargetView => 2
  }

  function RenderPassDestinationToString(e: RenderPassDestination): string
  {
    RenderPassDestinationNames[RenderPassDestinationOrdinal(e)]
  }

  /** Throws for any text that is not one of the names. */
  function StringToRenderPassDestination(s: string): (r: Outcome.Result<RenderPassDestination>)
    ensures r.Ok? <==> s in RenderPassDestinationNames
    ensures r.Ok? ==> RenderPassDestinationToString(r.value) == s
    ensures r.Err? ==> r.fault == Outcome.Thrown
  {
    EngineUtils.UnknownNameThrows(RenderPassDestinationNames, s);
    match EngineUtils.IndexOf(RenderPassDestinationNames, s)
    case Ok(i) =>
      assert RenderPassDestinationOrdinal(RenderPassDestinationValues[i]) == i;
      Outcome.Ok(RenderPassDestinationValues[i])
    case Err(f) => Outcome.Err(f)
  }

  /** Every enumerator's name converts back to that enumerator. */
  lemma RenderPassDestinationRoundTrip(e: RenderPassDestination)
    ensures StringToRenderPassDestination(RenderPassDestinationToString(e)) == Outcome.Ok(e)
  {
    EngineUtils.DistinctRoundTrip(RenderPassDestinationNames, RenderPassDestinationOrdinal(e));
  }

  // Vertex_attribute

  datatype VertexAttribute = Position | Color | Normal | Tangent | BiTangent | TexCoord | Joints | Weights

  const VertexAttributeNames: seq<string> := ["Position", "Color", "Normal", "Tangent", "Bi_tangent", "Tex_coord", "Joints", "Weights"]

  /** The enumerators in declaration order. */
  const VertexAttributeValues: seq<VertexAttribute> := [VertexAttribute.Position, VertexAttribute.Color, VertexAttribute.Normal, VertexAttribute.Tangent, VertexAttribute.BiTangent, VertexAttribute.TexCoord, VertexAttribute.Joints, VertexAttribute.Weights]

  /** The enumerator's position in the enumeration, which indexes its name. */
  function VertexAttributeOrdinal(e: VertexAttribute): (r: nat)
    ensures r < |VertexAttributeNames| == |VertexAttributeValues| && VertexAttributeValues[r] == e
  {
    match e
    case Position => 0
    case Color => 1
    case Normal => 2
    case Tangent => 3
    case BiTangent => 4
    case TexCoord => 5
    case Joints => 6
    case Weights => 7
  }

  function VertexAttributeToString(e: VertexAttribute): string
  {
    VertexAttributeNames[VertexAttributeOrdinal(e)]
  }

  /** Throws for any text that is not one of the names. */
  function StringToVertexAttribute(s: string): (r: Outcome.Result<VertexAttribute>)
    ensures r.Ok? <==> s in VertexAttributeNames
    ensures r.Ok? ==> VertexAttributeToString(r.value) == s
    ensures r.Err? ==> r.fault == Outcome.Thrown
  {
    EngineUtils.UnknownNameThrows(VertexAttributeNames, s);
    match EngineUtils.IndexOf(VertexAttributeNames, s)
    case Ok(i) =>
      assert VertexAttributeOrdinal(VertexAttributeValues[i]) == i;
      Outcome.Ok(VertexAttributeValues[i])
    case Err(f) => Outcome.Err(f)
  }

  /** Every enumerator's name converts back to that enumerator. */
  lemma VertexAttributeRoundTrip(e: VertexAttribute)
    ensures StringToVertexAttribute(VertexAttributeToString(e)) == Outcome.Ok(e)
  {
    EngineUtils.DistinctRoundTrip(VertexAttributeNames, VertexAttributeOrdinal(e));
  }

  // Mesh_index_type

  datatype MeshIndexType = Triangles | Lines

  const MeshIndexTypeNames: seq<string> := ["Triangles", "Lines"]

  /** The enumerators in declaration order. */
  const MeshIndexTypeValues: seq<MeshIndexType> := [MeshIndexType.Triangles, MeshIndexType.Lines]

  /** The enumerator's position in the enumeration, which indexes its name. */
  function MeshIndexTypeOrdinal(e: MeshIndexType): (r: nat)
    ensures r < |MeshIndexTypeNames| == |MeshIndexTypeValues| && MeshIndexTypeValues[r] == e
  {
    match e
    case Triangles => 0
    case Lines => 1
  }

  function MeshIndexTypeToString(e: MeshIndexType): string
  {
    MeshIndexTypeNames[MeshIndexTypeOrdinal(e)]
  }

  /** Throws for any text that is not one of the names. */
  function StringToMeshIndexType(s: string): (r: Outcome.Result<MeshIndexType>)
    ensures r.Ok? <==> s in MeshIndexTypeNames
    ensures r.Ok? ==> MeshIndexTypeToString(r.value) == s
    ensures r.Err? ==> r.fault == Outcome.Thrown
  {
    EngineUtils.UnknownNameThrows(MeshIndexTypeNames, s);
    match EngineUtils.IndexOf(MeshIndexTypeNames, s)
    case Ok(i) =>
      assert MeshIndexTypeOrdinal(MeshIndexTypeValues[i]) == i;
      Outcome.Ok(MeshIndexTypeValues[i])
    case Err(f) => Outcome.Err(f)
  }

  /** Every enumerator's name converts back to that enumerator. */
  lemma MeshIndexTypeRoundTrip(e: MeshIndexType)
    ensures StringToMeshIndexType(MeshIndexTypeToString(e)) == Outcome.Ok(e)
  {
    EngineUtils.DistinctRoundTrip(MeshIndexTypeNames, MeshIndexTypeOrdinal(e));
  }

  // Animation_type

  datatype AnimationType = Translation | Rotation | Scale | Morph

  const AnimationTypeNames: seq<string> := ["Translation", "Rotation", "Scale", "Morph"]

  /** The enumerators in declaration order. */
  const AnimationTypeValues: seq<AnimationType> := [AnimationType.Translation, AnimationType.Rotation, AnimationType.Scale, AnimationType.Morph]

  /** The enumerator's position in the enumeration, which indexes its name. */
  function AnimationTypeOrdinal(e: AnimationType): (r: nat)
    ensures r < |AnimationTypeNames| == |AnimationTypeValues| && AnimationTypeValues[r] == e
  {
    match e
    case Translation => 0
    case Rotation => 1
    case Scale => 2
    case Morph => 3
  }

  function AnimationTypeToString(e: AnimationType): string
  {
    AnimationTypeNames[AnimationTypeOrdinal(e)]
  }

  /** Throws for any text that is not one of the names. */
  function StringToAnimationType(s: string): (r: Outcome.Result<AnimationType>)
    ensures r.Ok? <==> s in AnimationTypeNames
    ensures r.Ok? ==> AnimationTypeToString(r.value) == s
    ensures r.Err? ==> r.fault == Outcome.Thrown
  {
    EngineUtils.UnknownNameThrows(AnimationTypeNames, s);
    match EngineUtils.IndexOf(AnimationTypeNames, s)
    case Ok(i) =>
      assert AnimationTypeOrdinal(AnimationTypeValues[i]) == i;
      Outcome.Ok(AnimationTypeValues[i])
    case Err(f) => Outcome.Err(f)
  }

  /** Every enumerator's name converts back to that enumerator. */
  lemma AnimationTypeRoundTrip(e: AnimationType)
    ensures StringToAnimationType(AnimationTypeToString(e)) == Outcome.Ok(e)
  {
    EngineUtils.DistinctRoundTrip(AnimationTypeNames, AnimationTypeOrdinal(e));
  }

  // Animation_interpolation

  datatype AnimationInterpolation = Linear | Step | CubicSpline

  const AnimationInterpolationNames: seq<string> := ["Linear", "Step", "Cubic_spline"]

  /** The enumerators in declaration order. */
  const AnimationInterpolationValues: seq<AnimationInterpolation> := [AnimationInterpolation.Linear, AnimationInterpolation.Step, AnimationInterpolation.CubicSpline]

  /** The enumerator's position in the enumeration, which indexes its name. */
  function AnimationInterpolationOrdinal(e: AnimationInterpolation): (r: nat)
    ensures r < |AnimationInterpolationNames| == |AnimationInterpolationValues| && AnimationInterpolationValues[r] == e
  {
    match e
    case Linear => 0
    case Step => 1
    case CubicSpline => 2
  }

  function AnimationInterpolationToString(e: AnimationInterpolation): string
  {
    AnimationInterpolationNames[AnimationInterpolationOrdinal(e)]
  }

  /** Throws for any text that is not one of the names. */
  function StringToAnimationInterpolation(s: string): (r: Outcome.Result<AnimationInterpolation>)
    ensures r.Ok? <==> s in AnimationInterpolationNames
    ensures r.Ok? ==> AnimationInterpolationToString(r.value) == s
    ensures r.Err? ==> r.fault == Outcome.Thrown
  {
    EngineUtils.UnknownNameThrows(AnimationInterpolationNames, s);
    match EngineUtils.IndexOf(AnimationInterpolationNames, s)
    case Ok(i) =>
      assert AnimationInterpolationOrdinal(AnimationInterpolationValues[i]) == i;
      Outcome.Ok(AnimationInterpolationValues[i])
    case Err(f) => Outcome.Err(f)
  }

  /** Every enumerator's name converts back to that enumerator. */
  lemma AnimationInterpolationRoundTrip(e: AnimationInterpolation)
    ensures StringToAnimationInterpolation(AnimationInterpolationToString(e)) == Outcome.Ok(e)
  {
    EngineUtils.DistinctRoundTrip(AnimationInterpolationNames, AnimationInterpolationOrdinal(e));
  }

  // Element_type

  datatype ElementType = Scalar | Vector2 | Vector3 | Vector4 | Matrix2 | Matrix3 | Matrix4

  const ElementTypeNames: seq<string> := ["Scalar", "Vector2", "Vector3", "Vector4", "Matrix2", "Matrix3", "Matrix4"]

  /** The enumerators in declaration order. */
  const ElementTypeValues: seq<ElementType> := [ElementType.Scalar, ElementType.Vector2, ElementType.Vector3, ElementType.Vector4, ElementType.Matrix2, ElementType.Matrix3, ElementType.Matrix4]

  /** The enumerator's position in the enumeration, which indexes its name. */
  function ElementTypeOrdinal(e: ElementType): (r: nat)
    ensures r < |ElementTypeNames| == |ElementTypeValues| && ElementTypeValues[r] == e
  {
    match e
    case Scalar => 0
    case Vector2 => 1
    case Vector3 => 2
    case Vector4 => 3
    case Matrix2 => 4
    case Matrix3 => 5
    case Matrix4 => 6
  }

  function ElementTypeToString(e: ElementType): string
  {
    ElementTypeNames[ElementTypeOrdinal(e)]
  }

  /** Throws for any text that is not one of the names. */
  function StringToElementType(s: string): (r: Outcome.Result<ElementType>)
    ensures r.Ok? <==> s in ElementTypeNames
    ensures r.Ok? ==> ElementTypeToString(r.value) == s
    ensures r.Err? ==> r.fault == Outcome.Thrown
  {
    EngineUtils.UnknownNameThrows(ElementTypeNames, s);
    match EngineUtils.IndexOf(ElementTypeNames, s)
    case Ok(i) =>
      assert ElementTypeOrdinal(ElementTypeValues[i]) == i;
      Outcome.Ok(ElementTypeValues[i])
    case Err(f) => Outcome.Err(f)
  }

  /** Every enumerator's name converts back to that enumerator. */
  lemma ElementTypeRoundTrip(e: ElementType)
    ensures StringToElementType(ElementTypeToString(e)) == Outcome.Ok(e)
  {
    EngineUtils.DistinctRoundTrip(ElementTypeNames, ElementTypeOrdinal(e));
  }

  // Element_component

  datatype ElementComponent = SignedByte | UnsignedByte | SignedShort | UnsignedShort | SignedInt | UnsignedInt | Float

  const ElementComponentNames: seq<string> := ["Signed_byte", "Unsigned_byte", "Signed_short", "Unsigned_short", "Signed_int", "Unsigned_int", "Float"]

  /** The enumerators in declaration order. */
  const ElementComponentValues: seq<ElementComponent> := [ElementComponent.SignedByte, ElementComponent.UnsignedByte, ElementComponent.SignedShort, ElementComponent.UnsignedShort, ElementComponent.SignedInt, ElementComponent.UnsignedInt, ElementComponent.Float]

  /** The enumerator's position in the enumeration, which indexes its name. */
  function ElementComponentOrdinal(e: ElementComponent): (r: nat)
    ensures r < |ElementComponentNames| == |ElementComponentValues| && ElementComponentValues[r] == e
  {
    match e
    case SignedByte => 0
    case UnsignedByte => 1
    case SignedShort => 2
    case UnsignedShort => 3
    case SignedInt => 4
    case UnsignedInt => 5
    case Float => 6
  }

  function ElementComponentToString(e: ElementComponent): string
  {
    ElementComponentNames[ElementComponentOrdinal(e)]
  }

  /** Throws for any text that is not one of the names. */
  function StringToElementComponent(s: string): (r: Outcome.Result<ElementComponent>)
    ensures r.Ok? <==> s in ElementComponentNames
    ensures r.Ok? ==> ElementComponentToString(r.value) == s
    ensures r.Err? ==> r.fault == Outcome.Thrown
  {
    EngineUtils.UnknownNameThrows(ElementComponentNames, s);
    match EngineUtils.IndexOf(ElementComponentNames, s)
    case Ok(i) =>
      assert ElementComponentOrdinal(ElementComponentValues[i]) == i;
      Outcome.Ok(ElementComponentValues[i])
    case Err(f) => Outcome.Err(f)
  }

  /** Every enumerator's name converts back to that enumerator. */
  lemma ElementComponentRoundTrip(e: ElementComponent)
    ensures StringToElementComponent(ElementComponentToString(e)) == Outcome.Ok(e)
  {
    EngineUtils.DistinctRoundTrip(ElementComponentNames, ElementComponentOrdinal(e));
  }

  // Debug_display_mode

  datatype DebugDisplayMode = None | Normals | WorldPositions | Lighting

  const DebugDisplayModeNames: seq<string> := ["None", "Normals", "World_positions", "Lighting"]

  /** The enumerators in declaration order. */
  const DebugDisplayModeValues: seq<DebugDisplayMode> := [DebugDisplayMode.None, DebugDisplayMode.Normals, DebugDisplayMode.WorldPositions, DebugDisplayMode.Lighting]

  /** The enumerator's position in the enumeration, which indexes its name. */
  function DebugDisplayModeOrdinal(e: DebugDisplayMode): (r: nat)
    ensures r < |DebugDisplayModeNames| == |DebugDisplayModeValues| && DebugDisplayModeValues[r] == e
  {
    match e
    case None => 0
    case Normals => 1
    case WorldPositions => 2
    case Lighting => 3
  }

  function DebugDisplayModeToString(e: DebugDisplayMode): string
  {
    DebugDisplayModeNames[DebugDisplayModeOrdinal(e)]
  }

  /** Throws for any text that is not one of the names. */
  function StringToDebugDisplayMode(s: string): (r: Outcome.Result<DebugDisplayMode>)
    ensures r.Ok? <==> s in DebugDisplayModeNames
    ensures r.Ok? ==> DebugDisplayModeToString(r.value) == s
    ensures r.Err? ==> r.fault == Outcome.Thrown
  {
    EngineUtils.UnknownNameThrows(DebugDisplayModeNames, s);
    match EngineUtils.IndexOf(DebugDisplayModeNames, s)
    case Ok(i) =>
      assert DebugDisplayModeOrdinal(DebugDisplayModeValues[i]) == i;
      Outcome.Ok(DebugDisplayModeValues[i])
    case Err(f) => Outcome.Err(f)
  }

  /** Every enumerator's name converts back to that enumerator. */
  lemma DebugDisplayModeRoundTrip(e: DebugDisplayMode)
    ensures StringToDebugDisplayMode(DebugDisplayModeToString(e)) == Outcome.Ok(e)
  {
    EngineUtils.DistinctRoundTrip(DebugDisplayModeNames, DebugDisplayModeOrdinal(e));
  }

  // Sampler_filter_type

  datatype SamplerFilterType = Point | Linear | PointMipmapPoint | PointMipmapLinear | LinearMipmapPoint | LinearMipmapLinear

  const SamplerFilterTypeNames: seq<string> := ["Point", "Linear", "Point_mipmap_point", "Point_mipmap_linear", "Linear_mipmap_point", "Linear_mipmap_linear"]

  /** The enumerators in declaration order. */
  const SamplerFilterTypeValues: seq<SamplerFilterType> := [SamplerFilterType.Point, SamplerFilterType.Linear, SamplerFilterType.PointMipmapPoint, SamplerFilterType.PointMipmapLinear, SamplerFilterType.LinearMipmapPoint, SamplerFilterType.LinearMipmapLinear]

  /** The enumerator's position in the enumeration, which indexes its name. */
  function SamplerFilterTypeOrdinal(e: SamplerFilterType): (r: nat)
    ensures r < |SamplerFilterTypeNames| == |SamplerFilterTypeValues| && SamplerFilterTypeValues[r] == e
  {
    match e
    case Point => 0
    case Linear => 1
    case PointMipmapPoint => 2
    case PointMipmapLinear => 3
    case LinearMipmapPoint => 4
    case LinearMipmapLinear => 5
  }

  function SamplerFilterTypeToString(e: SamplerFilterType): string
  {
    SamplerFilterTypeNames[SamplerFilterTypeOrdinal(e)]
  }

  /** Throws for any text that is not one of the names. */
  function StringToSamplerFilterType(s: string): (r: Outcome.Result<SamplerFilterType>)
    ensures r.Ok? <==> s in SamplerFilterTypeNames
    ensures r.Ok? ==> SamplerFilterTypeToString(r.value) == s
    ensures r.Err? ==> r.fault == Outcome.Thrown
  {
    EngineUtils.UnknownNameThrows(SamplerFilterTypeNames, s);
    match EngineUtils.IndexOf(SamplerFilterTypeNames, s)
    case Ok(i) =>
      assert SamplerFilterTypeOrdinal(SamplerFilterTypeValues[i]) == i;
      Outcome.Ok(SamplerFilterTypeValues[i])
    case Err(f) => Outcome.Err(f)
  }

  /** Every enumerator's name converts back to that enumerator. */
  lemma SamplerFilterTypeRoundTrip(e: SamplerFilterType)
    ensures StringToSamplerFilterType(SamplerFilterTypeToString(e)) == Outcome.Ok(e)
  {
    EngineUtils.DistinctRoundTrip(SamplerFilterTypeNames, SamplerFilterTypeOrdinal(e));
  }

  // Sampler_texture_address_mode

  datatype SamplerTextureAddressMode = Wrap | Mirror | Clamp | Border | MirrorOnce

  const SamplerTextureAddressModeNames: seq<string> := ["Wrap", "Mirror", "Clamp", "Border", "Mirror_once"]

  /** The enumerators in declaration order. */
  const SamplerTextureAddressModeValues: seq<SamplerTextureAddressMode> := [SamplerTextureAddressMode.Wrap, SamplerTextureAddressMode.Mirror, SamplerTextureAddressMode.Clamp, SamplerTextureAddressMode.Border, SamplerTextureAddressMode.MirrorOnce]

  /** The enumerator's position in the enumeration, which indexes its name. */
  function SamplerTextureAddressModeOrdinal(e: SamplerTextureAddressMode): (r: nat)
    ensures r < |SamplerTextureAddressModeNames| == |SamplerTextureAddressModeValues| && SamplerTextureAddressModeValues[r] == e
  {
    match e
    case Wrap => 0
    case Mirror => 1
    case Clamp => 2
    case Border => 3
    case MirrorOnce => 4
  }

  function SamplerTextureAddressModeToString(e: SamplerTextureAddressMode): string
  {
    SamplerTextureAddressModeNames[SamplerTextureAddressModeOrdinal(e)]
  }

  /** Throws for any text that is not one of the names. */
  function StringToSamplerTextureAddressMode(s: string): (r: Outcome.Result<SamplerTextureAddressMode>)
    ensures r.Ok? <==> s in SamplerTextureAddressModeNames
    ensures r.Ok? ==> SamplerTextureAddressModeToString(r.value) == s
    ensures r.Err? ==> r.fault == Outcome.Thrown
  {
    EngineUtils.UnknownNameThrows(SamplerTextureAddressModeNames, s);
    match EngineUtils.IndexOf(SamplerTextureAddressModeNames, s)
    case Ok(i) =>
      assert SamplerTextureAddressModeOrdinal(SamplerTextureAddressModeValues[i]) == i;
      Outcome.Ok(SamplerTextureAddressModeValues[i])
    case Err(f) => Outcome.Err(f)
  }

  /** Every enumerator's name converts back to that enumerator. */
  lemma SamplerTextureAddressModeRoundTrip(e: SamplerTextureAddressMode)
    ensures StringToSamplerTextureAddressMode(SamplerTextureAddressModeToString(e)) == Outcome.Ok(e)
  {
    EngineUtils.DistinctRoundTrip(SamplerTextureAddressModeNames, SamplerTextureAddressModeOrdinal(e));
  }

  // Sampler_comparison_func

  datatype SamplerComparisonFunc = Never | Less | Equal | LessEqual | Greater | NotEqual | GreaterEqual | Always

  const SamplerComparisonFuncNames: seq<string> := ["Never", "Less", "Equal", "Less_equal", "Greater", "Not_equal", "Greater_equal", "Always"]

  /** The enumerators in declaration order. */
  const SamplerComparisonFuncValues: seq<SamplerComparisonFunc> := [SamplerComparisonFunc.Never, SamplerComparisonFunc.Less, SamplerComparisonFunc.Equal, SamplerComparisonFunc.LessEqual, SamplerComparisonFunc.Greater, SamplerComparisonFunc.NotEqual, SamplerComparisonFunc.GreaterEqual, SamplerComparisonFunc.Always]

  /** The enumerator's position in the enumeration, which indexes its name. */
  function SamplerComparisonFuncOrdinal(e: SamplerComparisonFunc): (r: nat)
    ensures r < |SamplerComparisonFuncNames| == |SamplerComparisonFuncValues| && SamplerComparisonFuncValues[r] == e
  {
    match e
    case Never => 0
    case Less => 1
    case Equal => 2
    case LessEqual => 3
    case Greater => 4
    case NotEqual => 5
    case GreaterEqual => 6
    case Always => 7
  }

  function SamplerComparisonFuncToString(e: SamplerComparisonFunc): string
  {
    SamplerComparisonFuncNames[SamplerComparisonFuncOrdinal(e)]
  }

  /** Throws for any text that is not one of the names. */
  function StringToSamplerComparisonFunc(s: string): (r: Outcome.Result<SamplerComparisonFunc>)
    ensures r.Ok? <==> s in SamplerComparisonFuncNames
    ensures r.Ok? ==> SamplerComparisonFuncToString(r.value) == s
    ensures r.Err? ==> r.fault == Outcome.Thrown
  {
    EngineUtils.UnknownNameThrows(SamplerComparisonFuncNames, s);
    match EngineUtils.IndexOf(SamplerComparisonFuncNames, s)
    case Ok(i) =>
      assert SamplerComparisonFuncOrdinal(SamplerComparisonFuncValues[i]) == i;
      Outcome.Ok(SamplerComparisonFuncValues[i])
    case Err(f) => Outcome.Err(f)
  }

  /** Every enumerator's name converts back to that enumerator. */
  lemma SamplerComparisonFuncRoundTrip(e: SamplerComparisonFunc)
    ensures StringToSamplerComparisonFunc(SamplerComparisonFuncToString(e)) == Outcome.Ok(e)
  {
    EngineUtils.DistinctRoundTrip(SamplerComparisonFuncNames, SamplerComparisonFuncOrdinal(e));
  }
}
